=== FILE: README.md ===
# NoteFlo core in Dafny

NoteFlo is an editor extension that keeps meeting notes, daily journals,
general notes, todo lists, a time ledger and client invoices as plain files in
a workspace. This project models its core logic as pure Dafny functions,
methods and lemmas:

- **Note file names** (`NoteNames`, `Slug`): how notes are named when they are
  created (`sanitizeFilename`, `<slug>-<date>.md`, `<date>.md`) and how the
  dashboard and the notes index read titles and dates back from those names.
- **Dashboard aggregation** (`Dashboard`): scanning the three note folders,
  sorting newest first, the statistics, the week/month/older buckets, the
  month-grouped archive and the latest-note dates.
- **Time ledger** (`TimeLedger`): the tracking state machine (start, stop,
  running duration), the monthly JSON ledgers and manual time entry.
- **Invoices** (`Invoice`, `PdfLayout`): per-year invoice numbering, the
  invoice arithmetic, the generation flow, the markdown and PDF description
  truncation, the `.gitignore` entry, and the PDF layout cursor with its page
  breaks.
- **Configuration** (`Config`): loading `.noteflo/config.json`, merging it
  with defaults, updating it, and the asynchronous and synchronous getters.
- **Todo lists**:
  - `QuickTodo` covers the quick-todo command of `src/noteCreator.ts`:
    - the priority emoji and the entry format;
    - inserting into an existing priority section;
    - choosing the anchor for a new section;
    - creating a new file.
  - `LegacyTodo` covers the older compiled command in `out/noteCreator.js`.

Shared modules:

- `Text` holds the JavaScript string built-ins the source relies on: `indexOf`, `trim`, `split`/`join`, `replace`, `padStart` and number-to-string.
- `Dates` holds `new Date("YYYY-MM-DD")` parsing and civil-date arithmetic.
- `StrOrder` holds the default `Array.prototype.sort` order on strings.
- `Opt` holds an option type.

All files form one program and are verified together:
`dafny verify --resource-limit 2000000 --verification-time-limit 0 *.dfy`.

The host passes in everything that comes from outside the program:

- **Directory listings**: as sequences of names.
- **Existing file contents**: as `Option<string>`.
- **The clock**: as millisecond instants plus a time-zone offset.
- **Formatted timestamps**: as opaque strings or a formatting function.
- **Prompt answers**: as `Option` values, where `None` means the prompt was dismissed.
- **Writes**: as returned maps, returned contents or outcomes.

Points where the code behaves differently from what one might expect:

- **Time buckets.** The grouping (src/dashboardManager.ts:215-220) lets "this week" and "older" overlap during the first days of a month, because "older" is everything before the first of the month. `Dashboard.WeekOverlapsOlder` states exactly when that happens. The statistics (src/dashboardManager.ts:195-196) count "this month" without excluding the week.
- **Note name patterns.** Meeting notes are read with either `<slug>-<date>.md` or `<date>-<slug>.md` (src/dashboardManager.ts:549-561), but general notes only with `<slug>-<date>.md` (src/dashboardManager.ts:571-577). `NoteNames.PrefixFormNotNote` shows a `<date>-<slug>.md` name that the general-note parser rejects.
- **Invoice numbering.** The number after `INV-<year>-` is read with three digits only (src/invoiceGenerator.ts:181), so the year's maximum stops at 999 (see Findings).
- **Manual time entry.** A manual entry is filed under the local month of the date's UTC-midnight instant (src/timeTracker.ts:245), which west of UTC is the previous day (see Findings).
- **Session start.** The running session's start is stored as the configured zone's wall-clock time without an offset (src/timeTracker.ts:70) and read back in the host's zone (src/timeTracker.ts:92-94), so the filed duration is off by the difference between the two zones (see Findings).

## Model

| member | source | states |
|---|---|---|
| Text.IndexOf | src/noteCreator.ts:399 | `includes`/`indexOf`: the result is the first position where the pattern occurs, and None exactly when it occurs nowhere |
| Text.TrimStart | out/noteCreator.js:187 | the leading half of `trim`: what is removed is all white space and what is left does not start with white space |
| Text.TrimEnd | out/noteCreator.js:187 | the trailing half of `trim`: what is removed is all white space and what is left does not end with white space |
| Text.ReplaceAll | src/dashboardManager.ts:552 | `replace(/-/g, ' ')`: same length, every occurrence of the character replaced and every other character kept |
| Text.ReplaceFirst | src/noteCreator.ts:558 | `replace('.md', '')` with a string pattern: the leftmost occurrence is replaced and the text around it kept, and the text is unchanged when the pattern occurs nowhere |
| Text.JoinSplit | out/noteCreator.js:186 | joining the lines of `split('\n')` with the separator gives back the original text |
| Text.SplitJoin | out/noteCreator.js:196 | splitting a join of separator-free lines gives back exactly those lines |
| Text.NatToStringValue | src/invoiceGenerator.ts:191 | the decimal text of a counter reads back as the same number |
| Text.PadStart | src/timeTracker.ts:50 | `padStart`: the result has the requested width (or the original length), ends with the original and is filled on the left with the pad character |
| Text.PaddedValue | src/invoiceGenerator.ts:191 | zero-padding a number's decimal text keeps it all digits with the same value |
| Slug.KeepSlugChars | src/noteCreator.ts:68 | after the `[^a-z0-9\s-]` filter every character left is a lower-case letter, a digit, white space or `-` |
| Slug.CollapseSpaces | src/noteCreator.ts:69 | after `\s+` to `-` no white space is left, and every other character comes from the input |
| Slug.CollapseDashes | src/noteCreator.ts:70 | after `-+` to `-` no two dashes are adjacent, and the first character is kept |
| Slug.StripEdgeDashes | src/noteCreator.ts:71 | the result neither starts nor ends with `-`, and keeps the no-double-dash property |
| Slug.Sanitize | src/noteCreator.ts:66-72 | every sanitized title is a slug: lower-case letters, digits and single inner dashes |
| Slug.SanitizeKeepsAlnum | src/noteCreator.ts:66-72 | sanitizing loses no letter or digit of the lower-cased title and adds none, in order |
| Slug.LoweredSlug | src/noteCreator.ts:67 | lower-casing leaves slug characters unchanged |
| Slug.SanitizeFixesSlugs | src/noteCreator.ts:66-72 | a title that already is a slug is its own sanitized form |
| Slug.SanitizeIdempotent | src/noteCreator.ts:66-72 | sanitizing twice is the same as sanitizing once |
| Slug.SanitizePunctuationOnly | src/noteCreator.ts:66-72 | a title of punctuation only sanitizes to the empty slug |
| Dates.CivilFromDays | src/timeTracker.ts:49-50 | the calendar fields of a day number are a month 1..12 and a day 1..31 |
| Dates.CivilFromDaysInverse | src/timeTracker.ts:49-50 | the calendar date of every day number is a real date, its day within its month's length, and counting days to it gives the day number back |
| Dates.CivilDaysRoundTrip | src/timeTracker.ts:49-50 | every real date is the calendar date of its own day number, so the calendar conversion is a bijection between day numbers and real dates |
| Dates.ParseDateDays | src/timeTracker.ts:215-223 | a `YYYY-MM-DD` text parses exactly when month is 1..12 and day is 1..31; the day number is the month's first day plus the day offset, so out-of-month days roll over |
| Dates.ParseDateMs | src/dashboardManager.ts:195 | `new Date(d).getTime()` is defined exactly when the day parses, and is that day's UTC midnight |
| Dates.EpochIsDayZero | src/timeTracker.ts:49-50 | day 0 is 1970-01-01 in both directions of the calendar conversion |
| Dates.DayOverflowExample | src/timeTracker.ts:220-221 | `2024-02-30` parses to the same day as `2024-03-01`: the date check lets out-of-month days roll over |
| Dates.FieldOutOfRange | src/timeTracker.ts:220-222 | month 13 and day 00 are rejected as invalid dates |
| NoteNames.TitleOf | src/dashboardManager.ts:552 | the title has the slug's length and no `-` in it |
| NoteNames.MatchSuffix | src/dashboardManager.ts:550 | `^(.+)-(\d{4}-\d{2}-\d{2})\.md$` matches exactly when such a split exists, and then yields the title of the prefix and the date |
| NoteNames.MatchPrefix | src/dashboardManager.ts:555 | `^(\d{4}-\d{2}-\d{2})-(.+)\.md$` matches exactly when such a split exists, and then yields the title of the suffix and the date |
| NoteNames.ParseMeeting | src/dashboardManager.ts:549-561 | a meeting name parses iff either pattern matches, and the `<slug>-<date>` reading wins when both do |
| NoteNames.ParseNote | src/dashboardManager.ts:571-577 | a general note parses iff it has the `<slug>-<date>.md` shape |
| NoteNames.ParseDaily | src/dashboardManager.ts:563-569 | a daily name parses iff it is exactly `<date>.md`, titled "Daily Journal" |
| NoteNames.LegacyParseDaily | out/noteCreator.js:297-303 | the same shape as the current daily parser, titled "Daily Note" |
| NoteNames.NoteRoundTrip | src/dashboardManager.ts:571-577 | a name built as `<slug>-<date>.md` parses back to the slug's title and that date, in both the note and the meeting parser |
| NoteNames.SanitizedNoteRoundTrip | src/noteCreator.ts:270-272 | every new note with a non-empty sanitized title is seen by the scanner with its date |
| NoteNames.SlugFromTitle | src/dashboardManager.ts:574 | turning a slug's title back into dashes recovers the slug |
| NoteNames.EmptySlugNoteInvisible | src/noteCreator.ts:270-272 | a note whose title sanitizes to nothing (`-<date>.md`) is seen by no parser |
| NoteNames.DailyRoundTrip | src/noteCreator.ts:174-175 | a daily journal named `<date>.md` parses back to that date under both daily parsers |
| NoteNames.DailyParseInverse | src/dashboardManager.ts:563-569 | every accepted daily name is exactly the name built from its parsed date |
| NoteNames.DailyAndNoteNamesDisjoint | src/dashboardManager.ts:563-577 | daily journal names are not general notes, and general note names are not daily journals |
| NoteNames.MeetingSuffixWins | src/dashboardManager.ts:550-553 | for `<date>-<date>.md` the meeting parser takes the second date and the first as title |
| NoteNames.PrefixFormNotNote | src/dashboardManager.ts:572 | a `<date>-<slug>.md` name is not read by the general-note parser |
| NoteNames.PrefixFormRead | src/dashboardManager.ts:555-558 | when the suffix form does not match, the meeting parser reads `<date>-<slug>.md` with the slug's title |
| NoteNames.PrefixFormMeeting | src/dashboardManager.ts:555-558 | `2024-03-05-standup.md` is a meeting titled "standup" on 2024-03-05 |
| NoteNames.CreateDailyJournal | src/noteCreator.ts:187-194 | the journal file exists afterwards, no other file changes, an existing journal is opened and never overwritten |
| NoteNames.DailyJournalIdempotent | src/noteCreator.ts:187-194 | creating today's journal twice leaves the same directory as creating it once |
| NoteNames.CreateNote | src/noteCreator.ts:270-272 | the note is written under `<slug>-<date>.md` with the given content, and no other file changes |
| NoteNames.SameDayNoteOverwrites | src/noteCreator.ts:311 | a second note with the same title on the same day replaces the first one's content |
| NoteNames.FilterListed | src/noteCreator.ts:547 | the listing keeps exactly the `.md` files (without `index.md` for general notes) and never adds a file |
| NoteNames.IndexListing | src/noteCreator.ts:522-552 | the index lists at most ten listed files in descending order, and every listed file left out is ordered below every one shown |
| NoteNames.IndexTitleOfNote | src/noteCreator.ts:578 | the index shows a general note as its slug's title followed by its date with spaces for dashes |
| NoteNames.IndexDailyLabelOfDaily | src/noteCreator.ts:568 | the index labels a daily journal with its date |
| StrOrder.LessIrreflexive | src/noteCreator.ts:526 | the default string order never puts a string before itself |
| StrOrder.LessTransitive | src/noteCreator.ts:526 | the default string order is transitive |
| StrOrder.LessTotal | src/noteCreator.ts:526 | any two different strings are ordered one way or the other |
| StrOrder.SortAscending | src/noteCreator.ts:526 | `sort()` returns a permutation in ascending order and keeps distinct elements distinct |
| StrOrder.Reverse | src/noteCreator.ts:526 | `reverse()` returns the elements mirrored, a permutation of the input |
| StrOrder.SortDescending | src/dashboardManager.ts:377 | `sort().reverse()` returns a permutation in descending order |
| StrOrder.DistinctDescendingStrict | src/dashboardManager.ts:377 | distinct keys sorted descending are strictly decreasing |
| Dashboard.FilterImpliedByParse | src/dashboardManager.ts:164 | the folder filters (`.md`, not `index.md`) are implied by a successful parse, and every parsed date has the date shape |
| Dashboard.ScanDir | src/dashboardManager.ts:124-177 | a folder scan holds one record for each accepted file and nothing else, all of the folder's kind and with a well-formed date |
| Dashboard.SortNewestFirst | src/dashboardManager.ts:181 | the sort is a permutation and, when every date is valid, puts later dates first |
| Dashboard.ScanAll | src/dashboardManager.ts:119-183 | all notes are the three folder scans together, reordered |
| Dashboard.Select | src/dashboardManager.ts:195-200 | a filter keeps exactly the notes that match the window and adds none |
| Dashboard.SelectFirst | src/dashboardManager.ts:514-518 | the first selected note is the earliest matching note in list order |
| Dashboard.SelectAll | src/dashboardManager.ts:195-200 | filtering with a window every note matches changes nothing |
| Dashboard.KindCountsSum | src/dashboardManager.ts:197-201 | the meeting, daily and note counts add up to the total |
| Dashboard.SinceSplit | src/dashboardManager.ts:195-196 | notes since an earlier instant are those since the later one plus those between the two |
| Dashboard.SinceNested | src/dashboardManager.ts:195-196 | when the month starts after the week start, the month count cannot exceed the week count |
| Dashboard.CalculateStats | src/dashboardManager.ts:188-202 | the total is the list length; each kind count is the number of notes of that kind, and the three add up to the total; the week count equals the week bucket; the month count is the number of notes since the month start, which includes the week |
| Dashboard.GroupNotesByTime | src/dashboardManager.ts:208-221 | recent is the first ten notes; a note is in "this week" exactly when it is dated at or after seven days before now, in "this month" exactly when dated from the first of the month up to that point, in "older" exactly when dated before the first of the month |
| Dashboard.BucketsCoverDated | src/dashboardManager.ts:208-221 | "this month" shares no note with the other buckets, every dated note lands in some bucket, undated notes in none, and the buckets hold only the given notes |
| Dashboard.WeekOverlapsOlder | src/dashboardManager.ts:215-220 | a note is in both "this week" and "older" exactly when it falls between the rolling week start and a later month start |
| Dashboard.BucketsPartition | src/dashboardManager.ts:215-220 | when the month starts before the rolling week, the three buckets are disjoint and their counts add up to the dated notes |
| Dashboard.BucketCounts | src/dashboardManager.ts:215-220 | the counts since, between and before two instants add up to the number of dated notes |
| Dashboard.MonthKeys | src/dashboardManager.ts:367-374 | the month keys are the `YYYY-MM` prefixes of the older notes, each once |
| Dashboard.GroupsFor | src/dashboardManager.ts:367-374 | each month group holds exactly the notes of its month, in key order |
| Dashboard.ArchiveGroups | src/dashboardManager.ts:366-377 | the archive groups are in strictly descending month order, hold exactly their month's notes, cover every older note, and their sizes add up to the number of older notes |
| Dashboard.ArchiveCovers | src/dashboardManager.ts:368-374 | every older note's month is among the sorted keys |
| Dashboard.ArchiveSizes | src/dashboardManager.ts:368-374 | with distinct keys covering every note, the group sizes add up to the number of notes |
| Dashboard.SumSizesCount | src/dashboardManager.ts:368-374 | the group sizes for distinct keys add up to the notes in any of those months |
| Dashboard.LatestNoteDate | src/dashboardManager.ts:513-519 | the result is "-" when no note has the kind, else the date of the first note of that kind in list order |
| Dashboard.LatestDashIffNone | src/dashboardManager.ts:515 | among scanned notes, "-" is shown exactly when no note of the kind exists |
| Dashboard.LatestIsNewest | src/dashboardManager.ts:517-518 | on a newest-first list, the latest date shown is no earlier than the date of any note of that kind |
| Dashboard.ScannedDatesNotPlaceholder | src/dashboardManager.ts:515 | no scanned note has the placeholder "-" as its date |
| Dashboard.LegacyWeekIsBoundedWindow | out/noteCreator.js:309-314 | the older `isThisWeek` is the rolling-week window capped at now |
| TimeLedger.PeriodFileName | src/invoiceGenerator.ts:195 | the ledger file for a period is `time_entries_<period>.json`, and the period can be read back from it |
| TimeLedger.MonthPeriodReadsBack | src/timeTracker.ts:47-53 | the `YYYY-MM` text of a four-digit year and a month reads back as that year and month |
| TimeLedger.MonthlyFileNameInjective | src/timeTracker.ts:47-53 | two instants share a monthly ledger file iff they are in the same year and month |
| TimeLedger.SaveTimeEntry | src/timeTracker.ts:119-132 | saving appends the entry to its month's array and leaves every other ledger file alone |
| TimeLedger.SaveKeepsHistory | src/timeTracker.ts:126-131 | saving never removes or reorders an entry already in any ledger file |
| TimeLedger.RoundMinutes | src/timeTracker.ts:94 | the duration in minutes is the nearest whole minute to the elapsed milliseconds, halves rounded up |
| TimeLedger.Round | src/timeTracker.ts:208 | `Math.round` returns the nearest integer, halves rounded up |
| TimeLedger.JsRem | src/timeTracker.ts:111 | `%` agrees with the mathematical remainder on non-negative values and is non-positive on negative ones |
| TimeLedger.Stop | src/timeTracker.ts:82-117 | with no session, nothing changes and no entry is made; otherwise the entry keeps the session's start and description, its duration is the time since the read-back start `startMs` rounded to the nearest minute, and it is appended to the current local month's ledger and nowhere else |
| TimeLedger.Start | src/timeTracker.ts:55-80 | cancelling keeps the running session; with none running a new session starts; "Stop & Start New" first files the old session |
| TimeLedger.ReadBackStart | src/timeTracker.ts:92-94 | the stored start, the configured zone's wall-clock time to the second without an offset, is read back as the instant at which the host's wall clock shows it; with the two zones equal this is the start cut to the second |
| TimeLedger.StartThenStop | src/timeTracker.ts:55-117 | starting then stopping leaves no session and appends exactly one entry with the session's texts to the stop month's ledger; its duration is the elapsed time shifted by the host's offset minus the configured zone's, rounded to the nearest minute |
| TimeLedger.SameZoneDuration | src/timeTracker.ts:92-94 | with the host in the configured zone, the filed duration is the elapsed time to the nearest minute within the cut second, and exactly the elapsed minutes when whole minutes have passed |
| TimeLedger.HostZoneSkew | src/timeTracker.ts:70 | with the host on UTC and the configured zone six hours west, a session of 95 minutes is filed as 455 |
| TimeLedger.ReadBackStartCorrected | src/timeTracker.ts:92-94 | a start kept as an instant reads back as the start cut to the second, whatever the zones |
| TimeLedger.StartThenStopCorrected | src/timeTracker.ts:55-117 | with the start kept as an instant, the filed duration is the elapsed time to the nearest minute within a second in every pair of zones, and exact for whole minutes |
| TimeLedger.StopIdempotent | src/timeTracker.ts:85-88 | stopping twice makes the second stop a no-op without an entry |
| TimeLedger.SplitMinutes | src/timeTracker.ts:110-111 | for non-negative minutes, hours times 60 plus the remaining minutes (0..59) gives back the duration |
| TimeLedger.RunningDuration | src/timeTracker.ts:146-159 | empty exactly when nothing is tracked; otherwise `H:MM` whose fields read back as the whole minutes of `diffMs`, the time since the read-back start |
| TimeLedger.ClockText | src/timeTracker.ts:158 | `H:MM` text whose hour and two-digit minute fields read back as the given values |
| TimeLedger.HourMinuteSplit | src/timeTracker.ts:155-156 | the floor-divided hours and minutes recombine into the elapsed whole minutes, with minutes below 60 |
| TimeLedger.ManualEntry | src/timeTracker.ts:230-242 | the entry keeps the description and duration; it starts at 09:00 local time on the local day of the date's UTC midnight, and ends the duration after its start |
| TimeLedger.EnterTimeAsWritten | src/timeTracker.ts:185-252 | an entry is made iff description, hours and date are all valid; it keeps the description, its duration is `Math.round(hours * 60)` (the nearest whole minute), and it starts at 09:00 of the local day of the date's UTC midnight; it is appended to the ledger named after that day's local month |
| TimeLedger.EnterTime | src/timeTracker.ts:185-252 | corrected filing: an entry is made iff all three answers are valid; it is the same entry as written (description, `Math.round(hours * 60)` minutes within 0..1440, 09:00 start); it is appended to the ledger of the typed date's own month and nothing else changes |
| TimeLedger.EnterTimeVersionsAgree | src/timeTracker.ts:207-242 | both versions accept the same answers and build the same entry; only the ledger file can differ |
| TimeLedger.EnteredAsWritten | src/timeTracker.ts:245 | on valid answers, the as-written entry goes to the monthly file of the date's UTC midnight in local time |
| TimeLedger.EnteredUnderPeriod | src/timeTracker.ts:245 | on valid answers, the corrected entry goes to the file of the date's `YYYY-MM` |
| TimeLedger.WestOfUtcMonthFile | src/timeTracker.ts:47-53 | at UTC-5, the instant of `2024-03-01` falls in the February ledger file |
| TimeLedger.EnterTimeWestOfUtc | src/timeTracker.ts:230-245 | at UTC-5, one hour entered for 2024-03-01 is filed in `time_entries_2024-02.json` |
| TimeLedger.EnterTimeMarchEntry | src/timeTracker.ts:230-245 | corrected, the same entry is filed in `time_entries_2024-03.json` |
| Invoice.PeriodYear | src/invoiceGenerator.ts:172 | for a `YYYY-MM` period, `split('-')[0]` is the four-digit year |
| Invoice.FirstInvMatch | src/invoiceGenerator.ts:181 | the unanchored regex finds the leftmost `INV-dddd-ddd` occurrence, or reports that none exists |
| Invoice.SequenceAsWritten | src/invoiceGenerator.ts:180-183 | the as-written reader always yields a value below 1000, and 0 when the name has no match |
| Invoice.AsWrittenReadsThreeDigits | src/invoiceGenerator.ts:181-182 | on `INV-<year>-<ddd>...` the reader yields the three digits' value, whatever follows them |
| Invoice.NextSequence | src/invoiceGenerator.ts:176-188 | the next counter exceeds every counter read from this year's `.md` invoices, and is one more than one of them or 1 |
| Invoice.NextSequenceDetermined | src/invoiceGenerator.ts:178-188 | only this year's invoice names matter: listings with the same such names give the same counter |
| Invoice.NumberFor | src/invoiceGenerator.ts:191 | the number is `INV-<year>-` followed by at least three digits whose value is the counter |
| Invoice.InvoiceNumberAsWritten | src/invoiceGenerator.ts:171-192 | the as-written number exceeds every three-digit sequence read from this year's invoices |
| Invoice.InvoiceNumber | src/invoiceGenerator.ts:171-192 | the corrected number exceeds every sequence of this year's invoices, and its `.md` file does not exist yet |
| Invoice.NumberFileReadsBack | src/invoiceGenerator.ts:191 | the `.md` file named after a number belongs to its year and reads back as its counter |
| Invoice.OtherNamesIgnored | src/invoiceGenerator.ts:179 | files of other years or other kinds do not change either numbering |
| Invoice.Name999 | src/invoiceGenerator.ts:181 | `INV-2024-999.md` reads as 999 both as written and corrected |
| Invoice.Name1000AsWritten | src/invoiceGenerator.ts:181 | as written, `INV-2024-1000.md` reads as 100 |
| Invoice.Name1000Corrected | src/invoiceGenerator.ts:181 | corrected, `INV-2024-1000.md` reads as 1000 |
| Invoice.AsWrittenAfter999 | src/invoiceGenerator.ts:187 | with invoices 999 and 1000 present, the as-written counter is 1000 again |
| Invoice.NumberingCollision | src/invoiceGenerator.ts:176-191 | with invoices 999 and 1000 present, the as-written number is `INV-2024-1000`, which already exists |
| Invoice.NumberingCollisionOverwrites | src/invoiceGenerator.ts:303-304 | the markdown file then written is the existing `INV-2024-1000.md` |
| Invoice.NumbersAfter999 | src/invoiceGenerator.ts:191 | counters 1000 and 1001 render as four-digit numbers |
| Invoice.NumberingAfter1000 | src/invoiceGenerator.ts:176-191 | corrected, the next number after 999 and 1000 is `INV-2024-1001` |
| Invoice.TotalMinutesConcat | src/invoiceGenerator.ts:211 | the minute total of two entry lists together is the sum of their totals |
| Invoice.CalculateInvoiceData | src/invoiceGenerator.ts:210-239 | the data keeps the period, entries, rate, currency and tax rate; hours are total minutes over 60; the subtotal is hours times rate, the tax is the rate's percentage of it, and the total is their sum; no tax means total equals subtotal |
| Invoice.InvoiceTotals | src/invoiceGenerator.ts:211-219 | the total is hours times rate times (1 + tax rate / 100), and total minus tax is hours times rate |
| Invoice.InvoiceAdditive | src/invoiceGenerator.ts:211-219 | hours, subtotal and total of two entry lists together are the sums of each list's |
| Invoice.InvoiceExample | src/invoiceGenerator.ts:211-219 | 120 + 30 minutes at 100 with 10% tax give 2.5 h, 250, 25 and 275 |
| Invoice.CheckRequired | src/invoiceGenerator.ts:137-140 | the required-fields test throws exactly when its short-circuit evaluation reaches an absent `business`, `client` or `billing` section, and passes exactly when all sections are present and the four fields are set |
| Invoice.GenerateInvoice | src/invoiceGenerator.ts:117-159 | an invoice is generated iff the period is `YYYY-MM`, the configuration has its sections, the required fields and a business address, and the period has entries; a missing section and a missing address are their own errors; the invoice carries the period's entries, rate and tax rate, and its number is the three-digit-reading `generateInvoiceNumber` of the period's year |
| Invoice.GenerateInvoiceCorrected | src/invoiceGenerator.ts:117-159 | corrected numbering: the same outcome and data as written, except that the number reads whole digit runs and its `.md` file does not exist yet |
| Invoice.Written | src/invoiceGenerator.ts:303-304 | files are written exactly when an invoice is generated |
| Invoice.AsWrittenFreshBelow999 | src/invoiceGenerator.ts:176-191 | as written, the new number's `.md` file does not exist yet as long as no invoice of the year reads as 999 |
| Invoice.GenerateWritesInvoiceOrNothing | src/invoiceGenerator.ts:153-159 | as written, generation writes nothing, or exactly the number's markdown and PDF files, and the markdown name is new when no invoice of the year reads as 999 |
| Invoice.GenerateWritesNewInvoiceOrNothing | src/invoiceGenerator.ts:153-159 | corrected numbering: generation writes nothing, or exactly a markdown and a PDF file whose markdown name is new |
| Invoice.EnteredTimeIsInvoiced | src/invoiceGenerator.ts:194-199 | corrected filing (`TimeLedger.EnterTime`): time entered for a date shows up in the invoice for that date's `YYYY-MM`, in every time zone |
| Invoice.EnteredAsWrittenIsInvoiced | src/invoiceGenerator.ts:194-199 | as written (`TimeLedger.EnterTimeAsWritten`): time entered for a date shows up in the invoice for the local month of the date's UTC midnight |
| Invoice.EnteredAsWrittenEastOfUtc | src/timeTracker.ts:245 | at UTC or east of it, the as-written ledger file is the month file of the calendar day the date text denotes |
| Invoice.UtcMidnightLocalDay | src/timeTracker.ts:47-50 | UTC midnight of a day falls on that same local day for offsets from 0 up to a day |
| Invoice.StoppedTimeIsInvoiced | src/invoiceGenerator.ts:194-199 | a stopped session shows up in the invoice for the month it was stopped in |
| Invoice.MarkdownDescription | src/invoiceGenerator.ts:278 | descriptions up to 50 characters are kept; longer ones become their first 50 characters and "..." |
| Invoice.PdfDescription | src/invoiceGenerator.ts:359 | descriptions up to 45 characters are kept; longer ones become their first 45 characters and "..." |
| Invoice.DescriptionsAgree | src/invoiceGenerator.ts:278 | the PDF and markdown descriptions agree on their first 45 characters, and fully for short ones |
| Invoice.SummaryLines | src/invoiceGenerator.ts:368-382 | the summary starts with services, ends with the total due, and has a tax line iff the tax rate is positive |
| Invoice.AddToGitignore | src/invoiceGenerator.ts:597-609 | the result ignores `.noteflo/config.json`, keeps the existing content as a prefix, and is unchanged when it already mentions the file |
| Invoice.GitignoreIdempotent | src/invoiceGenerator.ts:601-605 | adding the entry twice is the same as adding it once |
| PdfLayout.NewLayout | src/invoiceGenerator.ts:670-677 | a new layout is one page with the cursor at the 20-unit margin and content allowed down to 20 above the page bottom |
| PdfLayout.CheckPageBreak | src/invoiceGenerator.ts:679-684 | the cursor stays when the room fits, otherwise a page is added and the cursor returns to the top; afterwards any room a fresh page can hold fits |
| PdfLayout.Step | src/invoiceGenerator.ts:686-720 | one drawing call adds at most one page, moves the cursor down by its advance when no page is added, and stays within the page when the advance fits |
| PdfLayout.Steps | src/invoiceGenerator.ts:763-769 | a run of rows moves the cursor by the sum of the heights when no page is added, stays within the page, and does nothing else when everything fits |
| PdfLayout.Place | src/invoiceGenerator.ts:686-808 | every layout operation keeps the page frame, never removes pages, advances by its height when it does not break, and ends within the page |
| PdfLayout.TableHeight | src/invoiceGenerator.ts:747-770 | a table moves the cursor 12 for the header and 8 per row |
| PdfLayout.ItemHeights | src/invoiceGenerator.ts:776 | each summary item takes 28 when it is the total and 12 otherwise |
| PdfLayout.SummaryKeptTogether | src/invoiceGenerator.ts:772-797 | a summary that fits on a page is never split: it stays on the current page or moves whole to the next |
| PdfLayout.Run | src/invoiceGenerator.ts:312-399 | a sequence of operations keeps the page frame and never removes pages |
| PdfLayout.TwoColumnsAsWritten | src/invoiceGenerator.ts:722-745 | the as-written two-column block keeps the page frame (its break behaviour is exhibited below) |
| PdfLayout.TwoColumns | src/invoiceGenerator.ts:722-745 | both columns start where the block starts; the cursor ends 10 below the lower of the two column ends, on the right column's last page |
| PdfLayout.ColumnsSymmetric | src/invoiceGenerator.ts:744 | swapping the two columns does not change where the block ends |
| PdfLayout.RunPagesShift | src/invoiceGenerator.ts:679-684 | the cursor's path does not depend on how many pages came before |
| PdfLayout.RightColumnBreakAsWritten | src/invoiceGenerator.ts:737-739 | as written, a page break in the right column puts the cursor at the column's x position (115), so the end depends on the column order |
| PdfLayout.RightColumnBreak | src/invoiceGenerator.ts:737-739 | corrected, both column orders end at 130 |
| PdfLayout.ColumnPositions | src/invoiceGenerator.ts:810-816 | there is one position per column (at least one); the first is the margin and each next one adds the previous width, so position i is the margin plus the first i widths |
| Config.Dot | src/configManager.ts:118 | property access throws exactly on a missing or null object; `?.` on a member yields the member when present |
| Config.Default | src/configManager.ts:60-77 | every default path and setting is a non-empty string |
| Config.Build | src/configManager.ts:116-131 | the merged object has exactly the three sections, with each setting and the auto-refresh flag stored where the getters read them |
| Config.DefaultConfig | src/configManager.ts:60-77 | the default configuration stores every default, auto refresh on, and no business, client or billing section |
| Config.MergeWithDefaults | src/configManager.ts:114-132 | merging fails exactly on a null document; otherwise each setting is the file's truthy value or the default, and auto refresh is off only when the file says `false` |
| Config.MergeIdempotent | src/configManager.ts:114-132 | merging an already merged configuration changes nothing |
| Config.EmptyFileLoadsDefaults | src/configManager.ts:114-132 | an empty `{}` file loads the default configuration |
| Config.DefaultFileLoadsDefaults | src/configManager.ts:134-147 | the default file that is written when none exists loads back as the default configuration |
| Config.LoadConfig | src/configManager.ts:79-112 | without a workspace, file or parsable document the defaults are used; otherwise the merge; every path setting is truthy |
| Config.GetConfig | src/configManager.ts:183-188 | fails exactly when nothing is loaded, else returns the loaded configuration |
| Config.EnsureConfigLoaded | src/configManager.ts:190-202 | keeps a loaded configuration, and otherwise loads one |
| Config.UpdateConfig | src/configManager.ts:161-181 | the update's sections replace whole sections, other sections are kept, and a configuration is loaded afterwards |
| Config.Get | src/configManager.ts:205-283 | an asynchronous getter returns the stored value when truthy and the setting's default otherwise, never an empty string |
| Config.GetAutoRefresh | src/configManager.ts:255-263 | auto refresh is off exactly when the stored flag is `false` |
| Config.GetSync | src/configManager.ts:287-325 | for the five settings with a synchronous getter (the directories and the main dashboard), the getter falls back to the default when nothing is loaded and always returns a truthy value |
| Config.SyncAgreesWithAsync | src/configManager.ts:287-325 | once loaded, the synchronous and asynchronous getters agree |
| Config.LoadedSettingReadsBack | src/configManager.ts:91-95 | a non-empty string in the file is the value the getter returns after loading |
| Config.UpdateReplacesSection | src/configManager.ts:167 | a section update without a key loses that key's stored value: the getter falls back to the default |
| Config.UpdateThenGet | src/configManager.ts:167 | after updating a section with a non-empty value, the getter returns that value |
| LegacyTodo.FindHeader | out/noteCreator.js:187 | `findIndex` returns the first line whose trim is the heading, or reports that none is |
| LegacyTodo.NextSection | out/noteCreator.js:190-193 | the scan stops at the first `## ` line after the heading, or at the end |
| LegacyTodo.AddTodoToFile | out/noteCreator.js:175-199 | without the heading the file is unchanged; otherwise `- [ ] <todo>` is spliced in right before the next section, and the result splits into the old lines with exactly that line added |
| LegacyTodo.TodoItemOneLine | out/noteCreator.js:184 | a one-line todo makes a one-line item |
| LegacyTodo.InsertedLineSplits | out/noteCreator.js:195-196 | splicing one line in and joining splits back into the spliced lines |
| LegacyTodo.TodoFileName | out/noteCreator.js:125-132 | the project file `<project>-todos.md` is chosen only for "Project-specific" with a project set, otherwise `general-todos.md` |
| LegacyTodo.Upper | out/noteCreator.js:152 | `toUpperCase` maps each character and keeps the length |
| LegacyTodo.ProjectTitle | out/noteCreator.js:151-152 | a dash-free project gets the title `<PROJECT> TODOS` |
| LegacyTodo.FirstDash | out/noteCreator.js:152 | `replace('-', ' ')` acts on the first dash, which is the one before `todos` |
| LegacyTodo.EnsureTodoFile | out/noteCreator.js:145-174 | an existing file is left alone; a new one starts with the upper-cased title and holds every priority heading |
| LegacyTodo.HeadingInSkeleton | out/noteCreator.js:152-171 | every priority heading of the section map is found in the new file's lines |
| LegacyTodo.FoundWhenPresent | out/noteCreator.js:187 | the heading is found whenever some line trims to it |
| LegacyTodo.TrimTwoSpaces | out/noteCreator.js:157 | a heading written with two trailing spaces still trims to the heading |
| LegacyTodo.SkeletonSplits | out/noteCreator.js:186 | the new file's text splits back into its lines |
| LegacyTodo.CreateQuickTodo | out/noteCreator.js:101-140 | the command stops on an empty description or no priority; otherwise it picks the file, and on a new file the todo adds exactly one line to the skeleton |
| QuickTodo.PriorityAt | src/noteCreator.ts:407-408 | the priority order Urgent, High, Normal, Low is the index into the section list |
| QuickTodo.ParseEntry | src/noteCreator.ts:390 | a parsed entry re-renders to the same text |
| QuickTodo.EntryRoundTrip | src/noteCreator.ts:390 | the `- [ ] **[P]** <emoji> <text> *(Added: <ts>)*` line gives back its priority and text |
| QuickTodo.EntryInjective | src/noteCreator.ts:386-390 | different priorities or texts give different entries |
| QuickTodo.RegexReplaceFirst | src/noteCreator.ts:401-404 | `replace` with a regex leaves the content unchanged when the heading is absent |
| QuickTodo.AddToSectionAsWritten | src/noteCreator.ts:399-404 | the as-written section insert leaves the content unchanged without the heading |
| QuickTodo.InsertAfterFirst | src/noteCreator.ts:401-404 | the text is inserted right after the first occurrence of the heading and nothing else changes |
| QuickTodo.AddToSection | src/noteCreator.ts:399-404 | the entry is inserted verbatim right after the first heading line of its section; everything before and after is kept |
| QuickTodo.ExpandGroupFirst | src/noteCreator.ts:403 | `$1` in the replacement expands to the captured heading |
| QuickTodo.ExpandDollarDollar | src/noteCreator.ts:403 | `$$` in the replacement expands to a single `$` |
| QuickTodo.DoubleDollarHalved | src/noteCreator.ts:403 | a todo text containing `$$` is written with a single `$` |
| QuickTodo.ReplaceAgreesWithoutDollar | src/noteCreator.ts:401-404 | when the entry has no `$`, the regex replace inserts exactly the entry after the heading |
| QuickTodo.AsWrittenAgreesWithoutDollar | src/noteCreator.ts:399-404 | for `$`-free texts and timestamps the as-written and corrected inserts agree |
| QuickTodo.DollarTextAsWritten | src/noteCreator.ts:401-404 | as written, the todo "Pay $$20" is stored as "Pay $20" |
| QuickTodo.DollarText | src/noteCreator.ts:401-404 | corrected, the todo "Pay $$20" is stored verbatim |
| QuickTodo.InsertAnchor | src/noteCreator.ts:406-417 | the anchor is the last present higher-priority section, or "## Active Tasks" when none is present |
| QuickTodo.SectionNotActive | src/noteCreator.ts:397 | no priority section name equals "## Active Tasks" |
| QuickTodo.UpdateTodoFile | src/noteCreator.ts:393-427 | with the section present the entry is added under it through the `$`-expanding replace, which is the verbatim insert for an entry without `$`; otherwise a new section goes after a present anchor, which is the last higher-priority section the file has, or `## Active Tasks` when it has none; the section is appended at the end only when no anchor is present |
| QuickTodo.NewTodoFile | src/noteCreator.ts:430-446 | a new file starts with the category's title line and holds the section heading directly followed by the entry |
| QuickTodo.CreateQuickTodo | src/noteCreator.ts:334-448 | the command stops iff the text is empty or a pick is dismissed; it writes the category's file, creates it iff it does not exist, and updates an existing section through the `$`-expanding replace, which puts the entry in verbatim when text and timestamp have no `$`; a missing section goes after the last higher-priority section or `## Active Tasks`, and is appended at the end only when neither is present |
| QuickTodo.Record | src/noteCreator.ts:362-448 | the write goes to the category's file, creating it iff it is missing, with the entry under its section heading; an existing section gets the `$`-expanding replace, which is the verbatim insert for an entry without `$`; a missing section goes after the last higher-priority section or `## Active Tasks`, and is appended at the end only when neither is present |

## Left out

- **Host interaction.** The editor UI, file-system I/O, `console` logging and the status bar are not modelled. Prompt answers, directory listings, file contents and writes are parameters and results instead.
- **Clock and formatting.** The clock, `Intl` time-zone formatting and `formatDateInTimezone` are not modelled. Instants and offsets are parameters, and formatted timestamps are opaque strings or a formatting function.
- **Invalid time zone.** `formatDateInTimezone` (src/invoiceGenerator.ts:56-82) throws a `RangeError` when the configured time zone is not a valid IANA name. It is called throughout: in invoice generation (src/invoiceGenerator.ts:122, 222-223, 276, 358), in the time tracker (src/timeTracker.ts:70, 98, 214, 238-239) and in the note creator (src/noteCreator.ts:63, 115, 198, 286, 383). The setup prompt validates the zone (src/invoiceGenerator.ts:541-550), but a hand-edited configuration is not checked. The model treats the zone as a valid offset, so formatting always succeeds and this failure path is not modelled.
- **Daylight saving.** A local time is modelled as one fixed offset per call, so DST transitions inside a computation are not modelled.
- **String encoding.** Strings are sequences of code points, not UTF-16 code units. This matters only for the lengths of texts with astral characters, such as the 50- and 45-character description cuts.
- **Case mapping.** `toLowerCase` is modelled only for the characters that can survive `sanitizeFilename`'s filter. `toUpperCase` in the older todo title is modelled for ASCII letters only.
- **PDF drawing.** jsPDF drawing, fonts and `splitTextToSize` are not modelled. Wrapped text is a given list of line heights.
- **PDF column positions.** The layout keeps only the vertical cursor and page count. Column positions are a separate method over given widths.
- **Invoice arithmetic.** The amounts use exact `real` arithmetic, not IEEE doubles. `toFixed` rounding for display is not modelled.
- **Hours input.** `parseFloat` on the hours input is not modelled: the parsed number is given.
- **JSON parsing.** `JSON.parse` is not modelled. A config file is given as an already parsed document, or as unreadable.
- **Corrupt ledgers.** A corrupt ledger file is not modelled; a ledger is a map from file name to entries.
- **Unused config code.** The directory creation in `createDefaultConfig`, `showConfigEditor` and the unused `testConfig.ts` are not modelled.
- **Section-insert regex.** When the anchor exists, the new-section insertion at src/noteCreator.ts:421-422 uses a regex with the `s` flag and a lazy look-ahead. `QuickTodo.UpdateTodoFile` returns which anchor and section would be inserted but does not apply that regex to the text.
- **Dashboard rendering.** The markdown templates, `getMostActiveDay` and the "smart update" check `shouldUpdateDashboard` are not modelled. The model stops at the data the templates read.
- **Older time tracker.** The older compiled time tracker in `out/timeTracker.js` is not modelled; the current `src/timeTracker.ts` is.
- The older `isThisMonth` (out/noteCreator.js:304-308) is written out as a predicate with no lemma of its own: it depends only on the local calendar fields, which the current dashboard does not use.
- The Project category's file is the fixed `project-todos.md` of src/noteCreator.ts:370. The workspace folder name is used only for a display message, which is not modelled.
- Dashboard.SortNewestFirst: only permutation and newest-first order are stated. The relative order of notes with equal dates is not stated.
- TimeLedger.Stop: `startMs` is a parameter, the stored start text read back by `new Date` in the host's zone. `TimeLedger.ReadBackStart` states that read-back and `TimeLedger.StartThenStop` uses it; the duration equals the elapsed time, to the second, only when the host's zone is the configured one (see Findings). The host's offset is taken at the start instant, so a daylight-saving change between the stored wall-clock time and the start is not modelled. `TimeLedger.RunningDuration` takes the same skewed `diffMs` as a parameter.
- TimeLedger.EnterTime: the start and end times are stated as the formatting function applied to two instants: 09:00 local time on the local day of the date's UTC midnight (src/timeTracker.ts:230-232), and that instant plus the duration. The text `formatDateInTimezone` produces is not modelled.
- Invoice.GenerateInvoice: an absent `billing.taxRate` makes the source's tax and total NaN (src/invoiceGenerator.ts:215-219). The model's tax rate is always a number, so that case is not modelled. A `business`, `client` or `billing` section that the required-fields test reads while it is absent (the TypeError at src/invoiceGenerator.ts:137) and an absent business address (the TypeError at src/invoiceGenerator.ts:244) are modelled as the outcomes `MissingSection` and `NoAddress`.
- PdfLayout.TwoColumnsAsWritten: its contract states only the frame. The as-written page-break behaviour is exhibited by `PdfLayout.RightColumnBreakAsWritten`, not stated for all inputs.

## Findings

| source | as written | input that shows it | evidently intended | confidence | as-written member | corrected member |
|---|---|---|---|---|---|---|
| src/invoiceGenerator.ts:181 | the sequence is read with `/INV-\d{4}-(\d{3})/`, so only the first three digits count | invoices `INV-2024-999.md` and `INV-2024-1000.md` exist: 1000 reads as 100, the maximum is 999 and the next number is `INV-2024-1000` again, overwriting an existing invoice | read the whole digit run, so the next number is `INV-2024-1001` and never an existing one | high, not executed | Invoice.NumberingCollisionOverwrites | Invoice.InvoiceNumber |
| src/timeTracker.ts:245 | a manual entry is filed by `getMonthlyFilePath(new Date("YYYY-MM-DD"))`: the local month of UTC midnight of that date | at UTC-5, one hour entered for `2024-03-01` is filed in `time_entries_2024-02.json`, so the March invoice misses it | file it under the typed date's own month, `time_entries_2024-03.json` | high, not executed | TimeLedger.EnterTimeWestOfUtc | TimeLedger.EnterTimeMarchEntry |
| src/invoiceGenerator.ts:737-739 | the right column sets the margin to its x position, and `checkPageBreak` resets the cursor to the margin | on A4 at y = 200, a left column of 80 and a right column of 100 end at 225, and with the columns swapped at 205 | a page break returns to the top margin in both columns: both orders end at 130 | medium, not executed | PdfLayout.RightColumnBreakAsWritten | PdfLayout.RightColumnBreak |
| src/timeTracker.ts:70 | the session start is stored as the configured zone's wall-clock text without an offset and read back with `new Date` (src/timeTracker.ts:92-94), which parses it in the host's zone | host on UTC, configured zone America/Chicago in winter (UTC-6): a session started at 15:00 UTC and stopped at 16:35 UTC is filed as 455 minutes | the filed duration is the 95 minutes that elapsed | medium (a host usually runs in the configured zone), not executed | TimeLedger.HostZoneSkew | TimeLedger.StartThenStopCorrected |
| src/noteCreator.ts:401-404 | the todo entry is spliced into a `String.replace` replacement string, so `$` patterns in the user's text are expanded | adding the todo `Pay $$20` under an existing Normal section stores `Pay $20` | store the todo text verbatim | high, not executed | QuickTodo.DollarTextAsWritten | QuickTodo.DollarText |

=== FILE: config.dfy ===
/**
 The workspace configuration `.noteflo/config.json`: loading it and filling
 gaps from the defaults, updating it, and the getters the other components
 call. The file is whatever `JSON.parse` returns, so a field the extension
 expects to be a string may hold any JSON value; the model keeps that
 generality.

 JavaScript's `undefined` is `None`; `null` is `JNull`.
 */
module Config {
  import opened Opt

  datatype Json =
    | JNull
    | JBool(b: bool)
    | JNum(n: real)
    | JStr(s: string)
    | JArr(items: seq<Json>)
    | JObj(fields: map<string, Json>)

  type Object = map<string, Json>

  /**
   `v.key` on a value that is neither null nor undefined: undefined unless
   `v` is an object holding the key (no key used here names a property that
   strings or arrays have).
   */
  function Member(v: Json, key: string): Option<Json> {
    if v.JObj? && key in v.fields then Some(v.fields[key]) else None
  }

  /** `v?.key` */
  function OptMember(v: Option<Json>, key: string): Option<Json> {
    if v.None? || v.value.JNull? then None else Member(v.value, key)
  }

  /** The result of `v.key`, which throws a TypeError on null and undefined. */
  datatype Access = Throws | Got(value: Option<Json>)

  function Dot(v: Option<Json>, key: string): (r: Access)
    ensures r.Throws? <==> v.None? || v.value.JNull?
    ensures r.Got? ==> r.value == OptMember(v, key)
  {
    if v.None? || v.value.JNull? then Throws else Got(Member(v.value, key))
  }

  /** JavaScript truthiness; `None` is undefined. */
  predicate Truthy(v: Option<Json>) {
    match v
    case None => false
    case Some(JNull) => false
    case Some(JBool(b)) => b
    case Some(JNum(n)) => n != 0.0
    case Some(JStr(s)) => s != ""
    case Some(_) => true
  }

  /** `v || fallback` */
  function Or(v: Option<Json>, fallback: string): Json {
    if Truthy(v) then v.value else JStr(fallback)
  }

  /** The string settings, each at `<section>.<key>` with a default. */
  datatype Setting = MeetingNotes | DailyNotes | GeneralNotes | DashboardDir | MainDashboard | Template | Timezone

  function Section(s: Setting): string {
    match s
    case MainDashboard => "files"
    case Template => "settings"
    case Timezone => "settings"
    case _ => "directories"
  }

  function Key(s: Setting): string {
    match s
    case MeetingNotes => "meeting_notes"
    case DailyNotes => "daily_notes"
    case GeneralNotes => "general_notes"
    case DashboardDir => "dashboard"
    case MainDashboard => "main_dashboard"
    case Template => "default_note_template"
    case Timezone => "timezone"
  }

  function Default(s: Setting): (r: string)
    ensures r != ""
  {
    match s
    case MeetingNotes => "docs/meeting-notes"
    case DailyNotes => "docs/daily-notes"
    case GeneralNotes => "docs/notes"
    case DashboardDir => "docs/dashboard"
    case MainDashboard => "docs/index.md"
    case Template => "standard"
    case Timezone => "local"
  }

  const AutoRefreshKey := "auto_refresh_dashboard"

  /** `cfg?.<section>?.<key>` */
  function Stored(cfg: Object, s: Setting): Option<Json> {
    OptMember(OptMember(Some(JObj(cfg)), Section(s)), Key(s))
  }

  /** `cfg?.settings?.auto_refresh_dashboard` */
  function StoredAutoRefresh(cfg: Object): Option<Json> {
    OptMember(OptMember(Some(JObj(cfg)), "settings"), AutoRefreshKey)
  }

  /** The three sections of a configuration, filled from `value`. */
  function Build(value: Setting -> Json, autoRefresh: bool): (r: Object)
    ensures r.Keys == {"directories", "files", "settings"}
    ensures forall s :: Stored(r, s) == Some(value(s))
    ensures StoredAutoRefresh(r) == Some(JBool(autoRefresh))
  {
    map[
      "directories" := JObj(map[
        "meeting_notes" := value(MeetingNotes),
        "daily_notes" := value(DailyNotes),
        "general_notes" := value(GeneralNotes),
        "dashboard" := value(DashboardDir)]),
      "files" := JObj(map["main_dashboard" := value(MainDashboard)]),
      "settings" := JObj(map[
        AutoRefreshKey := JBool(autoRefresh),
        "default_note_template" := value(Template),
        "timezone" := value(Timezone)])]
  }

  function DefaultValue(s: Setting): Json {
    JStr(Default(s))
  }

  /** `getDefaultConfig` */
  function DefaultConfig(): (r: Object)
    ensures forall s :: Stored(r, s) == Some(JStr(Default(s)))
    ensures StoredAutoRefresh(r) == Some(JBool(true))
    ensures "business" !in r && "client" !in r && "billing" !in r
  {
    Build(DefaultValue, true)
  }

  /** `loadedConfig.<section>?.<key>` for a loaded value that is not null. */
  function FileValue(loaded: Json, s: Setting): Option<Json> {
    OptMember(Member(loaded, Section(s)), Key(s))
  }

  function FileAutoRefresh(loaded: Json): Option<Json> {
    OptMember(Member(loaded, "settings"), AutoRefreshKey)
  }

  function MergedValue(loaded: Json, s: Setting): Json {
    Or(FileValue(loaded, s), Default(s))
  }

  function Merged(loaded: Json): Setting -> Json {
    s => MergedValue(loaded, s)
  }

  /**
   `mergeWithDefaults`: each string setting is the file's value when that is
   truthy and the default otherwise; auto refresh is off only when the file
   says exactly `false`; every other key of the file (business, client,
   billing) is dropped. `None` is the TypeError of reading a property of a
   file whose content is `null`.
   */
  function MergeWithDefaults(loaded: Json): (r: Option<Object>)
    ensures r.None? <==> loaded.JNull?
    ensures r.Some? ==> r.value.Keys == {"directories", "files", "settings"}
    ensures r.Some? ==> forall s ::
      && (Truthy(FileValue(loaded, s)) ==> Stored(r.value, s) == FileValue(loaded, s))
      && (!Truthy(FileValue(loaded, s)) ==> Stored(r.value, s) == Some(JStr(Default(s))))
    ensures r.Some? ==> StoredAutoRefresh(r.value) == Some(JBool(FileAutoRefresh(loaded) != Some(JBool(false))))
  {
    if loaded.JNull? then None
    else Some(Build(Merged(loaded), FileAutoRefresh(loaded) != Some(JBool(false))))
  }

  /** Two fillings that agree on every setting build the same configuration. */
  lemma BuildSame(f: Setting -> Json, g: Setting -> Json, autoRefresh: bool)
    requires forall s :: f(s) == g(s)
    ensures Build(f, autoRefresh) == Build(g, autoRefresh)
  {
  }

  /** Reading a stored object back as a loaded file sees the same values. */
  lemma FileValueStored(cfg: Object, s: Setting)
    ensures FileValue(JObj(cfg), s) == Stored(cfg, s)
    ensures FileAutoRefresh(JObj(cfg)) == StoredAutoRefresh(cfg)
  {
  }

  /** A value that is already the outcome of `|| d` is kept by a second `|| d`. */
  lemma OrTwice(v: Option<Json>, d: string)
    requires d != ""
    ensures Or(Some(Or(v, d)), d) == Or(v, d)
  {
  }

  /** One setting of a merged configuration survives a second merge. */
  lemma MergedTwice(loaded: Json, s: Setting)
    requires !loaded.JNull?
    ensures MergedValue(JObj(MergeWithDefaults(loaded).value), s) == MergedValue(loaded, s)
  {
    FileValueStored(MergeWithDefaults(loaded).value, s);
    OrTwice(FileValue(loaded, s), Default(s));
  }

  lemma MergedTwiceAll(loaded: Json)
    requires !loaded.JNull?
    ensures forall s :: Merged(JObj(MergeWithDefaults(loaded).value))(s) == Merged(loaded)(s)
  {
    forall s ensures Merged(JObj(MergeWithDefaults(loaded).value))(s) == Merged(loaded)(s) {
      MergedTwice(loaded, s);
    }
  }

  /** Merging a merged configuration again changes nothing. */
  lemma MergeIdempotent(loaded: Json)
    requires MergeWithDefaults(loaded).Some?
    ensures MergeWithDefaults(JObj(MergeWithDefaults(loaded).value)) == MergeWithDefaults(loaded)
  {
    var m := MergeWithDefaults(loaded).value;
    MergedTwiceAll(loaded);
    FileValueStored(m, MeetingNotes);
    BuildSame(Merged(JObj(m)), Merged(loaded), FileAutoRefresh(loaded) != Some(JBool(false)));
  }

  /** An empty file loads as the defaults. */
  lemma EmptyFileLoadsDefaults()
    ensures MergeWithDefaults(JObj(map[])) == Some(DefaultConfig())
  {
    BuildSame(Merged(JObj(map[])), DefaultValue, true);
  }

  /** One setting of the default file reads as its default. */
  lemma DefaultFileSetting(s: Setting)
    ensures MergedValue(JObj(DefaultConfig()), s) == DefaultValue(s)
  {
    FileValueStored(DefaultConfig(), s);
  }

  lemma DefaultFileSettings()
    ensures forall s :: Merged(JObj(DefaultConfig()))(s) == DefaultValue(s)
  {
    forall s ensures Merged(JObj(DefaultConfig()))(s) == DefaultValue(s) {
      DefaultFileSetting(s);
    }
  }

  /** The default file itself loads as the defaults. */
  lemma DefaultFileLoadsDefaults()
    ensures MergeWithDefaults(JObj(DefaultConfig())) == Some(DefaultConfig())
  {
    var d := DefaultConfig();
    DefaultFileSettings();
    FileValueStored(d, MeetingNotes);
    assert MergeWithDefaults(JObj(d)) == Some(Build(Merged(JObj(d)), true));
    BuildSame(Merged(JObj(d)), DefaultValue, true);
  }

  /** What `.noteflo/config.json` holds when `loadConfig` runs. */
  datatype ConfigFile = Missing | Unparsable | Parsed(json: Json)

  /**
   `loadConfig`: no workspace folder, a missing file, a file `JSON.parse`
   rejects or a merge that throws all give the defaults; otherwise the
   merged file.
   */
  function LoadConfig(workspaceRoot: string, file: ConfigFile): (r: Object)
    ensures workspaceRoot == "" || !file.Parsed? || file.json.JNull? ==> r == DefaultConfig()
    ensures workspaceRoot != "" && file.Parsed? && !file.json.JNull? ==> Some(r) == MergeWithDefaults(file.json)
    ensures forall s :: Truthy(Stored(r, s))
  {
    if workspaceRoot == "" then DefaultConfig()
    else match file
      case Parsed(json) =>
        (match MergeWithDefaults(json)
         case Some(merged) => merged
         case None => DefaultConfig())
      case _ => DefaultConfig()
  }

  /** The manager holds the configuration once it has been loaded. */
  datatype Manager = Manager(config: Option<Object>)

  /** `getConfig`: `None` is the error "Config not loaded". */
  function GetConfig(m: Manager): (r: Option<Object>)
    ensures r.None? <==> m.config.None?
    ensures r.Some? ==> r.value == m.config.value
  {
    m.config
  }

  /** `ensureConfigLoaded`, with `loaded` what `loadConfig` would give. */
  function EnsureConfigLoaded(m: Manager, loaded: Object): (r: Object)
    ensures m.config.Some? ==> r == m.config.value
    ensures m.config.None? ==> r == loaded
  {
    m.config.GetOr(loaded)
  }

  /**
   `updateConfig`: a shallow merge, loading first when nothing is loaded.
   A key of `updates` replaces the whole section it names.
   */
  function UpdateConfig(m: Manager, loaded: Object, updates: Object): (r: Manager)
    ensures r.config.Some?
    ensures r.config.value.Keys == EnsureConfigLoaded(m, loaded).Keys + updates.Keys
    ensures forall k :: k in updates ==> r.config.value[k] == updates[k]
    ensures forall k :: k in EnsureConfigLoaded(m, loaded) && k !in updates ==>
      r.config.value[k] == EnsureConfigLoaded(m, loaded)[k]
  {
    Manager(Some(EnsureConfigLoaded(m, loaded) + updates))
  }

  /**
   The async getters (`getDashboardPath`, `getMeetingNotesDir`, …,
   `getTimezone`) on the loaded configuration: `config.<section>.<key> ||
   default`, with the default also when reading the section throws.
   */
  function Get(cfg: Object, s: Setting): (r: Json)
    ensures Truthy(Some(r)) && r != JStr("")
    ensures Truthy(Stored(cfg, s)) ==> Some(r) == Stored(cfg, s)
    ensures !Truthy(Stored(cfg, s)) ==> r == JStr(Default(s))
  {
    match Dot(Some(JObj(cfg)), Section(s))
    case Throws => JStr(Default(s))
    case Got(section) =>
      match Dot(section, Key(s))
      case Throws => JStr(Default(s))
      case Got(v) => Or(v, Default(s))
  }

  /** `getAutoRefresh`: true unless the setting is exactly `false`, and true when reading it throws. */
  function GetAutoRefresh(cfg: Object): (r: bool)
    ensures !r <==> StoredAutoRefresh(cfg) == Some(JBool(false))
  {
    match Dot(Some(JObj(cfg)), "settings")
    case Throws => true
    case Got(settings) =>
      match Dot(settings, AutoRefreshKey)
      case Throws => true
      case Got(v) => v != Some(JBool(false))
  }

  /** The settings with a synchronous getter (`get…Sync`): the directories and the main dashboard. */
  predicate HasSyncGetter(s: Setting) {
    s != Template && s != Timezone
  }

  /** The synchronous getters: the default when nothing is loaded. */
  function GetSync(m: Manager, s: Setting): (r: Json)
    requires HasSyncGetter(s)
    ensures m.config.None? ==> r == JStr(Default(s))
    ensures Truthy(Some(r))
  {
    match m.config
    case None => JStr(Default(s))
    case Some(cfg) => Or(Stored(cfg, s), Default(s))
  }

  /** Once loaded, the synchronous and the async getters agree. */
  lemma SyncAgreesWithAsync(m: Manager, loaded: Object, s: Setting)
    requires HasSyncGetter(s) && m.config.Some?
    ensures GetSync(m, s) == Get(EnsureConfigLoaded(m, loaded), s)
  {
  }

  /** A non-empty string setting in the file is what the getter returns after loading. */
  lemma LoadedSettingReadsBack(workspaceRoot: string, loaded: Json, s: Setting, value: string)
    requires workspaceRoot != "" && value != ""
    requires FileValue(loaded, s) == Some(JStr(value))
    ensures Get(LoadConfig(workspaceRoot, Parsed(loaded)), s) == JStr(value)
  {
  }

  /** A setting is read from the object its section holds. */
  lemma SectionStored(cfg: Object, s: Setting)
    requires Section(s) in cfg && cfg[Section(s)].JObj?
    ensures Stored(cfg, s) == Member(cfg[Section(s)], Key(s))
  {
  }

  /**
   An update naming a section replaces all of it: a setting of that section
   that the update does not carry falls back to its default.
   */
  lemma UpdateReplacesSection(m: Manager, loaded: Object, section: map<string, Json>, s: Setting)
    requires Key(s) !in section
    ensures Get(UpdateConfig(m, loaded, map[Section(s) := JObj(section)]).config.value, s) == JStr(Default(s))
  {
    var cfg := UpdateConfig(m, loaded, map[Section(s) := JObj(section)]).config.value;
    assert cfg[Section(s)] == JObj(section);
    SectionStored(cfg, s);
  }

  /** An update carrying a non-empty string for a setting is what the getter returns. */
  lemma UpdateThenGet(m: Manager, loaded: Object, section: map<string, Json>, s: Setting, value: string)
    requires value != "" && Key(s) in section && section[Key(s)] == JStr(value)
    ensures Get(UpdateConfig(m, loaded, map[Section(s) := JObj(section)]).config.value, s) == JStr(value)
  {
    var cfg := UpdateConfig(m, loaded, map[Section(s) := JObj(section)]).config.value;
    assert cfg[Section(s)] == JObj(section);
    SectionStored(cfg, s);
  }
}

=== FILE: dashboard.dfy ===
/**
 The dashboard's aggregation of notes: scanning the three note directories,
 the newest-first order, the per-type statistics, the recent / this-week /
 this-month / older buckets, the month-by-month archive, and the "latest
 date" column.

 Instants are milliseconds since the epoch. `now` and the local start of the
 current month (`new Date(year, month, 1)`, which depends on the host's time
 zone) are parameters.
 */
module Dashboard {
  import opened Opt
  import opened Text
  import opened Dates
  import NoteNames
  import StrOrder

  datatype Kind = Meeting | Daily | Note

  /** `NoteInfo`, without `fullPath` (a path join of the folder and the name). */
  datatype NoteInfo = NoteInfo(filename: string, title: string, date: string, kind: Kind, folder: string)

  function Folder(k: Kind): string {
    match k
    case Meeting => "meeting-notes"
    case Daily => "daily-notes"
    case Note => "notes"
  }

  /** The parser the scan uses for a directory of the given kind. */
  function ParseAs(k: Kind, f: string): Option<NoteNames.Parsed> {
    match k
    case Meeting => NoteNames.ParseMeeting(f)
    case Daily => NoteNames.ParseDaily(f)
    case Note => NoteNames.ParseNote(f)
  }

  /** The directory filter (`.md`, and not `index.md` among general notes) and a successful parse. */
  predicate Accepted(k: Kind, f: string) {
    EndsWith(f, ".md") && !(k == Note && f == "index.md") && ParseAs(k, f).Some?
  }

  function NoteOf(k: Kind, f: string): NoteInfo
    requires ParseAs(k, f).Some?
  {
    var p := ParseAs(k, f).value;
    NoteInfo(f, p.title, p.date, k, Folder(k))
  }

  /** Every name a parser accepts ends in `.md` and is not `index.md`: the directory filter is implied. */
  lemma FilterImpliedByParse(k: Kind, f: string)
    ensures Accepted(k, f) <==> ParseAs(k, f).Some?
    ensures ParseAs(k, f).Some? ==> IsDateText(ParseAs(k, f).value.date)
  {
    if ParseAs(k, f).Some? {
      match k
      case Meeting => MeetingNameShape(f);
      case Daily => DailyNameShape(f);
      case Note => NoteNameShape(f);
    }
  }

  lemma MeetingNameShape(f: string)
    requires NoteNames.ParseMeeting(f).Some?
    ensures EndsWith(f, ".md") && f != "index.md" && IsDateText(NoteNames.ParseMeeting(f).value.date)
  {
    if exists p, d :: NoteNames.SuffixMatch(f, p, d) {
      var p, d :| NoteNames.SuffixMatch(f, p, d);
      NoteNames.SuffixMatchAt(f, p, d);
    } else {
      var d, p :| NoteNames.PrefixMatch(f, d, p);
      NoteNames.PrefixMatchAt(f, d, p);
    }
  }

  lemma DailyNameShape(f: string)
    requires NoteNames.ParseDaily(f).Some?
    ensures EndsWith(f, ".md") && IsDateText(NoteNames.ParseDaily(f).value.date)
  {
    var d :| NoteNames.DailyMatch(f, d);
    assert f[|f| - 3..] == ".md";
  }

  lemma NoteNameShape(f: string)
    requires NoteNames.ParseNote(f).Some?
    ensures EndsWith(f, ".md") && f != "index.md" && IsDateText(NoteNames.ParseNote(f).value.date)
  {
    var p, d :| NoteNames.SuffixMatch(f, p, d);
    NoteNames.SuffixMatchAt(f, p, d);
  }

  /** One directory's contribution to `scanAllNotes`, in listing order. */
  function ScanDir(files: seq<string>, k: Kind): (r: seq<NoteInfo>)
    ensures forall n :: n in r ==> exists f :: f in files && Accepted(k, f) && n == NoteOf(k, f)
    ensures forall f :: f in files && Accepted(k, f) ==> NoteOf(k, f) in r
    ensures forall n :: n in r ==> n.kind == k && n.folder == Folder(k) && IsDateText(n.date)
    ensures |r| <= |files|
  {
    if files == [] then []
    else
      var rest := ScanDir(files[1..], k);
      var f := files[0];
      FilterImpliedByParse(k, f);
      assert forall g :: g in files[1..] ==> g in files;
      if Accepted(k, f) then [NoteOf(k, f)] + rest else rest
  }

  // ---------------------------------------------------------------- newest first

  /** `new Date(n.date).getTime()`, `None` for Invalid Date. */
  function Instant(n: NoteInfo): Option<int> {
    ParseDateMs(n.date)
  }

  /** Every element has a time under `at`. */
  predicate AllTimed<T>(s: seq<T>, at: T -> Option<int>) {
    forall i :: 0 <= i < |s| ==> at(s[i]).Some?
  }

  /** Every element has a time and the times never increase. */
  predicate LatestFirst<T>(s: seq<T>, at: T -> Option<int>) {
    AllTimed(s, at) && forall i, j :: 0 <= i < j < |s| ==> at(s[j]).value <= at(s[i]).value
  }

  /** `a` sorts ahead of `b` under the comparator `(a, b) => at(b) - at(a)`. */
  predicate Later<T>(a: T, b: T, at: T -> Option<int>) {
    at(a).Some? && at(b).Some? && at(a).value > at(b).value
  }

  /** Insert `x` ahead of the first element that is not later than it (equal times keep input order). */
  function InsertLatest<T(==)>(x: T, s: seq<T>, at: T -> Option<int>): (r: seq<T>)
    ensures multiset(r) == multiset(s) + multiset{x}
  {
    if s == [] then [x]
    else if Later(s[0], x, at) then
      assert s == [s[0]] + s[1..];
      [s[0]] + InsertLatest(x, s[1..], at)
    else [x] + s
  }

  /** Inserting an element no later than `v` among elements no later than `v` keeps them all no later than `v`. */
  lemma {:induction false} InsertLatestBelow<T>(x: T, s: seq<T>, at: T -> Option<int>, v: int)
    requires at(x).Some? && at(x).value <= v
    requires forall i :: 0 <= i < |s| ==> at(s[i]).Some? && at(s[i]).value <= v
    ensures forall i :: 0 <= i < |InsertLatest(x, s, at)| ==>
      at(InsertLatest(x, s, at)[i]).Some? && at(InsertLatest(x, s, at)[i]).value <= v
  {
    if s != [] && Later(s[0], x, at) {
      var t := InsertLatest(x, s[1..], at);
      assert InsertLatest(x, s, at) == [s[0]] + t;
      forall i | 0 <= i < |s[1..]| ensures at(s[1..][i]).Some? && at(s[1..][i]).value <= v {
        assert s[1..][i] == s[i + 1];
      }
      InsertLatestBelow(x, s[1..], at, v);
      forall i | 0 <= i < |[s[0]] + t| ensures at(([s[0]] + t)[i]).Some? && at(([s[0]] + t)[i]).value <= v {
        if i > 0 { assert ([s[0]] + t)[i] == t[i - 1]; }
      }
    } else if s != [] {
      assert InsertLatest(x, s, at) == [x] + s;
      forall i | 0 <= i < |[x] + s| ensures at(([x] + s)[i]).Some? && at(([x] + s)[i]).value <= v {
        if i > 0 { assert ([x] + s)[i] == s[i - 1]; }
      }
    }
  }

  /** Inserting a timed element keeps a latest-first sequence latest first. */
  lemma {:induction false} InsertLatestSorted<T>(x: T, s: seq<T>, at: T -> Option<int>)
    requires LatestFirst(s, at) && at(x).Some?
    ensures LatestFirst(InsertLatest(x, s, at), at)
  {
    if s != [] && Later(s[0], x, at) {
      var t := InsertLatest(x, s[1..], at);
      assert InsertLatest(x, s, at) == [s[0]] + t;
      LatestFirstTail(s, at);
      InsertLatestSorted(x, s[1..], at);
      forall i | 0 <= i < |s[1..]| ensures at(s[1..][i]).Some? && at(s[1..][i]).value <= at(s[0]).value {
        assert s[1..][i] == s[i + 1];
      }
      InsertLatestBelow(x, s[1..], at, at(s[0]).value);
      ConsLatest(s[0], t, at);
    } else {
      assert InsertLatest(x, s, at) == [x] + s;
      if s != [] {
        assert at(s[0]).value <= at(x).value;
      }
      ConsLatest(x, s, at);
    }
  }

  lemma LatestFirstTail<T>(s: seq<T>, at: T -> Option<int>)
    requires LatestFirst(s, at) && s != []
    ensures LatestFirst(s[1..], at)
  {
    var t := s[1..];
    forall i | 0 <= i < |t| ensures at(t[i]).Some? {
      assert t[i] == s[i + 1];
    }
    forall i, j | 0 <= i < j < |t| ensures at(t[j]).value <= at(t[i]).value {
      assert t[i] == s[i + 1] && t[j] == s[j + 1];
    }
  }

  /** An element at least as late as the head of a latest-first sequence can go in front of it. */
  lemma ConsLatest<T>(h: T, t: seq<T>, at: T -> Option<int>)
    requires LatestFirst(t, at) && at(h).Some?
    requires t != [] ==> at(t[0]).value <= at(h).value
    ensures LatestFirst([h] + t, at)
  {
    var r := [h] + t;
    forall i | 0 <= i < |r| ensures at(r[i]).Some? {
      if i > 0 {
        assert r[i] == t[i - 1];
      }
    }
    forall i, j | 0 <= i < j < |r| ensures at(r[j]).value <= at(r[i]).value {
      assert r[j] == t[j - 1];
      if i > 0 {
        assert r[i] == t[i - 1];
      } else {
        assert at(t[j - 1]).value <= at(t[0]).value;
      }
    }
  }

  /** A stable insertion sort, latest first. */
  function SortLatestFirst<T(==)>(s: seq<T>, at: T -> Option<int>): (r: seq<T>)
    ensures multiset(r) == multiset(s)
    ensures AllTimed(s, at) ==> LatestFirst(r, at)
  {
    if s == [] then []
    else
      var t := SortLatestFirst(s[1..], at);
      assert s == [s[0]] + s[1..];
      assert AllTimed(s, at) ==> LatestFirst(InsertLatest(s[0], t, at), at) by {
        if AllTimed(s, at) {
          assert AllTimed(s[1..], at) by {
            forall i | 0 <= i < |s[1..]| ensures at(s[1..][i]).Some? {
              assert s[1..][i] == s[i + 1];
            }
          }
          InsertLatestSorted(s[0], t, at);
        }
      }
      InsertLatest(s[0], t, at)
  }

  predicate AllValid(s: seq<NoteInfo>) {
    forall i :: 0 <= i < |s| ==> Instant(s[i]).Some?
  }

  predicate NewestFirst(s: seq<NoteInfo>) {
    AllValid(s) && forall i, j :: 0 <= i < j < |s| ==> Instant(s[j]).value <= Instant(s[i]).value
  }

  /**
   `notes.sort(...)` by date, newest first, with equal dates kept in input
   order. When every date is valid the result is newest-first.
   */
  function SortNewestFirst(s: seq<NoteInfo>): (r: seq<NoteInfo>)
    ensures multiset(r) == multiset(s)
    ensures AllValid(s) ==> NewestFirst(r)
  {
    var r := SortLatestFirst(s, Instant);
    assert AllValid(s) ==> AllTimed(s, Instant);
    assert LatestFirst(r, Instant) ==> NewestFirst(r);
    r
  }

  /** `scanAllNotes`: the three directories, then newest first. */
  function ScanAll(meetingFiles: seq<string>, dailyFiles: seq<string>, noteFiles: seq<string>): (r: seq<NoteInfo>)
    ensures multiset(r) == multiset(ScanDir(meetingFiles, Meeting) + ScanDir(dailyFiles, Daily) + ScanDir(noteFiles, Note))
    ensures forall n :: n in r ==> IsDateText(n.date)
  {
    var all := ScanDir(meetingFiles, Meeting) + ScanDir(dailyFiles, Daily) + ScanDir(noteFiles, Note);
    var r := SortNewestFirst(all);
    forall n | n in r ensures IsDateText(n.date) {
      assert n in multiset(r);
    }
    r
  }

  // ---------------------------------------------------------------- selections

  /** The filters the dashboard applies to the note list. */
  datatype Window =
    | Since(t: int)                // new Date(n.date) >= t
    | During(lo: int, hi: int)     // lo <= new Date(n.date) && new Date(n.date) < hi
    | Before(t: int)               // new Date(n.date) < t
    | OfKind(k: Kind)              // n.type === k
    | InMonth(key: string)         // n.date.substring(0, 7) === key
    | InMonths(keys: set<string>)  // the month key is one of `keys`
    | Valid                        // the date is not Invalid Date

  /** Comparisons with Invalid Date are false, so an invalid date matches no time window. */
  predicate Matches(n: NoteInfo, w: Window) {
    match w
    case Since(t) => Instant(n).Some? && Instant(n).value >= t
    case During(lo, hi) => Instant(n).Some? && lo <= Instant(n).value < hi
    case Before(t) => Instant(n).Some? && Instant(n).value < t
    case OfKind(k) => n.kind == k
    case InMonth(key) => MonthKey(n.date) == key
    case InMonths(keys) => MonthKey(n.date) in keys
    case Valid => Instant(n).Some?
  }

  /** `s.filter(keep)`: the elements that pass, in order. */
  function Filter<T(==,!new)>(s: seq<T>, keep: T -> bool): (r: seq<T>)
    ensures forall x :: x in r <==> x in s && keep(x)
    ensures |r| <= |s|
  {
    if s == [] then []
    else
      var rest := Filter(s[1..], keep);
      assert s == [s[0]] + s[1..];
      if keep(s[0]) then [s[0]] + rest else rest
  }

  /** The first element kept is the first element that passes. */
  lemma {:induction false} FilterFirst<T(!new)>(s: seq<T>, keep: T -> bool)
    requires Filter(s, keep) != []
    ensures exists i :: 0 <= i < |s| && s[i] == Filter(s, keep)[0] && forall j :: 0 <= j < i ==> !keep(s[j])
  {
    if keep(s[0]) {
      assert Filter(s, keep)[0] == s[0];
    } else {
      assert Filter(s, keep) == Filter(s[1..], keep);
      FilterFirst(s[1..], keep);
      var i :| 0 <= i < |s[1..]| && s[1..][i] == Filter(s[1..], keep)[0] && forall j :: 0 <= j < i ==> !keep(s[1..][j]);
      assert s[i + 1] == Filter(s, keep)[0];
      forall j | 0 <= j < i + 1 ensures !keep(s[j]) {
        if j > 0 { assert s[j] == s[1..][j - 1]; }
      }
    }
  }

  /** When every element passes, the filter keeps them all. */
  lemma {:induction false} FilterAll<T(!new)>(s: seq<T>, keep: T -> bool)
    requires forall i :: 0 <= i < |s| ==> keep(s[i])
    ensures Filter(s, keep) == s
  {
    if s != [] {
      FilterAll(s[1..], keep);
      assert keep(s[0]);
      assert Filter(s, keep) == [s[0]] + Filter(s[1..], keep);
      assert s == [s[0]] + s[1..];
    }
  }

  /** When no element passes, the filter keeps none. */
  lemma {:induction false} FilterNone<T(!new)>(s: seq<T>, keep: T -> bool)
    requires forall i :: 0 <= i < |s| ==> !keep(s[i])
    ensures Filter(s, keep) == []
  {
    if s != [] {
      FilterNone(s[1..], keep);
      assert !keep(s[0]);
      assert Filter(s, keep) == Filter(s[1..], keep);
    }
  }

  /** `notes.filter(...)` with one of the dashboard's windows. */
  function Select(s: seq<NoteInfo>, w: Window): (r: seq<NoteInfo>)
    ensures forall n :: n in r <==> n in s && Matches(n, w)
    ensures |r| <= |s|
  {
    Filter(s, n => Matches(n, w))
  }

  /** The first note selected is the first note that matches. */
  lemma SelectFirst(s: seq<NoteInfo>, w: Window)
    requires Select(s, w) != []
    ensures exists i :: 0 <= i < |s| && s[i] == Select(s, w)[0] && forall j :: 0 <= j < i ==> !Matches(s[j], w)
  {
    FilterFirst(s, n => Matches(n, w));
  }

  /** `notes.filter(p).length` */
  function Count(s: seq<NoteInfo>, w: Window): nat {
    |Select(s, w)|
  }

  /** A note whose window holds is selected, whatever the other windows say. */
  lemma SelectAll(s: seq<NoteInfo>, w: Window)
    requires forall n :: n in s ==> Matches(n, w)
    ensures Select(s, w) == s
  {
    forall i | 0 <= i < |s| ensures Matches(s[i], w) {
      assert s[i] in s;
    }
    FilterAll(s, n => Matches(n, w));
  }

  // ---------------------------------------------------------------- statistics

  datatype Stats = Stats(total: nat, thisWeek: nat, thisMonth: nat, meeting: nat, daily: nat, note: nat)

  function WeekStart(now: int): int {
    now - 7 * MsPerDay
  }

  /** Each note has exactly one of the three kinds. */
  lemma {:induction false} KindCountsSum(s: seq<NoteInfo>)
    ensures Count(s, OfKind(Meeting)) + Count(s, OfKind(Daily)) + Count(s, OfKind(Note)) == |s|
  {
    if s != [] {
      KindCountsSum(s[1..]);
    }
  }

  /** The notes since `lo` are those since `hi` plus those from `lo` up to `hi`. */
  lemma {:induction false} SinceSplit(s: seq<NoteInfo>, lo: int, hi: int)
    requires lo <= hi
    ensures Count(s, Since(lo)) == Count(s, Since(hi)) + Count(s, During(lo, hi))
  {
    if s != [] {
      SinceSplit(s[1..], lo, hi);
    }
  }

  /** With `lo > hi` nobody is in the `During(lo, hi)` window and `Since(lo)` is within `Since(hi)`. */
  lemma {:induction false} SinceNested(s: seq<NoteInfo>, lo: int, hi: int)
    requires lo > hi
    ensures Count(s, During(lo, hi)) == 0
    ensures Count(s, Since(lo)) <= Count(s, Since(hi))
  {
    if s != [] {
      SinceNested(s[1..], lo, hi);
    }
  }

  /**
   `calculateStats`. `thisMonth` counts every note since the first of the
   month, so it includes the notes of the last seven days that fall in
   this month.
   */
  function CalculateStats(notes: seq<NoteInfo>, now: int, monthStart: int): (r: Stats)
    ensures r.total == |notes|
    ensures r.meeting == |Select(notes, OfKind(Meeting))| && r.daily == |Select(notes, OfKind(Daily))|
         && r.note == |Select(notes, OfKind(Note))|
    ensures r.meeting + r.daily + r.note == r.total
    ensures r.thisMonth == |Select(notes, Since(monthStart))|
    ensures r.thisWeek == |GroupNotesByTime(notes, now, monthStart).thisWeek|
    ensures monthStart <= WeekStart(now) ==>
      r.thisMonth == |GroupNotesByTime(notes, now, monthStart).thisWeek|
                   + |GroupNotesByTime(notes, now, monthStart).thisMonth|
    ensures monthStart > WeekStart(now) ==> r.thisMonth <= r.thisWeek
  {
    KindCountsSum(notes);
    assert monthStart <= WeekStart(now) ==>
      Count(notes, Since(monthStart)) == Count(notes, Since(WeekStart(now))) + Count(notes, During(monthStart, WeekStart(now))) by {
      if monthStart <= WeekStart(now) {
        SinceSplit(notes, monthStart, WeekStart(now));
      }
    }
    assert monthStart > WeekStart(now) ==> Count(notes, Since(monthStart)) <= Count(notes, Since(WeekStart(now))) by {
      if monthStart > WeekStart(now) {
        SinceNested(notes, monthStart, WeekStart(now));
      }
    }
    Stats(|notes|, Count(notes, Since(WeekStart(now))), Count(notes, Since(monthStart)),
          Count(notes, OfKind(Meeting)), Count(notes, OfKind(Daily)), Count(notes, OfKind(Note)))
  }

  // ---------------------------------------------------------------- time buckets

  datatype Groups = Groups(recent: seq<NoteInfo>, thisWeek: seq<NoteInfo>, thisMonth: seq<NoteInfo>, older: seq<NoteInfo>)

  /**
   `groupNotesByTime`. A note is in `thisWeek` when its date is at or after
   the start of the rolling week, in `thisMonth` when it is from the first
   of the month up to that start, and in `older` when it is before the
   first of the month.
   */
  function GroupNotesByTime(notes: seq<NoteInfo>, now: int, monthStart: int): (r: Groups)
    ensures r.recent == notes[..if |notes| < 10 then |notes| else 10]
    ensures forall n :: n in r.thisWeek <==> n in notes && Matches(n, Since(WeekStart(now)))
    ensures forall n :: n in r.thisMonth <==> n in notes && Matches(n, During(monthStart, WeekStart(now)))
    ensures forall n :: n in r.older <==> n in notes && Matches(n, Before(monthStart))
  {
    var weekStart := WeekStart(now);
    Groups(NoteNames.Take(notes, 10),
           Select(notes, Since(weekStart)),
           Select(notes, During(monthStart, weekStart)),
           Select(notes, Before(monthStart)))
  }

  /**
   `thisMonth` shares no note with `thisWeek` or `older`; every note with a
   valid date is in at least one bucket; a note with an invalid date is in
   none; the buckets hold nothing but the given notes.
   */
  lemma BucketsCoverDated(notes: seq<NoteInfo>, now: int, monthStart: int)
    ensures var g := GroupNotesByTime(notes, now, monthStart);
      && (forall n :: n in g.thisMonth ==> n !in g.thisWeek && n !in g.older)
      && (forall n :: n in notes && Instant(n).Some? ==> n in g.thisWeek || n in g.thisMonth || n in g.older)
      && (forall n :: n in notes && Instant(n).None? ==> n !in g.thisWeek && n !in g.thisMonth && n !in g.older)
      && (forall n :: n in g.thisWeek || n in g.thisMonth || n in g.older ==> n in notes)
  {
  }

  /**
   The rolling week can reach back before the first of the month: a note
   is then in both `thisWeek` and `older`, exactly when its date lies
   between the two.
   */
  lemma WeekOverlapsOlder(notes: seq<NoteInfo>, now: int, monthStart: int, n: NoteInfo)
    requires n in notes
    ensures n in GroupNotesByTime(notes, now, monthStart).thisWeek && n in GroupNotesByTime(notes, now, monthStart).older
        <==> Instant(n).Some? && WeekStart(now) <= Instant(n).value < monthStart
  {
  }

  /** When the month began at least a week ago the three buckets partition the valid notes. */
  lemma BucketsPartition(notes: seq<NoteInfo>, now: int, monthStart: int)
    requires monthStart <= WeekStart(now)
    ensures forall n :: n in GroupNotesByTime(notes, now, monthStart).thisWeek ==>
      n !in GroupNotesByTime(notes, now, monthStart).older
    ensures Count(notes, Since(WeekStart(now))) + Count(notes, During(monthStart, WeekStart(now)))
            + Count(notes, Before(monthStart)) == Count(notes, Valid)
  {
    BucketCounts(notes, monthStart, WeekStart(now));
  }

  lemma {:induction false} BucketCounts(s: seq<NoteInfo>, lo: int, hi: int)
    requires lo <= hi
    ensures Count(s, Since(hi)) + Count(s, During(lo, hi)) + Count(s, Before(lo)) == Count(s, Valid)
  {
    if s != [] {
      BucketCounts(s[1..], lo, hi);
    }
  }

  // ---------------------------------------------------------------- archive

  /** `date.substring(0, 7)`: `YYYY-MM` of a date text. */
  function MonthKey(date: string): string {
    if |date| >= 7 then date[..7] else date
  }

  /** The keys of the month map, in insertion order: each key once, in order of first appearance. */
  function MonthKeys(s: seq<NoteInfo>): (r: seq<string>)
    ensures forall i, j :: 0 <= i < j < |r| ==> r[i] != r[j]
    ensures forall k :: k in r <==> exists n :: n in s && MonthKey(n.date) == k
  {
    if s == [] then []
    else
      var rest := MonthKeys(s[..|s| - 1]);
      var k := MonthKey(s[|s| - 1].date);
      assert s == s[..|s| - 1] + [s[|s| - 1]];
      if k in rest then rest else rest + [k]
  }

  datatype MonthGroup = MonthGroup(key: string, notes: seq<NoteInfo>)

  function GroupsFor(keys: seq<string>, s: seq<NoteInfo>): (r: seq<MonthGroup>)
    ensures |r| == |keys|
    ensures forall i :: 0 <= i < |r| ==> r[i].key == keys[i] && r[i].notes == Select(s, InMonth(keys[i]))
  {
    if keys == [] then [] else [MonthGroup(keys[0], Select(s, InMonth(keys[0])))] + GroupsFor(keys[1..], s)
  }

  function SumSizes(gs: seq<MonthGroup>): nat {
    if gs == [] then 0 else |gs[0].notes| + SumSizes(gs[1..])
  }

  /**
   The month grouping of `generateArchiveSummary`: months newest first, each
   older note in exactly the group of its own month, and the group sizes
   adding up to the number of older notes.
   */
  function ArchiveGroups(older: seq<NoteInfo>): (r: seq<MonthGroup>)
    ensures forall i, j :: 0 <= i < j < |r| ==> StrOrder.Less(r[j].key, r[i].key)
    ensures forall i, n :: 0 <= i < |r| ==> (n in r[i].notes <==> n in older && MonthKey(n.date) == r[i].key)
    ensures forall n :: n in older ==> exists i :: 0 <= i < |r| && r[i].key == MonthKey(n.date)
    ensures SumSizes(r) == |older|
  {
    var keys := MonthKeys(older);
    var sorted := StrOrder.SortDescending(keys);
    StrOrder.DistinctDescendingStrict(sorted);
    ArchiveCovers(older, sorted);
    ArchiveSizes(older, sorted);
    GroupsMembers(sorted, older);
    GroupsFor(sorted, older)
  }

  /** A group holds exactly the notes of its month. */
  lemma GroupsMembers(keys: seq<string>, s: seq<NoteInfo>)
    ensures forall i, n :: 0 <= i < |keys| ==>
      (n in GroupsFor(keys, s)[i].notes <==> n in s && MonthKey(n.date) == keys[i])
  {
    var r := GroupsFor(keys, s);
    forall i, n | 0 <= i < |keys|
      ensures n in r[i].notes <==> n in s && MonthKey(n.date) == keys[i]
    {
      assert r[i].notes == Select(s, InMonth(keys[i]));
    }
  }

  /** Every older note's month is one of the sorted keys. */
  lemma ArchiveCovers(older: seq<NoteInfo>, sorted: seq<string>)
    requires multiset(sorted) == multiset(MonthKeys(older))
    ensures forall n :: n in older ==> exists i :: 0 <= i < |sorted| && sorted[i] == MonthKey(n.date)
    ensures forall n :: n in older ==> MonthKey(n.date) in (set k | k in sorted)
  {
    forall n | n in older ensures exists i :: 0 <= i < |sorted| && sorted[i] == MonthKey(n.date) {
      assert MonthKey(n.date) in MonthKeys(older);
      assert MonthKey(n.date) in multiset(sorted);
    }
  }

  /** The group sizes add up to the number of older notes. */
  lemma ArchiveSizes(older: seq<NoteInfo>, sorted: seq<string>)
    requires forall i, j :: 0 <= i < j < |sorted| ==> sorted[i] != sorted[j]
    requires forall n :: n in older ==> MonthKey(n.date) in (set k | k in sorted)
    ensures SumSizes(GroupsFor(sorted, older)) == |older|
  {
    var ks := set k | k in sorted;
    SumSizesCount(sorted, older);
    forall n | n in older ensures Matches(n, InMonths(ks)) {
      assert MonthKey(n.date) in ks;
    }
    SelectAll(older, InMonths(ks));
    assert Count(older, InMonths(ks)) == |older|;
  }

  /** Counting the notes of one more month key. */
  lemma {:induction false} CountInMonthsAdd(s: seq<NoteInfo>, k: string, keys: set<string>)
    requires k !in keys
    ensures Count(s, InMonths({k} + keys)) == Count(s, InMonth(k)) + Count(s, InMonths(keys))
  {
    if s != [] {
      CountInMonthsAdd(s[1..], k, keys);
    }
  }

  lemma {:induction false} SumSizesCount(keys: seq<string>, s: seq<NoteInfo>)
    requires forall i, j :: 0 <= i < j < |keys| ==> keys[i] != keys[j]
    ensures SumSizes(GroupsFor(keys, s)) == Count(s, InMonths(set k | k in keys))
  {
    if keys == [] {
      assert (set k | k in keys) == {};
      FilterNone(s, n => Matches(n, InMonths({})));
    } else {
      SumSizesCount(keys[1..], s);
      assert (set k | k in keys) == {keys[0]} + (set k | k in keys[1..]);
      CountInMonthsAdd(s, keys[0], set k | k in keys[1..]);
      assert GroupsFor(keys, s)[1..] == GroupsFor(keys[1..], s);
    }
  }

  // ---------------------------------------------------------------- latest date

  /**
   `getLatestNoteDate`: `-` when no note has the type, otherwise the date of
   the first note of that type.
   */
  function LatestNoteDate(notes: seq<NoteInfo>, k: Kind): (r: string)
    ensures (forall n :: n in notes ==> n.kind != k) ==> r == "-"
    ensures (exists n :: n in notes && n.kind == k) ==>
      exists i :: 0 <= i < |notes| && notes[i].kind == k && notes[i].date == r
                  && forall j :: 0 <= j < i ==> notes[j].kind != k
  {
    var ofKind := Select(notes, OfKind(k));
    if |ofKind| == 0 then
      assert forall n :: n in notes ==> n.kind != k;
      "-"
    else
      assert ofKind[0] in ofKind;
      SelectFirst(notes, OfKind(k));
      var i :| 0 <= i < |notes| && notes[i] == ofKind[0] && forall j :: 0 <= j < i ==> !Matches(notes[j], OfKind(k));
      assert notes[i].kind == k && notes[i].date == ofKind[0].date;
      ofKind[0].date
  }

  /** With dates that are never the placeholder, `-` means exactly that no note has the type. */
  lemma LatestDashIffNone(notes: seq<NoteInfo>, k: Kind)
    requires forall n :: n in notes ==> n.date != "-"
    ensures LatestNoteDate(notes, k) == "-" <==> forall n :: n in notes ==> n.kind != k
  {
  }

  /** On a newest-first list the latest date of a type is no earlier than any date of that type. */
  lemma LatestIsNewest(notes: seq<NoteInfo>, k: Kind, n: NoteInfo)
    requires NewestFirst(notes)
    requires n in notes && n.kind == k
    ensures Instant(n).Some? && ParseDateMs(LatestNoteDate(notes, k)).Some?
    ensures Instant(n).value <= ParseDateMs(LatestNoteDate(notes, k)).value
  {
    var i :| 0 <= i < |notes| && notes[i].kind == k && notes[i].date == LatestNoteDate(notes, k)
             && forall j :: 0 <= j < i ==> notes[j].kind != k;
    var j :| 0 <= j < |notes| && notes[j] == n;
    assert j >= i;
  }

  /** The scanned list never carries the `-` placeholder as a date. */
  lemma ScannedDatesNotPlaceholder(meetingFiles: seq<string>, dailyFiles: seq<string>, noteFiles: seq<string>)
    ensures forall n :: n in ScanAll(meetingFiles, dailyFiles, noteFiles) ==> n.date != "-"
  {
  }

  // ---------------------------------------------------------------- older build

  /** `isThisWeek` of the older build: `now - 7 days <= date <= now`. */
  predicate LegacyIsThisWeek(date: string, now: int) {
    ParseDateMs(date).Some? && WeekStart(now) <= ParseDateMs(date).value <= now
  }

  /**
   `isThisMonth` of the older build: same local month and year as `now`.
   The two offsets are the host zone's offsets from UTC at the note's
   instant and at `now`.
   */
  predicate LegacyIsThisMonth(date: string, now: int, dateOffset: int, nowOffset: int) {
    ParseDateMs(date).Some?
    && LocalCivil(ParseDateMs(date).value, dateOffset).month == LocalCivil(now, nowOffset).month
    && LocalCivil(ParseDateMs(date).value, dateOffset).year == LocalCivil(now, nowOffset).year
  }

  /**
   The older build's week test is the dashboard's week window with dates
   after `now` left out.
   */
  lemma LegacyWeekIsBoundedWindow(n: NoteInfo, now: int)
    ensures LegacyIsThisWeek(n.date, now) <==> Matches(n, Since(WeekStart(now))) && Instant(n).value <= now
  {
  }
}

=== FILE: dates.dfy ===
/**
 Calendar dates as the JavaScript `Date` object sees them: `YYYY-MM-DD`
 text, day numbers counted from 1970-01-01, and the millisecond instants
 that `getTime()` returns.

 `new Date("YYYY-MM-DD")` is parsed as midnight UTC. A month outside 1..12
 or a day outside 1..31 gives Invalid Date (NaN, which compares false with
 everything); a day past the end of its month rolls over into the next
 month, as the date-time string parser of the V8 engine does.
 */
module Dates {
  import opened Opt
  import opened Text

  const MsPerSecond: int := 1000
  const MsPerMinute: int := 60000
  const MsPerHour: int := 3600000
  const MsPerDay: int := 86400000

  /** `\d{4}-\d{2}-\d{2}` */
  predicate IsDateText(d: string) {
    && |d| == 10
    && IsDigit(d[0]) && IsDigit(d[1]) && IsDigit(d[2]) && IsDigit(d[3])
    && d[4] == '-'
    && IsDigit(d[5]) && IsDigit(d[6])
    && d[7] == '-'
    && IsDigit(d[8]) && IsDigit(d[9])
  }

  /** `\d{4}-\d{2}`: an invoice period and the month part of a ledger file name. */
  predicate IsPeriodText(p: string) {
    && |p| == 7
    && IsDigit(p[0]) && IsDigit(p[1]) && IsDigit(p[2]) && IsDigit(p[3])
    && p[4] == '-'
    && IsDigit(p[5]) && IsDigit(p[6])
  }

  /** The year of a `YYYY-MM` period. */
  function PeriodYearOf(p: string): nat
    requires IsPeriodText(p)
  {
    DigitsValue(p[..4])
  }

  /** The month of a `YYYY-MM` period. */
  function PeriodMonthOf(p: string): nat
    requires IsPeriodText(p)
  {
    DigitsValue(p[5..])
  }

  function YearOf(d: string): nat
    requires IsDateText(d)
  {
    DigitsValue(d[..4])
  }

  function MonthOf(d: string): nat
    requires IsDateText(d)
  {
    DigitsValue(d[5..7])
  }

  function DayOf(d: string): nat
    requires IsDateText(d)
  {
    DigitsValue(d[8..10])
  }

  /** Days from 1970-01-01 to the given proleptic Gregorian date (month 1..12). */
  function DaysFromCivil(y: int, m: int, d: int): int
    requires 1 <= m <= 12
  {
    var y' := if m <= 2 then y - 1 else y;
    var era := y' / 400;
    var yoe := y' - era * 400;
    var mp := if m > 2 then m - 3 else m + 9;
    var doy := (153 * mp + 2) / 5 + d - 1;
    var doe := yoe * 365 + yoe / 4 - yoe / 100 + doy;
    era * 146097 + doe - 719468
  }

  datatype Civil = Civil(year: int, month: int, day: int)

  /**
   The year of era (counted from March, 0..399) of a day of a 400-year
   era, and the day within that year.
   */
  function YearOfEra(doe: int): int {
    (doe - doe / 1460 + doe / 36524 - doe / 146096) / 365
  }

  function DayOfYear(doe: int): int {
    var yoe := YearOfEra(doe);
    doe - (365 * yoe + yoe / 4 - yoe / 100)
  }

  /** The year of era `yoe` (March to February) ends in a leap day. */
  predicate MarchYearIsLeap(yoe: int) {
    (yoe + 1) % 4 == 0 && ((yoe + 1) % 100 != 0 || yoe + 1 == 400)
  }

  /**
   The calendar date of a day number. `CivilFromDaysInverse` shows it is a
   real date of its month that `DaysFromCivil` maps back to the number.
   */
  function CivilFromDays(z0: int): (r: Civil)
    ensures 1 <= r.month <= 12 && 1 <= r.day <= 31
  {
    var z := z0 + 719468;
    var era := z / 146097;
    var doe := z - era * 146097;
    DateInEra(era, YearOfEra(doe), DayOfYear(doe))
  }

  /** The date of day of year `doy` (from March) of year of era `yoe` of 400-year era `era`. */
  function DateInEra(era: int, yoe: int, doy: int): (r: Civil)
    ensures 0 <= doy <= 365 ==> 1 <= r.month <= 12 && 1 <= r.day <= 31
  {
    var mp := (5 * doy + 2) / 153;
    var d := doy - (153 * mp + 2) / 5 + 1;
    var m := if mp < 10 then mp + 3 else mp - 9;
    Civil(if m <= 2 then yoe + era * 400 + 1 else yoe + era * 400, m, d)
  }

  predicate IsLeapYear(y: int) {
    y % 4 == 0 && (y % 100 != 0 || y % 400 == 0)
  }

  function DaysInMonth(y: int, m: int): int
    requires 1 <= m <= 12
  {
    if m == 2 then (if IsLeapYear(y) then 29 else 28)
    else if m == 4 || m == 6 || m == 9 || m == 11 then 30
    else 31
  }

  /**
   The year and day of year at day `j` of four-year cycle `k` of century
   `c` of an era: the divisions of `YearOfEra` worked out one by one.
   */
  lemma CycleQuotients(c: int, k: int, j: int) returns (w: int, t: int)
    requires 0 <= c < 4 && 0 <= k < 25 && 0 <= j < 1461
    requires c * 36524 + k * 1461 + j < 146097
    requires k == 24 && c < 3 ==> j < 1460
    ensures t == (if j >= 1460 - 24 * c - k then 1 else 0) && 0 <= w < 4 && w == (j - t) / 365
    ensures YearOfEra(c * 36524 + k * 1461 + j) == 100 * c + 4 * k + w
    ensures DayOfYear(c * 36524 + k * 1461 + j) == j - 365 * w
  {
    var doe := c * 36524 + k * 1461 + j;
    var last := if doe == 146096 then 1 else 0;
    assert doe / 146096 == last;
    assert doe / 36524 == c + last;
    t := if j >= 1460 - 24 * c - k then 1 else 0;
    assert doe / 1460 == 25 * c + k + t;
    w := (j - t) / 365;
    var yoe := 100 * c + 4 * k + w;
    assert YearOfEra(doe) == yoe;
    assert yoe / 4 == 25 * c + k;
    assert yoe / 100 == c;
  }

  /** Every day of an era falls in a year of the era, on a day that year has. */
  lemma YearOfEraBounds(doe: int)
    requires 0 <= doe < 146097
    ensures 0 <= YearOfEra(doe) < 400 && 0 <= DayOfYear(doe)
    ensures DayOfYear(doe) <= if MarchYearIsLeap(YearOfEra(doe)) then 365 else 364
  {
    var c := if doe == 146096 then 3 else doe / 36524;
    var r := doe - 36524 * c;
    var k := r / 1461;
    var j := r - 1461 * k;
    assert 0 <= k < 25 && 0 <= j < 1461;
    var w, t := CycleQuotients(c, k, j);
    CycleYearLeap(c, k, w);
  }

  /** Within a century, the last year of a four-year cycle is leap, except the century's last one. */
  lemma CycleYearLeap(c: int, k: int, w: int)
    requires 0 <= c < 4 && 0 <= k < 25 && 0 <= w < 4
    ensures MarchYearIsLeap(100 * c + 4 * k + w) <==> w == 3 && (k < 24 || c == 3)
  {
    var y := 100 * c + 4 * k + w + 1;
    assert y / 4 == 25 * c + k + (w + 1) / 4;
    assert y / 100 == c + (4 * k + w + 1) / 100;
  }

  /** The month from March (0..11) and the day of month of a day of the year. */
  lemma MonthOfDay(doy: int)
    requires 0 <= doy <= 365
    ensures var mp := (5 * doy + 2) / 153;
      var d := doy - (153 * mp + 2) / 5 + 1;
      && 0 <= mp <= 11 && 1 <= d <= 31
      && (mp == 11 ==> d == doy - 336)
      && (mp == 1 || mp == 3 || mp == 6 || mp == 8 ==> d <= 30)
  {
  }

  /** The February that ends year of era `yoe` is a leap February of the calendar year. */
  lemma LeapOfEra(yoe: int, era: int)
    requires 0 <= yoe < 400
    ensures IsLeapYear(yoe + era * 400 + 1) <==> MarchYearIsLeap(yoe)
  {
    var y := yoe + era * 400 + 1;
    assert y / 4 == (yoe + 1) / 4 + 100 * era;
    assert y / 100 == (yoe + 1) / 100 + 4 * era;
    assert y / 400 == (yoe + 1) / 400 + era;
  }

  /** A day the year has falls on a day its month has. */
  lemma DateInEraFits(era: int, yoe: int, doy: int)
    requires 0 <= yoe < 400 && 0 <= doy <= (if MarchYearIsLeap(yoe) then 365 else 364)
    ensures var r := DateInEra(era, yoe, doy); r.day <= DaysInMonth(r.year, r.month)
  {
    MonthOfDay(doy);
    LeapOfEra(yoe, era);
  }

  /** `DaysFromCivil` counts the date of a day of an era back to that day. */
  lemma DateInEraDays(era: int, yoe: int, doy: int)
    requires 0 <= yoe < 400 && 0 <= doy <= 365
    ensures var r := DateInEra(era, yoe, doy);
      DaysFromCivil(r.year, r.month, r.day) == era * 146097 + 365 * yoe + yoe / 4 - yoe / 100 + doy - 719468
  {
    MonthOfDay(doy);
    assert (yoe + era * 400) / 400 == era;
  }

  /** The day of year of a day of a month from March is read back as that month. */
  lemma MonthOfDayInverse(mp: int, d: int)
    requires 0 <= mp <= 11 && 1 <= d <= 31
    requires mp == 1 || mp == 3 || mp == 6 || mp == 8 ==> d <= 30
    requires mp == 11 ==> d <= 29
    ensures var doy := (153 * mp + 2) / 5 + d - 1;
      0 <= doy <= 365 && (5 * doy + 2) / 153 == mp && (mp == 11 ==> d == doy - 336)
  {
  }

  /** A day that year of era `yoe` has is read back as that year and day. */
  lemma YearOfEraInverse(yoe: int, doy: int)
    requires 0 <= yoe < 400 && 0 <= doy <= (if MarchYearIsLeap(yoe) then 365 else 364)
    ensures var doe := 365 * yoe + yoe / 4 - yoe / 100 + doy;
      0 <= doe < 146097 && YearOfEra(doe) == yoe && DayOfYear(doe) == doy
  {
    var c := yoe / 100;
    var k := (yoe - 100 * c) / 4;
    var w := yoe - 100 * c - 4 * k;
    assert yoe / 4 == 25 * c + k;
    var j := 365 * w + doy;
    assert 365 * yoe + yoe / 4 - yoe / 100 + doy == c * 36524 + k * 1461 + j;
    assert w == 3 && MarchYearIsLeap(yoe) ==> k < 24 || c == 3;
    var w', t := CycleQuotients(c, k, j);
    assert w' == w;
  }

  /** The date of a day counted within its era. */
  lemma CivilOfEraDay(era: int, doe: int, z: int)
    requires 0 <= doe < 146097 && z == era * 146097 + doe - 719468
    ensures CivilFromDays(z) == DateInEra(era, YearOfEra(doe), DayOfYear(doe))
  {
    assert (era * 146097 + doe) / 146097 == era;
  }

  /** Day `d` of month `mp` from March, in year of era `yoe`, is dated back to that month and day. */
  lemma DateInEraOfMonth(era: int, yoe: int, mp: int, d: int)
    requires 0 <= mp <= 11 && 1 <= d <= 31
    requires mp == 1 || mp == 3 || mp == 6 || mp == 8 ==> d <= 30
    requires mp == 11 ==> d <= 29
    ensures DateInEra(era, yoe, (153 * mp + 2) / 5 + d - 1)
         == Civil(if mp >= 10 then yoe + era * 400 + 1 else yoe + era * 400, if mp < 10 then mp + 3 else mp - 9, d)
  {
    MonthOfDayInverse(mp, d);
  }

  /**
   A real date's era, year of era and day of year (from March), as
   `DaysFromCivil` finds them; `DateInEra` dates them back.
   */
  lemma EraPartsOfDate(y: int, m: int, d: int) returns (era: int, yoe: int, doy: int)
    requires 1 <= m <= 12 && 1 <= d <= DaysInMonth(y, m)
    ensures 0 <= yoe < 400 && 0 <= doy <= (if MarchYearIsLeap(yoe) then 365 else 364)
    ensures DaysFromCivil(y, m, d) == era * 146097 + 365 * yoe + yoe / 4 - yoe / 100 + doy - 719468
    ensures DateInEra(era, yoe, doy) == Civil(y, m, d)
  {
    var y' := if m <= 2 then y - 1 else y;
    era := y' / 400;
    yoe := y' - era * 400;
    var mp := if m > 2 then m - 3 else m + 9;
    doy := (153 * mp + 2) / 5 + d - 1;
    MonthOfDayInverse(mp, d);
    LeapOfEra(yoe, era);
    DateInEraOfMonth(era, yoe, mp, d);
  }

  /** Every real date is the date of its day number. */
  lemma CivilDaysRoundTrip(y: int, m: int, d: int)
    requires 1 <= m <= 12 && 1 <= d <= DaysInMonth(y, m)
    ensures CivilFromDays(DaysFromCivil(y, m, d)) == Civil(y, m, d)
  {
    var era, yoe, doy := EraPartsOfDate(y, m, d);
    YearOfEraInverse(yoe, doy);
    CivilOfEraDay(era, 365 * yoe + yoe / 4 - yoe / 100 + doy, DaysFromCivil(y, m, d));
  }

  /** `CivilFromDays` gives a real date, and `DaysFromCivil` maps it back to the day number. */
  lemma CivilFromDaysInverse(z0: int)
    ensures var r := CivilFromDays(z0);
      && r.day <= DaysInMonth(r.year, r.month)
      && DaysFromCivil(r.year, r.month, r.day) == z0
  {
    var z := z0 + 719468;
    var era := z / 146097;
    var doe := z - era * 146097;
    YearOfEraBounds(doe);
    var yoe, doy := YearOfEra(doe), DayOfYear(doe);
    assert doe == 365 * yoe + yoe / 4 - yoe / 100 + doy;
    CivilOfEraDay(era, doe, z0);
    DateInEraFits(era, yoe, doy);
    DateInEraDays(era, yoe, doy);
  }


  /**
   `new Date(d).getTime() / MsPerDay` for a `YYYY-MM-DD` text: `None` is
   Invalid Date. Month 1..12 and day 1..31 are accepted; the day counts on
   from the first of the month.
   */
  function ParseDateDays(d: string): (r: Option<int>)
    ensures r.Some? <==> IsDateText(d) && 1 <= MonthOf(d) <= 12 && 1 <= DayOf(d) <= 31
    ensures r.Some? ==> r.value == DaysFromCivil(YearOf(d), MonthOf(d), 1) + DayOf(d) - 1
  {
    if IsDateText(d) && 1 <= MonthOf(d) <= 12 && 1 <= DayOf(d) <= 31 then
      Some(DaysFromCivil(YearOf(d), MonthOf(d), 1) + DayOf(d) - 1)
    else None
  }

  /** `new Date(d).getTime()`: midnight UTC of the day, in milliseconds. */
  function ParseDateMs(d: string): (r: Option<int>)
    ensures r.Some? <==> ParseDateDays(d).Some?
    ensures r.Some? ==> r.value == ParseDateDays(d).value * MsPerDay
  {
    match ParseDateDays(d)
    case None => None
    case Some(n) => Some(n * MsPerDay)
  }

  /**
   The host's local calendar date of an instant, for a zone whose offset
   from UTC is `offsetMs` at that instant.
   */
  function LocalCivil(ms: int, offsetMs: int): Civil {
    CivilFromDays((ms + offsetMs) / MsPerDay)
  }

  /** A two-digit field read by `parseInt`. */
  lemma TwoDigits(s: string)
    requires |s| == 2 && AllDigits(s)
    ensures DigitsValue(s) == DigitValue(s[0]) * 10 + DigitValue(s[1])
  {
    assert s[..1][..0] == [] && s[..1][0] == s[0];
    assert DigitsValue(s[..1]) == DigitValue(s[0]);
  }

  /** A four-digit field read by `parseInt`. */
  lemma FourDigits(s: string)
    requires |s| == 4 && AllDigits(s)
    ensures DigitsValue(s) == DigitValue(s[0]) * 1000 + DigitValue(s[1]) * 100
                            + DigitValue(s[2]) * 10 + DigitValue(s[3])
  {
    assert s[..3][..2] == s[..2] && s[..3][2] == s[2] && s[..2][0] == s[0] && s[..2][1] == s[1];
    TwoDigits(s[..2]);
    assert DigitsValue(s[..3]) == DigitsValue(s[..2]) * 10 + DigitValue(s[2]);
  }

  /** The fields of a date text, digit by digit. */
  lemma DateFields(d: string)
    requires IsDateText(d)
    ensures YearOf(d) == DigitValue(d[0]) * 1000 + DigitValue(d[1]) * 100
                       + DigitValue(d[2]) * 10 + DigitValue(d[3])
    ensures MonthOf(d) == DigitValue(d[5]) * 10 + DigitValue(d[6])
    ensures DayOf(d) == DigitValue(d[8]) * 10 + DigitValue(d[9])
  {
    FourDigits(d[..4]);
    TwoDigits(d[5..7]);
    TwoDigits(d[8..10]);
  }

  /** The epoch is day zero, and the calendar reads it back. */
  lemma EpochIsDayZero()
    ensures DaysFromCivil(1970, 1, 1) == 0
    ensures CivilFromDays(0) == Civil(1970, 1, 1)
  {
    assert 1969 / 400 == 4 && 369 / 4 == 92 && 369 / 100 == 3 && (153 * 10 + 2) / 5 == 306;
    assert 719468 / 146097 == 4;
    assert 135080 / 1460 == 92 && 135080 / 36524 == 3 && 135080 / 146096 == 0;
    assert 134991 / 365 == 369 && (5 * 306 + 2) / 153 == 10;
  }

  /** A day past the end of its month is read as a day of the next month. */
  lemma DayOverflowExample()
    ensures ParseDateDays("2024-02-30") == ParseDateDays("2024-03-01")
  {
    FieldsOf("2024-02-30", 2024, 2, 30);
    FieldsOf("2024-03-01", 2024, 3, 1);
    LeapFebruary2024();
  }

  /** The fields of a date text, given as numbers. */
  lemma FieldsOf(d: string, y: nat, m: nat, day: nat)
    requires IsDateText(d)
    requires DigitValue(d[0]) * 1000 + DigitValue(d[1]) * 100 + DigitValue(d[2]) * 10 + DigitValue(d[3]) == y
    requires DigitValue(d[5]) * 10 + DigitValue(d[6]) == m
    requires DigitValue(d[8]) * 10 + DigitValue(d[9]) == day
    ensures YearOf(d) == y && MonthOf(d) == m && DayOf(d) == day
  {
    DateFields(d);
  }

  /** February 2024 has 29 days. */
  lemma LeapFebruary2024()
    ensures DaysFromCivil(2024, 2, 1) + 29 == DaysFromCivil(2024, 3, 1)
  {
    assert 2023 / 400 == 5 && 2024 / 400 == 5;
    assert 23 / 4 == 5 && 24 / 4 == 6 && 23 / 100 == 0 && 24 / 100 == 0;
    assert (153 * 11 + 2) / 5 == 337 && (153 * 0 + 2) / 5 == 0;
  }

  /** A month or day field outside its range is rejected. */
  lemma FieldOutOfRange()
    ensures ParseDateDays("2024-13-01").None?
    ensures ParseDateDays("2024-02-00").None?
  {
    DateFields("2024-13-01");
    DateFields("2024-02-00");
  }
}

=== FILE: invoice.dfy ===
/**
 The invoice rules: per-year sequential numbering from the names already in
 the invoices directory, the minutes-to-money arithmetic (over `real`; the
 rendering with `toFixed` is not modelled), the checks that stop generation
 before anything is written, description truncation in the two renderings,
 the summary lines, and the `.gitignore` update.
 */
module Invoice {
  import opened Opt
  import opened Text
  import opened Dates
  import opened TimeLedger

  // ---------------------------------------------------------------- numbering

  /** `period.split('-')[0]` */
  function YearOfPeriod(period: string): string {
    Split(period, '-')[0]
  }

  lemma PeriodYear(period: string)
    requires IsPeriodText(period)
    ensures YearOfPeriod(period) == period[..4]
  {
    assert period == period[..4] + ['-'] + period[5..];
    assert '-' !in period[..4] by {
      forall i | 0 <= i < 4 ensures period[..4][i] != '-' {
        assert IsDigit(period[i]);
      }
    }
    SplitLine(period[..4], period[5..], '-');
  }

  function YearPrefix(year: string): string {
    "INV-" + year + "-"
  }

  /** The names the numbering looks at: `startsWith('INV-<year>-') && endsWith('.md')`. */
  predicate InYear(f: string, year: string) {
    StartsWith(f, YearPrefix(year)) && EndsWith(f, ".md")
  }

  /** `/INV-\d{4}-(\d{3})/` matches at index `i`. */
  predicate InvMatchAt(f: string, i: nat) {
    && i + 12 <= |f|
    && f[i..i + 4] == "INV-"
    && AllDigits(f[i + 4..i + 8])
    && f[i + 8] == '-'
    && AllDigits(f[i + 9..i + 12])
  }

  /** The leftmost match of the numbering pattern at or after `from`. */
  function FirstInvMatch(f: string, from: nat): (r: Option<nat>)
    ensures r.Some? ==> from <= r.value && InvMatchAt(f, r.value)
    ensures r.Some? ==> forall j :: from <= j < r.value ==> !InvMatchAt(f, j)
    ensures r.None? ==> forall j :: from <= j ==> !InvMatchAt(f, j)
    decreases |f| - from
  {
    if from + 12 > |f| then None
    else if InvMatchAt(f, from) then Some(from)
    else FirstInvMatch(f, from + 1)
  }

  lemma ThreeDigitsBelow1000(s: string)
    requires |s| == 3 && AllDigits(s)
    ensures DigitsValue(s) < 1000
  {
    assert s[..2][..1][..0] == [];
    assert DigitsValue(s[..2][..1]) < 10;
    assert s[..2][..1] == s[..2][..|s[..2]| - 1];
    assert DigitsValue(s[..2]) < 100;
  }

  /** `match ? parseInt(match[1]) : 0`: the sequence number the code reads from a name. */
  function SequenceAsWritten(f: string): (n: nat)
    ensures n < 1000
    ensures FirstInvMatch(f, 0).None? ==> n == 0
  {
    match FirstInvMatch(f, 0)
    case None => 0
    case Some(i) =>
      ThreeDigitsBelow1000(f[i + 9..i + 12]);
      DigitsValue(f[i + 9..i + 12])
  }

  /** A name of the year is read from its first three digits after `INV-<year>-`, whatever follows. */
  lemma AsWrittenReadsThreeDigits(year: string, d: string, rest: string)
    requires |year| == 4 && AllDigits(year)
    requires |d| == 3 && AllDigits(d)
    ensures SequenceAsWritten(YearPrefix(year) + d + rest) == DigitsValue(d)
  {
    var f := YearPrefix(year) + d + rest;
    assert f[0..4] == "INV-" && f[4..8] == year && f[8] == '-' && f[9..12] == d;
    assert InvMatchAt(f, 0);
  }

  /** The longest run of digits at the start of `s`. */
  function DigitRun(s: string): (r: string)
    ensures AllDigits(r) && |r| <= |s| && r == s[..|r|]
    ensures |r| == |s| || !IsDigit(s[|r|])
  {
    if s != [] && IsDigit(s[0]) then [s[0]] + DigitRun(s[1..]) else []
  }

  lemma {:induction false} DigitRunOf(d: string, rest: string)
    requires AllDigits(d)
    requires rest == [] || !IsDigit(rest[0])
    ensures DigitRun(d + rest) == d
    decreases |d|
  {
    if d != [] {
      assert (d + rest)[1..] == d[1..] + rest;
      DigitRunOf(d[1..], rest);
    }
  }

  /** The sequence number read as the whole run of digits after `INV-<year>-`. */
  function SequenceCorrected(year: string, f: string): nat {
    if StartsWith(f, YearPrefix(year)) then DigitsValue(DigitRun(f[|YearPrefix(year)|..])) else 0
  }

  /** The corrected reading, as a function of the name. */
  function CorrectedReader(year: string): string -> nat {
    f => SequenceCorrected(year, f)
  }

  /**
   One more than the greatest positive number read from the names of the
   year, or 1 when there is none.
   */
  function NextSequence(year: string, files: seq<string>, read: string -> nat): (c: nat)
    ensures c >= 1
    ensures forall f :: f in files && InYear(f, year) ==> read(f) < c
    ensures c == 1 || exists f :: f in files && InYear(f, year) && read(f) == c - 1
  {
    if files == [] then 1
    else
      var t := NextSequence(year, files[1..], read);
      assert forall f :: f in files ==> f == files[0] || f in files[1..];
      if InYear(files[0], year) && read(files[0]) + 1 > t then read(files[0]) + 1 else t
  }

  /** Only the names of the year matter: the same such names give the same next number. */
  lemma NextSequenceDetermined(year: string, a: seq<string>, b: seq<string>, read: string -> nat)
    requires forall f :: f in a && InYear(f, year) ==> f in b
    requires forall f :: f in b && InYear(f, year) ==> f in a
    ensures NextSequence(year, a, read) == NextSequence(year, b, read)
  {
  }

  /** `INV-<year>-<n padded to three digits>` */
  function NumberFor(year: string, n: nat): (r: string)
    ensures StartsWith(r, YearPrefix(year))
    ensures |r| >= |YearPrefix(year)| + 3
    ensures AllDigits(r[|YearPrefix(year)|..]) && DigitsValue(r[|YearPrefix(year)|..]) == n
  {
    PaddedValue(n, 3);
    YearPrefix(year) + PadStart(NatToString(n), 3, '0')
  }

  /** `generateInvoiceNumber` as written: the pattern captures exactly three digits. */
  function InvoiceNumberAsWritten(period: string, files: seq<string>): (r: string)
    ensures var p := YearPrefix(YearOfPeriod(period));
      && StartsWith(r, p) && |r| >= |p| + 3 && AllDigits(r[|p|..])
      && DigitsValue(r[|p|..]) >= 1
      && forall f :: f in files && InYear(f, YearOfPeriod(period)) ==> SequenceAsWritten(f) < DigitsValue(r[|p|..])
  {
    var year := YearOfPeriod(period);
    NumberFor(year, NextSequence(year, files, SequenceAsWritten))
  }

  /**
   `generateInvoiceNumber` reading the whole number after `INV-<year>-`: the
   new number exceeds every number of the year, so the new invoice never
   lands on an existing file.
   */
  function InvoiceNumber(period: string, files: seq<string>): (r: string)
    ensures var p := YearPrefix(YearOfPeriod(period));
      && StartsWith(r, p) && |r| >= |p| + 3 && AllDigits(r[|p|..])
      && DigitsValue(r[|p|..]) >= 1
      && forall f :: f in files && InYear(f, YearOfPeriod(period)) ==> SequenceCorrected(YearOfPeriod(period), f) < DigitsValue(r[|p|..])
    ensures r + ".md" !in files
  {
    var year := YearOfPeriod(period);
    var c := NextSequence(year, files, CorrectedReader(year));
    NumberFileReadsBack(year, c);
    NumberFor(year, c)
  }

  /** The markdown file of a number is a name of the year and reads back as that number. */
  lemma NumberFileReadsBack(year: string, c: nat)
    ensures InYear(NumberFor(year, c) + ".md", year)
    ensures SequenceCorrected(year, NumberFor(year, c) + ".md") == c
  {
    var p := YearPrefix(year);
    var r := NumberFor(year, c);
    var g := r + ".md";
    var digits := r[|p|..];
    assert r == p + digits;
    assert g == p + digits + ".md";
    assert g[|p|..] == digits + ".md";
    DigitRunOf(digits, ".md");
  }

  /** A counter below 1000 is rendered with exactly three digits. */
  lemma ShortNumeral(n: nat)
    requires n < 1000
    ensures |NatToString(n)| <= 3
  {
    if n >= 10 {
      assert NatToString(n) == NatToString(n / 10) + [DigitChar(n % 10)];
      if n / 10 >= 10 {
        assert NatToString(n / 10) == NatToString(n / 100) + [DigitChar((n / 10) % 10)];
      }
    }
  }

  /**
   As written, the new number is free as long as no invoice of the year
   reads as 999: the counter then stays below 1000, its name has exactly
   three digits, and that name would read back as the counter itself.
   */
  lemma AsWrittenFreshBelow999(period: string, files: seq<string>)
    requires IsPeriodText(period)
    requires forall f :: f in files && InYear(f, YearOfPeriod(period)) ==> SequenceAsWritten(f) < 999
    ensures InvoiceNumberAsWritten(period, files) + ".md" !in files
  {
    var year := YearOfPeriod(period);
    PeriodYear(period);
    assert |year| == 4 && AllDigits(year);
    var c := NextSequence(year, files, SequenceAsWritten);
    assert c <= 999;
    ShortNumeral(c);
    var d := PadStart(NatToString(c), 3, '0');
    PaddedValue(c, 3);
    assert NumberFor(year, c) + ".md" == YearPrefix(year) + d + ".md";
    AsWrittenReadsThreeDigits(year, d, ".md");
    NumberFileReadsBack(year, c);
  }

  /** Names of other years (or not ending in `.md`) never change the number. */
  lemma OtherNamesIgnored(period: string, files: seq<string>, others: seq<string>)
    requires forall g :: g in others ==> !InYear(g, YearOfPeriod(period))
    ensures InvoiceNumber(period, files + others) == InvoiceNumber(period, files)
    ensures InvoiceNumberAsWritten(period, files + others) == InvoiceNumberAsWritten(period, files)
  {
    var year := YearOfPeriod(period);
    NextSequenceDetermined(year, files + others, files, CorrectedReader(year));
    NextSequenceDetermined(year, files + others, files, SequenceAsWritten);
  }

  lemma Number1000Text()
    ensures NatToString(1000) == "1000" && NatToString(1001) == "1001"
  {
    assert NatToString(1) == "1" && NatToString(10) == "10" && NatToString(100) == "100";
  }

  /** Two names of the year: the next number is one past the larger reading. */
  lemma NextSequenceOfTwo(year: string, f0: string, f1: string, read: string -> nat)
    requires InYear(f0, year) && InYear(f1, year)
    ensures NextSequence(year, [f0, f1], read) == (if read(f0) < read(f1) then read(f1) else read(f0)) + 1
  {
    assert [f0, f1][1..] == [f1] && [f1][1..] == [];
  }

  lemma Name999()
    ensures InYear("INV-2024-999.md", "2024")
    ensures SequenceAsWritten("INV-2024-999.md") == 999
    ensures SequenceCorrected("2024", "INV-2024-999.md") == 999
  {
    assert "INV-2024-999.md" == YearPrefix("2024") + "999" + ".md";
    Value999();
    NameInYear("2024", "999");
    AsWrittenReadsThreeDigits("2024", "999", ".md");
    CorrectedReadsRun("2024", "999", ".md");
  }

  /** `INV-<year>-<n>.md` is a name of the year. */
  lemma NameInYear(year: string, n: string)
    ensures InYear(YearPrefix(year) + n + ".md", year)
  {
    var f := YearPrefix(year) + n + ".md";
    assert f[..|YearPrefix(year)|] == YearPrefix(year);
    assert f[|f| - 3..] == ".md";
  }

  lemma Value999()
    ensures AllDigits("999") && DigitsValue("999") == 999
  {
    assert "999"[..2] == "99" && "99"[..1] == "9" && "9"[..0] == [];
  }

  /** A name of the year followed by a run of digits and a non-digit is read by that run. */
  lemma CorrectedReadsRun(year: string, d: string, rest: string)
    requires AllDigits(d) && (rest == [] || !IsDigit(rest[0]))
    ensures SequenceCorrected(year, YearPrefix(year) + d + rest) == DigitsValue(d)
  {
    var p := YearPrefix(year);
    var f := p + d + rest;
    assert f[..|p|] == p;
    assert f[|p|..] == d + rest;
    DigitRunOf(d, rest);
  }

  lemma Name1000AsWritten()
    ensures InYear("INV-2024-1000.md", "2024")
    ensures SequenceAsWritten("INV-2024-1000.md") == 100
  {
    assert "INV-2024-1000.md" == YearPrefix("2024") + "1000" + ".md";
    NameInYear("2024", "1000");
    assert "INV-2024-1000.md" == YearPrefix("2024") + "100" + "0.md";
    Value100();
    AsWrittenReadsThreeDigits("2024", "100", "0.md");
  }

  lemma Value100()
    ensures AllDigits("100") && DigitsValue("100") == 100
  {
    assert "100"[..2] == "10" && "10"[..1] == "1" && "1"[..0] == [];
  }

  lemma Name1000Corrected()
    ensures SequenceCorrected("2024", "INV-2024-1000.md") == 1000
  {
    assert "INV-2024-1000.md" == YearPrefix("2024") + "1000" + ".md";
    Number1000Text();
    NatToStringValue(1000);
    CorrectedReadsRun("2024", "1000", ".md");
  }

  /**
   As written, after `INV-2024-999` and `INV-2024-1000` the next number is
   `INV-2024-1000` again (the second name is read as 100), so the new
   invoice overwrites an existing one.
   */
  lemma NumberingCollision()
    ensures InvoiceNumberAsWritten("2024-05", ["INV-2024-999.md", "INV-2024-1000.md"]) == "INV-2024-1000"
  {
    PeriodYear("2024-05");
    assert YearOfPeriod("2024-05") == "2024";
    AsWrittenAfter999();
    NumbersAfter999();
    AsWrittenNumberIs("2024-05", ["INV-2024-999.md", "INV-2024-1000.md"], "2024", 1000);
  }

  /** The invoice drawn as written is written over the existing `INV-2024-1000.md`. */
  lemma NumberingCollisionOverwrites()
    ensures InvoiceNumberAsWritten("2024-05", ["INV-2024-999.md", "INV-2024-1000.md"]) + ".md" == "INV-2024-1000.md"
  {
    NumberingCollision();
    MarkdownName1000(InvoiceNumberAsWritten("2024-05", ["INV-2024-999.md", "INV-2024-1000.md"]));
  }

  lemma MarkdownName1000(n: string)
    requires n == "INV-2024-1000"
    ensures n + ".md" == "INV-2024-1000.md"
  {
  }

  lemma AsWrittenNumberIs(period: string, files: seq<string>, year: string, c: nat)
    requires YearOfPeriod(period) == year && NextSequence(year, files, SequenceAsWritten) == c
    ensures InvoiceNumberAsWritten(period, files) == NumberFor(year, c)
  {
  }

  lemma AsWrittenAfter999()
    ensures NextSequence("2024", ["INV-2024-999.md", "INV-2024-1000.md"], SequenceAsWritten) == 1000
  {
    Name999();
    Name1000AsWritten();
    NextSequenceOfTwo("2024", "INV-2024-999.md", "INV-2024-1000.md", SequenceAsWritten);
  }

  lemma NumbersAfter999()
    ensures NumberFor("2024", 1000) == "INV-2024-1000"
    ensures NumberFor("2024", 1001) == "INV-2024-1001"
  {
    Number1000Text();
  }

  /** The corrected numbering continues with `INV-2024-1001` on the same directory. */
  lemma NumberingAfter1000()
    ensures InvoiceNumber("2024-05", ["INV-2024-999.md", "INV-2024-1000.md"]) == "INV-2024-1001"
  {
    PeriodYear("2024-05");
    assert YearOfPeriod("2024-05") == "2024";
    Name999();
    Name1000AsWritten();
    Name1000Corrected();
    NextSequenceOfTwo("2024", "INV-2024-999.md", "INV-2024-1000.md", CorrectedReader("2024"));
    assert NextSequence("2024", ["INV-2024-999.md", "INV-2024-1000.md"], CorrectedReader("2024")) == 1001;
    NumbersAfter999();
  }

  // --------------------------------------------------------------- arithmetic

  datatype InvoiceData = InvoiceData(
    period: string,
    entries: seq<TimeEntry>,
    totalHours: real,
    hourlyRate: real,
    currency: string,
    subtotal: real,
    tax: real,
    total: real,
    taxRate: real)

  /** `timeEntries.reduce((sum, e) => sum + e.duration_minutes, 0)` */
  function TotalMinutes(entries: seq<TimeEntry>): int {
    if entries == [] then 0 else TotalMinutes(entries[..|entries| - 1]) + entries[|entries| - 1].durationMinutes
  }

  lemma {:induction false} TotalMinutesConcat(a: seq<TimeEntry>, b: seq<TimeEntry>)
    ensures TotalMinutes(a + b) == TotalMinutes(a) + TotalMinutes(b)
    decreases |b|
  {
    if b != [] {
      assert (a + b)[..|a + b| - 1] == a + b[..|b| - 1];
      TotalMinutesConcat(a, b[..|b| - 1]);
    } else {
      assert a + b == a;
    }
  }

  /** `calculateInvoiceData`: hours from minutes, subtotal, percentage tax and total. */
  function CalculateInvoiceData(period: string, entries: seq<TimeEntry>, hourlyRate: real, currency: string, taxRate: real): (d: InvoiceData)
    ensures d.period == period && d.entries == entries
    ensures d.hourlyRate == hourlyRate && d.currency == currency && d.taxRate == taxRate
    ensures d.totalHours * 60.0 == TotalMinutes(entries) as real
    ensures d.subtotal == d.totalHours * hourlyRate
    ensures d.tax == d.subtotal * (taxRate / 100.0) && d.total == d.subtotal + d.tax
    ensures taxRate == 0.0 ==> d.tax == 0.0 && d.total == d.subtotal
    ensures Priced(d)
  {
    var totalHours := TotalMinutes(entries) as real / 60.0;
    var subtotal := totalHours * hourlyRate;
    var tax := subtotal * (taxRate / 100.0);
    InvoiceData(period, entries, totalHours, hourlyRate, currency, subtotal, tax, subtotal + tax, taxRate)
  }

  /** The total is the hours at the rate with the tax added, and the tax is what the total adds. */
  lemma InvoiceTotals(period: string, entries: seq<TimeEntry>, hourlyRate: real, currency: string, taxRate: real)
    ensures var d := CalculateInvoiceData(period, entries, hourlyRate, currency, taxRate);
      && d.total == d.totalHours * hourlyRate * (1.0 + taxRate / 100.0)
      && d.total - d.tax == d.totalHours * hourlyRate
  {
    var d := CalculateInvoiceData(period, entries, hourlyRate, currency, taxRate);
    assert d.subtotal + d.tax == d.subtotal * (1.0 + taxRate / 100.0);
  }

  /** Billing two batches of entries together bills the sum of billing them apart. */
  lemma InvoiceAdditive(period: string, a: seq<TimeEntry>, b: seq<TimeEntry>, rate: real, currency: string, taxRate: real)
    ensures var all := CalculateInvoiceData(period, a + b, rate, currency, taxRate);
      var da := CalculateInvoiceData(period, a, rate, currency, taxRate);
      var db := CalculateInvoiceData(period, b, rate, currency, taxRate);
      && all.totalHours == da.totalHours + db.totalHours
      && all.subtotal == da.subtotal + db.subtotal
      && all.total == da.total + db.total
  {
    HoursAdditive(period, a, b, rate, currency, taxRate);
    AmountsAdd(CalculateInvoiceData(period, a + b, rate, currency, taxRate),
               CalculateInvoiceData(period, a, rate, currency, taxRate),
               CalculateInvoiceData(period, b, rate, currency, taxRate));
  }

  lemma HoursAdditive(period: string, a: seq<TimeEntry>, b: seq<TimeEntry>, rate: real, currency: string, taxRate: real)
    ensures CalculateInvoiceData(period, a + b, rate, currency, taxRate).totalHours
         == CalculateInvoiceData(period, a, rate, currency, taxRate).totalHours
          + CalculateInvoiceData(period, b, rate, currency, taxRate).totalHours
  {
    TotalMinutesConcat(a, b);
    HoursAdd(TotalMinutes(a), TotalMinutes(b));
  }

  /** Three invoices at the same rate and tax: when the hours add up, so do the amounts. */
  lemma AmountsAdd(all: InvoiceData, da: InvoiceData, db: InvoiceData)
    requires all.totalHours == da.totalHours + db.totalHours
    requires all.hourlyRate == da.hourlyRate == db.hourlyRate && all.taxRate == da.taxRate == db.taxRate
    requires Priced(all) && Priced(da) && Priced(db)
    ensures all.subtotal == da.subtotal + db.subtotal
    ensures all.total == da.total + db.total
  {
    Distributes(da.totalHours, db.totalHours, all.hourlyRate);
    Distributes(da.subtotal, db.subtotal, all.taxRate / 100.0);
  }

  /** The subtotal is the hours at the rate, and the total adds the percentage tax. */
  predicate Priced(d: InvoiceData) {
    && d.subtotal == d.totalHours * d.hourlyRate
    && d.tax == d.subtotal * (d.taxRate / 100.0) && d.total == d.subtotal + d.tax
  }

  lemma HoursAdd(x: int, y: int)
    ensures (x + y) as real / 60.0 == x as real / 60.0 + y as real / 60.0
  {
  }

  lemma Distributes(x: real, y: real, r: real)
    ensures (x + y) * r == x * r + y * r
  {
  }

  /** 120 + 30 minutes at 100 per hour with 10% tax. */
  lemma InvoiceExample()
    ensures var e1 := TimeEntry("", "", "a", 120);
      var e2 := TimeEntry("", "", "b", 30);
      var d := CalculateInvoiceData("2024-05", [e1, e2], 100.0, "USD", 10.0);
      d.totalHours == 2.5 && d.subtotal == 250.0 && d.tax == 25.0 && d.total == 275.0
  {
    var e1 := TimeEntry("", "", "a", 120);
    var e2 := TimeEntry("", "", "b", 30);
    assert [e1][..0] == [];
    assert TotalMinutes([e1]) == 120;
    assert [e1, e2][..1] == [e1];
    assert TotalMinutes([e1, e2]) == 150;
  }

  // --------------------------------------------------------------- generation

  /**
   The fields of `.noteflo/config.json` that invoice generation checks and
   uses. The three flags say whether the `business`, `client` and `billing`
   sections are present; a field of an absent section is never read.
   */
  datatype InvoiceConfig = InvoiceConfig(
    hasBusiness: bool,
    hasClient: bool,
    hasBilling: bool,
    businessName: string,
    businessEmail: string,
    businessAddress: Option<string>,  // None: absent
    clientName: string,
    hourlyRate: Option<real>,  // None: absent or not a number
    currency: string,
    taxRate: real)

  /** `!name || !email || !client.name || !hourlyRate` is false. */
  predicate HasRequiredFields(c: InvoiceConfig) {
    c.businessName != "" && c.businessEmail != "" && c.clientName != ""
    && c.hourlyRate.Some? && c.hourlyRate.value != 0.0
  }

  /**
   The test `!business.name || !business.email || !client.name ||
   !billing.hourlyRate` reads a field of an absent section, and throws: it
   stops at the first falsy operand, so a later section is only read when
   the fields before it are set.
   */
  predicate ReadsAbsentSection(c: InvoiceConfig) {
    || !c.hasBusiness
    || (c.businessName != "" && c.businessEmail != "" && !c.hasClient)
    || (c.businessName != "" && c.businessEmail != "" && c.clientName != "" && !c.hasBilling)
  }

  /** The required-fields test: `MissingSection` when it throws, `MissingFields` when it fails, `None` when it passes. */
  function CheckRequired(c: InvoiceConfig): (r: Option<Outcome>)
    ensures r == Some(MissingSection) <==> ReadsAbsentSection(c)
    ensures r.None? <==> c.hasBusiness && c.hasClient && c.hasBilling && HasRequiredFields(c)
    ensures r.Some? ==> r.value == MissingSection || r.value == MissingFields
  {
    if !c.hasBusiness then Some(MissingSection)
    else if c.businessName == "" || c.businessEmail == "" then Some(MissingFields)
    else if !c.hasClient then Some(MissingSection)
    else if c.clientName == "" then Some(MissingFields)
    else if !c.hasBilling then Some(MissingSection)
    else if !HasRequiredFields(c) then Some(MissingFields)
    else None
  }

  /** A configuration with which generation runs to the end. */
  predicate Usable(c: InvoiceConfig) {
    c.hasBusiness && c.hasClient && c.hasBilling && HasRequiredFields(c) && c.businessAddress.Some?
  }

  /** `loadTimeEntriesForPeriod`: the period's ledger file, or nothing when it is missing. */
  function EntriesForPeriod(ledger: Ledger, period: string): seq<TimeEntry> {
    Entries(ledger, PeriodFileName(period))
  }

  datatype Outcome =
    | Dismissed        // the period box was dismissed
    | InvalidPeriod    // the period box refuses the text
    | NoConfig         // the config file is missing or unreadable: an error is thrown
    | MissingSection   // a field of an absent section is read: a TypeError is thrown
    | MissingFields
    | NoEntries
    | NoAddress        // `business.address.replace` on an absent address throws before anything is written
    | Generated(number: string, data: InvoiceData)

  /**
   `generateInvoice`: checks the period, the configuration and the entries in
   that order; only when all pass is an invoice number drawn (with the
   three-digit reading of `generateInvoiceNumber`) and the data computed.
   The markdown rendering then reads the business address before it writes.
   `invoices` lists the invoices directory.
   */
  function GenerateInvoice(period: Option<string>, config: Option<InvoiceConfig>, ledger: Ledger, invoices: seq<string>): (r: Outcome)
    ensures r.Generated? <==>
      && period.Some? && IsPeriodText(period.value)
      && config.Some? && Usable(config.value)
      && EntriesForPeriod(ledger, period.value) != []
    ensures period.None? ==> r == Dismissed
    ensures r == MissingSection <==> period.Some? && IsPeriodText(period.value) && config.Some? && ReadsAbsentSection(config.value)
    ensures r == NoAddress <==>
      && period.Some? && IsPeriodText(period.value)
      && config.Some? && CheckRequired(config.value).None?
      && EntriesForPeriod(ledger, period.value) != [] && config.value.businessAddress.None?
    ensures r.Generated? ==>
      && r.data.period == period.value
      && r.data.entries == EntriesForPeriod(ledger, period.value)
      && r.data.hourlyRate == config.value.hourlyRate.value
      && r.data.taxRate == config.value.taxRate
    ensures r.Generated? ==>
      && StartsWith(r.number, "INV-" + period.value[..4] + "-")
      && r.number == InvoiceNumberAsWritten(period.value, invoices)
  {
    match period
    case None => Dismissed
    case Some(p) =>
      if !IsPeriodText(p) then InvalidPeriod
      else match config
        case None => NoConfig
        case Some(c) =>
          if CheckRequired(c).Some? then CheckRequired(c).value
          else if EntriesForPeriod(ledger, p) == [] then NoEntries
          else if c.businessAddress.None? then NoAddress
          else
            PeriodYear(p);
            var data := CalculateInvoiceData(p, EntriesForPeriod(ledger, p), c.hourlyRate.value, c.currency, c.taxRate);
            Generated(InvoiceNumberAsWritten(p, invoices), data)
  }

  /** Generation with the whole run of digits read: only the number differs. */
  function GenerateInvoiceCorrected(period: Option<string>, config: Option<InvoiceConfig>, ledger: Ledger, invoices: seq<string>): (r: Outcome)
    ensures var w := GenerateInvoice(period, config, ledger, invoices);
      && (r.Generated? <==> w.Generated?)
      && (!r.Generated? ==> r == w)
      && (r.Generated? ==> r.data == w.data && r.number == InvoiceNumber(period.value, invoices))
    ensures r.Generated? ==> StartsWith(r.number, "INV-" + period.value[..4] + "-") && r.number + ".md" !in invoices
  {
    match GenerateInvoice(period, config, ledger, invoices)
    case Generated(_, data) =>
      PeriodYear(period.value);
      Generated(InvoiceNumber(period.value, invoices), data)
    case other => other
  }

  /** The files an outcome writes to the invoices directory. */
  function Written(r: Outcome): (w: seq<string>)
    ensures w == [] <==> !r.Generated?
  {
    if r.Generated? then [r.number + ".md", r.number + ".pdf"] else []
  }

  /**
   As written, generation writes nothing, or a markdown invoice and its PDF;
   the markdown name is new as long as no invoice of the year reads as 999.
   */
  lemma GenerateWritesInvoiceOrNothing(period: Option<string>, config: Option<InvoiceConfig>, ledger: Ledger, invoices: seq<string>)
    ensures var r := GenerateInvoice(period, config, ledger, invoices);
      Written(r) == [] || (|Written(r)| == 2 && Written(r)[0] == r.number + ".md" && Written(r)[1] == r.number + ".pdf")
    ensures var r := GenerateInvoice(period, config, ledger, invoices);
      r.Generated? && (forall f :: f in invoices && InYear(f, YearOfPeriod(period.value)) ==> SequenceAsWritten(f) < 999)
      ==> Written(r)[0] !in invoices
  {
    var r := GenerateInvoice(period, config, ledger, invoices);
    if r.Generated? && (forall f :: f in invoices && InYear(f, YearOfPeriod(period.value)) ==> SequenceAsWritten(f) < 999) {
      AsWrittenFreshBelow999(period.value, invoices);
    }
  }

  /** With the corrected numbering, generation writes a new markdown invoice plus its PDF, or nothing. */
  lemma GenerateWritesNewInvoiceOrNothing(period: Option<string>, config: Option<InvoiceConfig>, ledger: Ledger, invoices: seq<string>)
    ensures var r := GenerateInvoiceCorrected(period, config, ledger, invoices);
      (Written(r) == [] || (|Written(r)| == 2 && Written(r)[0] !in invoices))
  {
  }

  /**
   With the corrected filing, an entry entered by hand for a date appears in
   the invoice for that date's `YYYY-MM`, in every time zone.
   */
  lemma EnteredTimeIsInvoiced(description: Option<string>, hours: Option<real>, date: Option<string>,
                              offsetMs: int, format: int -> string, ledger: Ledger,
                              config: InvoiceConfig, invoices: seq<string>)
    requires EnterTime(description, hours, date, offsetMs, format, ledger).Entered?
    requires Usable(config)
    ensures var e := EnterTime(description, hours, date, offsetMs, format, ledger);
      var r := GenerateInvoice(Some(date.value[..7]), Some(config), e.ledger, invoices);
      r.Generated? && e.entry in r.data.entries
  {
    var e := EnterTime(description, hours, date, offsetMs, format, ledger);
    assert e.entry in Entries(e.ledger, e.file);
  }

  /**
   As written, an entry entered by hand appears in the invoice for the local
   month of the date's UTC midnight.
   */
  lemma EnteredAsWrittenIsInvoiced(description: Option<string>, hours: Option<real>, date: Option<string>,
                                   offsetMs: int, format: int -> string, ledger: Ledger,
                                   config: InvoiceConfig, invoices: seq<string>)
    requires EnterTimeAsWritten(description, hours, date, offsetMs, format, ledger).Entered?
    requires Usable(config)
    requires var c := LocalCivil(ParseDateMs(date.value).value, offsetMs); 1000 <= c.year <= 9999
    ensures var c := LocalCivil(ParseDateMs(date.value).value, offsetMs);
      var e := EnterTimeAsWritten(description, hours, date, offsetMs, format, ledger);
      var r := GenerateInvoice(Some(MonthPeriod(c.year, c.month)), Some(config), e.ledger, invoices);
      r.Generated? && e.entry in r.data.entries
  {
    var c := LocalCivil(ParseDateMs(date.value).value, offsetMs);
    MonthPeriodReadsBack(c.year, c.month);
    var e := EnterTimeAsWritten(description, hours, date, offsetMs, format, ledger);
    assert e.entry in Entries(e.ledger, MonthlyFileName(c));
  }

  /**
   At UTC or east of it, the as-written month file is that of the calendar
   day the date text denotes.
   */
  lemma EnteredAsWrittenEastOfUtc(description: Option<string>, hours: Option<real>, date: Option<string>,
                                  offsetMs: int, format: int -> string, ledger: Ledger)
    requires EnterTimeAsWritten(description, hours, date, offsetMs, format, ledger).Entered?
    requires 0 <= offsetMs < MsPerDay
    ensures EnterTimeAsWritten(description, hours, date, offsetMs, format, ledger).file
         == MonthlyFileName(CivilFromDays(ParseDateDays(date.value).value))
  {
    UtcMidnightLocalDay(ParseDateDays(date.value).value, offsetMs);
  }

  /** UTC midnight of a day falls on that same day at UTC or east of it. */
  lemma UtcMidnightLocalDay(days: int, offsetMs: int)
    requires 0 <= offsetMs < MsPerDay
    ensures LocalCivil(days * MsPerDay, offsetMs) == CivilFromDays(days)
  {
    assert (days * MsPerDay + offsetMs) / MsPerDay == days;
  }

  /** A stopped session's entry appears in the invoice for the month it was stopped in. */
  lemma StoppedTimeIsInvoiced(t: Tracker, clock: Clock, startMs: int, config: InvoiceConfig, invoices: seq<string>)
    requires t.session.Some?
    requires Usable(config)
    requires var c := LocalCivil(clock.nowMs, clock.offsetMs); 1000 <= c.year <= 9999
    ensures var c := LocalCivil(clock.nowMs, clock.offsetMs);
      var s := Stop(t, clock, startMs);
      var r := GenerateInvoice(Some(MonthPeriod(c.year, c.month)), Some(config), s.tracker.ledger, invoices);
      r.Generated? && s.entry.value in r.data.entries
  {
    var c := LocalCivil(clock.nowMs, clock.offsetMs);
    MonthPeriodReadsBack(c.year, c.month);
    var s := Stop(t, clock, startMs);
    assert s.entry.value in Entries(s.tracker.ledger, MonthlyFileName(c));
  }

  // ---------------------------------------------------------------- rendering

  /** Markdown table cell: `d.substring(0, 50) + (d.length > 50 ? '...' : '')`. */
  function MarkdownDescription(d: string): (r: string)
    ensures |d| <= 50 ==> r == d
    ensures |d| > 50 ==> |r| == 53 && r[..50] == d[..50] && r[50..] == "..."
  {
    d[..if |d| < 50 then |d| else 50] + (if |d| > 50 then "..." else "")
  }

  /** PDF table cell: `d.length > 45 ? d.substring(0, 45) + '...' : d`. */
  function PdfDescription(d: string): (r: string)
    ensures |d| <= 45 ==> r == d
    ensures |d| > 45 ==> |r| == 48 && r[..45] == d[..45] && r[45..] == "..."
  {
    if |d| > 45 then d[..45] + "..." else d
  }

  /** The two renderings agree on short descriptions and keep the same leading text of long ones. */
  lemma DescriptionsAgree(d: string)
    ensures |d| > 45 ==> PdfDescription(d)[..45] == MarkdownDescription(d)[..45]
    ensures |d| <= 45 ==> PdfDescription(d) == MarkdownDescription(d)
  {
    if 45 < |d| <= 50 {
      assert MarkdownDescription(d)[..45] == d[..45];
    } else if |d| > 50 {
      assert MarkdownDescription(d)[..45] == d[..50][..45];
    }
  }

  datatype SummaryLine = Services | TaxLine | TotalDue

  /** The summary rows of both renderings: the tax row only for a positive tax rate. */
  function SummaryLines(taxRate: real): (r: seq<SummaryLine>)
    ensures TaxLine in r <==> taxRate > 0.0
    ensures |r| >= 2 && r[0] == Services && r[|r| - 1] == TotalDue
    ensures forall i :: 0 <= i < |r| - 1 ==> r[i] != TotalDue
  {
    [Services] + (if taxRate > 0.0 then [TaxLine] else []) + [TotalDue]
  }

  // ---------------------------------------------------------------- gitignore

  const IgnoredConfig: string := ".noteflo/config.json"
  const GitignoreBlock: string := "# NoteFlo - Ignore sensitive config\n.noteflo/config.json\n"

  lemma BlockNamesConfig()
    ensures OccursAt(GitignoreBlock, IgnoredConfig, 36)
  {
    assert GitignoreBlock[36..36 + |IgnoredConfig|] == IgnoredConfig;
  }

  /**
   `addToGitignore` on the current `.gitignore` content (`None`: no file):
   the result names the config file, and existing content is only appended to.
   */
  function AddToGitignore(content: Option<string>): (r: string)
    ensures Contains(r, IgnoredConfig)
    ensures content.Some? ==> StartsWith(r, content.value)
    ensures content.Some? && Contains(content.value, IgnoredConfig) ==> r == content.value
    ensures content.None? ==> r == GitignoreBlock
  {
    BlockNamesConfig();
    match content
    case None =>
      ContainsAt(GitignoreBlock, IgnoredConfig, 36);
      GitignoreBlock
    case Some(c) =>
      if Contains(c, IgnoredConfig) then c
      else
        OccursInSuffix(c + "\n", GitignoreBlock, IgnoredConfig, 36);
        assert c + "\n" + GitignoreBlock == (c + "\n") + GitignoreBlock;
        ContainsAt(c + "\n" + GitignoreBlock, IgnoredConfig, |c + "\n"| + 36);
        c + "\n" + GitignoreBlock
  }

  /** A second call leaves the file as the first call left it. */
  lemma GitignoreIdempotent(content: Option<string>)
    ensures AddToGitignore(Some(AddToGitignore(content))) == AddToGitignore(content)
  {
  }
}

=== FILE: legacytodo.dfy ===
/**
 The quick-todo command of the compiled extension (`out/noteCreator.js`):
 which file a todo goes to, the skeleton written when that file is new, and
 the insertion of `- [ ] <todo>` at the end of the section of its priority.
 The file is handled as the lines that `split('\n')` gives.
 */
module LegacyTodo {
  import opened Opt
  import opened Text

  datatype Priority = Urgent | High | Normal | Low

  /** The heading each priority's todos go under. */
  function SectionHeader(p: Priority): string {
    match p
    case Urgent => "## \U{1F6A8} Urgent"
    case High => "## \U{1F525} High Priority"
    case Normal => "## \U{1F4CB} Normal Priority"
    case Low => "## \U{1F550} Low Priority"
  }

  function TodoItem(todo: string): string {
    "- [ ] " + todo
  }

  /** A line that opens the next section. */
  predicate IsSectionStart(line: string) {
    StartsWith(line, "## ")
  }

  /** The first index at or after `from` holding `x`. */
  function FirstIndexFrom(xs: seq<string>, x: string, from: nat): (r: Option<nat>)
    ensures r.Some? ==> from <= r.value < |xs| && xs[r.value] == x
    ensures r.Some? ==> forall k :: from <= k < r.value ==> xs[k] != x
    ensures r.None? ==> forall k :: from <= k < |xs| ==> xs[k] != x
    decreases |xs| - from
  {
    if from >= |xs| then None
    else if xs[from] == x then Some(from)
    else FirstIndexFrom(xs, x, from + 1)
  }

  function Trimmed(lines: seq<string>): (r: seq<string>)
    ensures |r| == |lines| && forall k :: 0 <= k < |lines| ==> r[k] == Trim(lines[k])
  {
    seq(|lines|, k requires 0 <= k < |lines| => Trim(lines[k]))
  }

  /** `lines.findIndex(line => line.trim() === header)` */
  function FindHeader(lines: seq<string>, header: string): (r: Option<nat>)
    ensures r.Some? ==> r.value < |lines| && Trim(lines[r.value]) == header
    ensures r.Some? ==> forall k :: 0 <= k < r.value ==> Trim(lines[k]) != header
    ensures r.None? ==> forall k :: 0 <= k < |lines| ==> Trim(lines[k]) != header
  {
    FirstIndexFrom(Trimmed(lines), header, 0)
  }

  /**
   `j` is where the item goes for a heading at line `i`: the first line after
   it that opens a section, or the end of the file.
   */
  predicate InsertionPoint(lines: seq<string>, i: nat, j: nat) {
    && i < j <= |lines|
    && (forall k :: i < k < j ==> !IsSectionStart(lines[k]))
    && (j == |lines| || IsSectionStart(lines[j]))
  }

  /** The scan for the next section in `addTodoToFile`. */
  method NextSection(lines: seq<string>, i: nat) returns (j: nat)
    requires i < |lines|
    ensures InsertionPoint(lines, i, j)
  {
    j := i + 1;
    while j < |lines| && !IsSectionStart(lines[j])
      invariant i < j <= |lines|
      invariant forall k :: i < k < j ==> !IsSectionStart(lines[k])
      decreases |lines| - j
    {
      j := j + 1;
    }
  }

  /**
   `r` is `lines` with `item` put in at the insertion point for the heading
   at line `i`, joined back into text.
   */
  ghost predicate PutAfterHeading(lines: seq<string>, i: nat, item: string, r: string) {
    exists j: nat :: InsertionPoint(lines, i, j) && r == Join(lines[..j] + [item] + lines[j..], '\n')
  }

  /** The text `r` splits into `lines` with exactly one line, `item`, added after line `i`. */
  ghost predicate OneLineAdded(lines: seq<string>, i: nat, item: string, r: string) {
    exists j: nat :: InsertionPoint(lines, i, j) && Split(r, '\n') == lines[..j] + [item] + lines[j..]
  }

  /**
   `addTodoToFile`: the item goes before the next section after the first
   line that trims to the priority's heading, or at the end; without such a
   line the file is left as it was. A todo of one line adds exactly one line
   and moves none of the others.
   */
  method AddTodoToFile(content: string, todo: string, p: Priority) returns (r: string)
    ensures FindHeader(Split(content, '\n'), SectionHeader(p)).None? ==> r == content
    ensures FindHeader(Split(content, '\n'), SectionHeader(p)).Some? ==>
      PutAfterHeading(Split(content, '\n'), FindHeader(Split(content, '\n'), SectionHeader(p)).value, TodoItem(todo), r)
    ensures FindHeader(Split(content, '\n'), SectionHeader(p)).Some? && '\n' !in todo ==>
      OneLineAdded(Split(content, '\n'), FindHeader(Split(content, '\n'), SectionHeader(p)).value, TodoItem(todo), r)
  {
    var lines := Split(content, '\n');
    var found := FindHeader(lines, SectionHeader(p));
    if found.None? {
      r := content;
    } else {
      var i := found.value;
      var j := NextSection(lines, i);
      var added := lines[..j] + [TodoItem(todo)] + lines[j..];
      r := Join(added, '\n');
      assert PutAfterHeading(lines, i, TodoItem(todo), r);
      if '\n' !in todo {
        InsertedLineSplits(lines, j, todo);
        assert OneLineAdded(lines, i, TodoItem(todo), r);
      }
    }
  }

  lemma TodoItemOneLine(todo: string)
    requires '\n' !in todo
    ensures '\n' !in TodoItem(todo)
  {
    assert TodoItem(todo) == "- [ ] " + todo;
    assert forall c :: c in "- [ ] " + todo ==> c in "- [ ] " || c in todo;
  }

  /** The lines of a split, with one more line of text put in, split back to themselves. */
  lemma InsertedLineSplits(lines: seq<string>, j: nat, todo: string)
    requires j <= |lines|
    requires forall k :: 0 <= k < |lines| ==> '\n' !in lines[k]
    requires '\n' !in todo
    ensures Split(Join(lines[..j] + [TodoItem(todo)] + lines[j..], '\n'), '\n') == lines[..j] + [TodoItem(todo)] + lines[j..]
  {
    var added := lines[..j] + [TodoItem(todo)] + lines[j..];
    TodoItemOneLine(todo);
    forall k | 0 <= k < |added| ensures '\n' !in added[k] {
      if k < j {
        assert added[k] == lines[k];
      } else if k > j {
        assert added[k] == lines[k - 1];
      }
    }
    SplitJoin(added, '\n');
  }

  /** The todo file: the project's own only when "Project-specific" was picked and a current project is set. */
  function TodoFileName(choice: Option<string>, currentProject: string): (r: string)
    ensures EndsWith(r, "-todos.md")
    ensures choice != Some("Project-specific") || currentProject == "" ==> r == "general-todos.md"
    ensures choice == Some("Project-specific") && currentProject != "" ==> r[..|r| - 9] == currentProject
  {
    var r := if choice == Some("Project-specific") && currentProject != "" then currentProject + "-todos.md" else "general-todos.md";
    assert r[|r| - 9..] == "-todos.md";
    r
  }

  /** `toUpperCase` on one character, for ASCII letters. */
  function UpperChar(c: char): char {
    if 'a' <= c <= 'z' then (c as int - 32) as char else c
  }

  function Upper(s: string): (r: string)
    ensures |r| == |s| && forall i :: 0 <= i < |s| ==> r[i] == UpperChar(s[i])
  {
    seq(|s|, i requires 0 <= i < |s| => UpperChar(s[i]))
  }

  /** The file's title: its base name with the first `-` made a space, upper-cased. */
  function TodoTitle(baseName: string): string {
    Upper(ReplaceFirst(baseName, "-", " "))
  }

  lemma UpperConcat(a: string, b: string)
    ensures Upper(a + b) == Upper(a) + Upper(b)
  {
    var l, r := Upper(a + b), Upper(a) + Upper(b);
    forall i | 0 <= i < |l| ensures l[i] == r[i] {
      if i < |a| {
        assert (a + b)[i] == a[i];
      } else {
        assert (a + b)[i] == b[i - |a|];
      }
    }
  }

  /** For a project name without a dash, the title is the upper-cased name followed by " TODOS". */
  lemma ProjectTitle(project: string)
    requires forall i :: 0 <= i < |project| ==> project[i] != '-'
    ensures TodoTitle(project + "-todos") == Upper(project) + " TODOS"
  {
    FirstDash(project);
    var f := project + "-todos";
    assert f[..|project|] == project && f[|project| + 1..] == "todos";
    assert ReplaceFirst(f, "-", " ") == project + " todos";
    UpperConcat(project, " todos");
    UpperTodos();
  }

  lemma UpperTodos()
    ensures Upper(" todos") == " TODOS"
  {
  }

  /** The first dash of `<project>-todos` is the one after the project name. */
  lemma FirstDash(project: string)
    requires forall i :: 0 <= i < |project| ==> project[i] != '-'
    ensures IndexOf(project + "-todos", "-") == Some(|project|)
  {
    var f := project + "-todos";
    assert OccursAt(f, "-", |project|) by {
      assert f[|project|..|project| + 1] == "-";
    }
    forall j | 0 <= j < |project| ensures !OccursAt(f, "-", j) {
      assert f[j..j + 1] == [project[j]];
    }
  }

  /** The lines of a new todo file with the given title and last-updated date. */
  function SkeletonLines(title: string, date: string): seq<string> {
    ["# " + title, ""] + SkeletonBody + ["*Last updated: " + date + "*", ""]
  }

  /** The fixed middle of the skeleton: a heading and an empty item per section. */
  const SkeletonBody: seq<string> := [
    "## \U{1F6A8} Urgent", "- ", "",
    "## \U{1F525} High Priority  ", "- ", "",
    "## \U{1F4CB} Normal Priority", "- ", "",
    "## \U{1F550} Low Priority", "- ", "",
    "## \U{2705} Completed", "- ", "",
    "---"]

  /** The line of the skeleton that holds a priority's heading. */
  function SkeletonLine(p: Priority): nat {
    match p
    case Urgent => 2
    case High => 5
    case Normal => 8
    case Low => 11
  }

  /**
   `ensureTodoFile`: nothing is written when the file exists (`None`);
   otherwise the skeleton, in which every priority's heading is found.
   */
  function EnsureTodoFile(existing: Option<string>, baseName: string, date: string): (r: Option<string>)
    ensures r.None? <==> existing.Some?
    ensures r.Some? ==> StartsWith(r.value, "# " + TodoTitle(baseName) + "\n")
    ensures r.Some? && '\n' !in baseName && '\n' !in date ==>
      forall p :: FindHeader(Split(r.value, '\n'), SectionHeader(p)).Some?
  {
    if existing.Some? then None
    else
      var lines := SkeletonLines(TodoTitle(baseName), date);
      var content := Join(lines, '\n');
      assert content == lines[0] + "\n" + Join(lines[1..], '\n');
      assert '\n' !in baseName && '\n' !in date ==> forall p :: FindHeader(Split(content, '\n'), SectionHeader(p)).Some? by {
        if '\n' !in baseName && '\n' !in date {
          SkeletonSplits(baseName, date);
          forall p ensures FindHeader(lines, SectionHeader(p)).Some? {
            HeadingInSkeleton(TodoTitle(baseName), date, p);
          }
        }
      }
      Some(content)
  }

  lemma HeadingInSkeleton(title: string, date: string, p: Priority)
    ensures FindHeader(SkeletonLines(title, date), SectionHeader(p)).Some?
  {
    var lines := SkeletonLines(title, date);
    var line := lines[SkeletonLine(p)];
    assert line == SkeletonBody[SkeletonLine(p) - 2];
    var h := SectionHeader(p);
    if p == High {
      assert line == h + "  ";
      TrimTwoSpaces(h);
    } else {
      assert line == h;
      TrimUnchanged(h);
    }
    FoundWhenPresent(lines, h, SkeletonLine(p));
  }

  lemma FoundWhenPresent(lines: seq<string>, header: string, k: nat)
    requires k < |lines| && Trim(lines[k]) == header
    ensures FindHeader(lines, header).Some?
  {
  }

  /** Two trailing spaces are trimmed away. */
  lemma TrimTwoSpaces(s: string)
    requires |s| > 0 && !IsJsSpace(s[0]) && !IsJsSpace(s[|s| - 1])
    ensures Trim(s + "  ") == s
  {
    var t := s + "  ";
    assert TrimStart(t) == t;
    assert t[..|t| - 1] == s + " ";
    assert (s + " ")[..|s|] == s;
    assert TrimEnd(s + " ") == TrimEnd(s);
    TrimUnchanged(s);
  }

  /** A line that neither starts nor ends with white space is its own trim. */
  lemma TrimUnchanged(s: string)
    requires |s| > 0 && !IsJsSpace(s[0]) && !IsJsSpace(s[|s| - 1])
    ensures Trim(s) == s && TrimEnd(s) == s
  {
  }

  lemma SkeletonSplits(baseName: string, date: string)
    requires '\n' !in baseName && '\n' !in date
    ensures Split(Join(SkeletonLines(TodoTitle(baseName), date), '\n'), '\n') == SkeletonLines(TodoTitle(baseName), date)
  {
    TitleOneLine(baseName);
    SkeletonLinesOneLine(TodoTitle(baseName), date);
    SplitJoin(SkeletonLines(TodoTitle(baseName), date), '\n');
  }

  lemma TitleOneLine(baseName: string)
    requires '\n' !in baseName
    ensures '\n' !in TodoTitle(baseName)
  {
    assert '\n' !in ReplaceFirst(baseName, "-", " ");
  }

  lemma SkeletonLinesOneLine(title: string, date: string)
    requires '\n' !in title && '\n' !in date
    ensures forall k :: 0 <= k < |SkeletonLines(title, date)| ==> '\n' !in SkeletonLines(title, date)[k]
  {
    BodyOneLine();
    var lines := SkeletonLines(title, date);
    forall k | 0 <= k < |lines| ensures '\n' !in lines[k] {
      if 2 <= k < 2 + |SkeletonBody| {
        assert lines[k] == SkeletonBody[k - 2];
      }
    }
  }

  lemma BodyOneLine()
    ensures forall k :: 0 <= k < |SkeletonBody| ==> '\n' !in SkeletonBody[k]
  {
  }

  /**
   `createQuickTodo`: nothing happens without a description or a priority;
   otherwise the chosen file is created if needed and the todo added. In a
   new file the todo is always placed, as one more line.
   */
  method CreateQuickTodo(description: string, priority: Option<Priority>, choice: Option<string>,
                         currentProject: string, existing: Option<string>, date: string)
    returns (r: Option<(string, string)>)
    ensures r.None? <==> description == "" || priority.None?
    ensures r.Some? ==> r.value.0 == TodoFileName(choice, currentProject)
    ensures r.Some? && existing.Some? && FindHeader(Split(existing.value, '\n'), SectionHeader(priority.value)).None? ==>
      r.value.1 == existing.value
    ensures r.Some? && existing.None? && '\n' !in description && '\n' !in currentProject && '\n' !in date ==>
      |Split(r.value.1, '\n')| == |SkeletonLines(TodoTitle(TodoFileName(choice, currentProject)[..|TodoFileName(choice, currentProject)| - 3]), date)| + 1
  {
    if description == "" || priority.None? {
      return None;
    }
    var file := TodoFileName(choice, currentProject);
    var baseName := file[..|file| - 3];
    var content := match EnsureTodoFile(existing, baseName, date)
      case Some(c) => c
      case None => existing.value;
    var updated := AddTodoToFile(content, description, priority.value);
    if existing.None? && '\n' !in description && '\n' !in currentProject && '\n' !in date {
      BaseNameOneLine(choice, currentProject);
      SkeletonSplits(baseName, date);
      assert FindHeader(Split(content, '\n'), SectionHeader(priority.value)).Some?;
    }
    r := Some((file, updated));
  }

  lemma BaseNameOneLine(choice: Option<string>, currentProject: string)
    requires '\n' !in currentProject
    ensures var f := TodoFileName(choice, currentProject); '\n' !in f[..|f| - 3]
  {
    var f := TodoFileName(choice, currentProject);
    if choice == Some("Project-specific") && currentProject != "" {
      assert f == currentProject + "-todos.md";
      assert f[..|f| - 3] == currentProject + "-todos";
    } else {
      assert f[..|f| - 3] == "general-todos";
    }
  }
}

=== FILE: notenames.dfy ===
/**
 Note file names: the writers that build `<slug>-<YYYY-MM-DD>.md` and
 `<YYYY-MM-DD>.md`, the three regular-expression parsers that read a title
 and a date back out of a name, the "never overwrite today's journal" rule,
 and the notes-index listing.

 Each parser is given the regular expression's own meaning as an existential
 ("the name splits as prefix, dash, date, `.md`") and computes the split at
 fixed offsets; the contracts connect the two.
 */
module NoteNames {
  import opened Opt
  import opened Text
  import opened Dates
  import Slug
  import StrOrder

  /** What a parser recovers from a file name. */
  datatype Parsed = Parsed(title: string, date: string)

  /** The `.+` group of a pattern: at least one character, none a line terminator. */
  predicate IsDotPlus(p: string) {
    |p| >= 1 && NoLineTerminator(p)
  }

  /** `/^(.+)-(\d{4}-\d{2}-\d{2})\.md$/` matches `f` with groups `p` and `d`. */
  predicate SuffixMatch(f: string, p: string, d: string) {
    IsDotPlus(p) && IsDateText(d) && f == p + "-" + d + ".md"
  }

  /** `/^(\d{4}-\d{2}-\d{2})-(.+)\.md$/` matches `f` with groups `d` and `p`. */
  predicate PrefixMatch(f: string, d: string, p: string) {
    IsDateText(d) && IsDotPlus(p) && f == d + "-" + p + ".md"
  }

  /** `/^(\d{4}-\d{2}-\d{2})\.md$/` matches `f` with group `d`. */
  predicate DailyMatch(f: string, d: string) {
    IsDateText(d) && f == d + ".md"
  }

  /** `.replace(/-/g, ' ')`: how a parser turns the slug group into a title. */
  function TitleOf(p: string): (r: string)
    ensures |r| == |p| && '-' !in r
  {
    ReplaceAll(p, '-', ' ')
  }

  // ---------------------------------------------------------------- writers

  /** `${slug}-${timestamp}.md`: meeting notes and general notes. */
  function NoteFileName(slug: string, date: string): string {
    slug + "-" + date + ".md"
  }

  /** `${timestamp}.md`: daily journals. */
  function DailyFileName(date: string): string {
    date + ".md"
  }

  // ---------------------------------------------------------------- parsers

  /** The date-suffix form, read at fixed offsets from the end. */
  function MatchSuffix(f: string): (r: Option<Parsed>)
    ensures r.Some? <==> exists p, d :: SuffixMatch(f, p, d)
    ensures forall p, d :: SuffixMatch(f, p, d) ==> r == Some(Parsed(TitleOf(p), d))
  {
    if |f| >= 15 && f[|f| - 14] == '-' && IsDateText(f[|f| - 13..|f| - 3])
       && f[|f| - 3..] == ".md" && NoLineTerminator(f[..|f| - 14])
    then
      var p, d := f[..|f| - 14], f[|f| - 13..|f| - 3];
      assert f == p + "-" + d + ".md";
      assert SuffixMatch(f, p, d);
      forall p', d' | SuffixMatch(f, p', d') ensures p' == p && d' == d {
        SuffixMatchAt(f, p', d');
      }
      Some(Parsed(TitleOf(p), d))
    else
      assert forall p, d :: !SuffixMatch(f, p, d) by {
        forall p, d | SuffixMatch(f, p, d) ensures false {
          SuffixMatchAt(f, p, d);
        }
      }
      None
  }

  /** A suffix-form match has its groups at fixed offsets. */
  lemma SuffixMatchAt(f: string, p: string, d: string)
    requires SuffixMatch(f, p, d)
    ensures |f| >= 15 && p == f[..|f| - 14] && d == f[|f| - 13..|f| - 3]
    ensures f[|f| - 14] == '-' && f[|f| - 3..] == ".md"
  {
    assert |f| == |p| + 14;
    assert f[..|p|] == p;
    assert f[|p| + 1..|p| + 11] == d;
  }

  /** The date-prefix form, read at fixed offsets from the start. */
  function MatchPrefix(f: string): (r: Option<Parsed>)
    ensures r.Some? <==> exists d, p :: PrefixMatch(f, d, p)
    ensures forall d, p :: PrefixMatch(f, d, p) ==> r == Some(Parsed(TitleOf(p), d))
  {
    if |f| >= 15 && IsDateText(f[..10]) && f[10] == '-'
       && f[|f| - 3..] == ".md" && NoLineTerminator(f[11..|f| - 3])
    then
      var d, p := f[..10], f[11..|f| - 3];
      assert f == d + "-" + p + ".md";
      assert PrefixMatch(f, d, p);
      forall d', p' | PrefixMatch(f, d', p') ensures p' == p && d' == d {
        PrefixMatchAt(f, d', p');
      }
      Some(Parsed(TitleOf(p), d))
    else
      assert forall d, p :: !PrefixMatch(f, d, p) by {
        forall d, p | PrefixMatch(f, d, p) ensures false {
          PrefixMatchAt(f, d, p);
        }
      }
      None
  }

  lemma PrefixMatchAt(f: string, d: string, p: string)
    requires PrefixMatch(f, d, p)
    ensures |f| >= 15 && d == f[..10] && p == f[11..|f| - 3]
    ensures f[10] == '-' && f[|f| - 3..] == ".md"
  {
    assert |f| == |p| + 14;
    assert f[..10] == d;
    assert f[11..|f| - 3] == p;
  }

  /** `parseMeetingFilename`: the date-suffix form first, then the date-prefix form. */
  function ParseMeeting(f: string): (r: Option<Parsed>)
    ensures forall p, d :: SuffixMatch(f, p, d) ==> r == Some(Parsed(TitleOf(p), d))
    ensures (forall p, d :: !SuffixMatch(f, p, d)) ==>
      forall d, p :: PrefixMatch(f, d, p) ==> r == Some(Parsed(TitleOf(p), d))
    ensures r.Some? <==> (exists p, d :: SuffixMatch(f, p, d)) || (exists d, p :: PrefixMatch(f, d, p))
  {
    var m := MatchSuffix(f);
    if m.Some? then m else MatchPrefix(f)
  }

  /** `parseNoteFilename`: the date-suffix form only. */
  function ParseNote(f: string): (r: Option<Parsed>)
    ensures r.Some? <==> exists p, d :: SuffixMatch(f, p, d)
    ensures forall p, d :: SuffixMatch(f, p, d) ==> r == Some(Parsed(TitleOf(p), d))
  {
    MatchSuffix(f)
  }

  /** `parseDailyFilename` of the dashboard: title "Daily Journal". */
  function ParseDaily(f: string): (r: Option<Parsed>)
    ensures r.Some? <==> exists d :: DailyMatch(f, d)
    ensures forall d :: DailyMatch(f, d) ==> r == Some(Parsed("Daily Journal", d))
  {
    if |f| == 13 && IsDateText(f[..10]) && f[10..] == ".md" then
      assert DailyMatch(f, f[..10]);
      Some(Parsed("Daily Journal", f[..10]))
    else
      None
  }

  /** `parseDailyFilename` of the older build: the same pattern, titled "Daily Note". */
  function LegacyParseDaily(f: string): (r: Option<Parsed>)
    ensures r.Some? <==> exists d :: DailyMatch(f, d)
    ensures forall d :: DailyMatch(f, d) ==> r == Some(Parsed("Daily Note", d))
  {
    match ParseDaily(f)
    case None => None
    case Some(p) => Some(p.(title := "Daily Note"))
  }

  // ---------------------------------------------------------------- round trips

  /** A written note name parses back to its date and its slug with dashes turned into spaces. */
  lemma NoteRoundTrip(slug: string, date: string)
    requires IsDotPlus(slug) && IsDateText(date)
    ensures ParseNote(NoteFileName(slug, date)) == Some(Parsed(TitleOf(slug), date))
    ensures ParseMeeting(NoteFileName(slug, date)) == Some(Parsed(TitleOf(slug), date))
  {
    assert SuffixMatch(NoteFileName(slug, date), slug, date);
  }

  /** A non-empty slug is a valid `.+` group. */
  lemma SlugIsDotPlus(s: string)
    requires Slug.IsSlug(s) && s != []
    ensures IsDotPlus(s)
  {
    forall i | 0 <= i < |s| ensures !IsLineTerminator(s[i]) {
      assert Slug.IsSlugChar(s[i]);
    }
  }

  /** The meeting-note and new-note path: a title that sanitizes to a non-empty slug round-trips. */
  lemma SanitizedNoteRoundTrip(text: string, date: string)
    requires Slug.Sanitize(text) != [] && IsDateText(date)
    ensures ParseNote(NoteFileName(Slug.Sanitize(text), date))
         == Some(Parsed(TitleOf(Slug.Sanitize(text)), date))
  {
    SlugIsDotPlus(Slug.Sanitize(text));
    NoteRoundTrip(Slug.Sanitize(text), date);
  }

  /** The slug is recoverable from the parsed title, because a slug holds no spaces. */
  lemma SlugFromTitle(s: string)
    requires Slug.IsSlug(s)
    ensures ReplaceAll(TitleOf(s), ' ', '-') == s
  {
    var t := ReplaceAll(TitleOf(s), ' ', '-');
    forall i | 0 <= i < |s| ensures t[i] == s[i] {
      assert Slug.IsSlugChar(s[i]);
    }
  }

  /** A title that sanitizes to nothing gives `-<date>.md`, which no parser recognises. */
  lemma EmptySlugNoteInvisible(date: string)
    requires IsDateText(date)
    ensures ParseNote(NoteFileName("", date)).None?
    ensures ParseMeeting(NoteFileName("", date)).None?
    ensures ParseDaily(NoteFileName("", date)).None?
  {
    var f := NoteFileName("", date);
    assert |f| == 14 && f[0] == '-';
  }

  /** A written daily name parses back to its date under both builds' parsers. */
  lemma DailyRoundTrip(date: string)
    requires IsDateText(date)
    ensures ParseDaily(DailyFileName(date)) == Some(Parsed("Daily Journal", date))
    ensures LegacyParseDaily(DailyFileName(date)) == Some(Parsed("Daily Note", date))
  {
    assert DailyMatch(DailyFileName(date), date);
  }

  /** Every name the daily parser accepts is the written name of the date it returns. */
  lemma DailyParseInverse(f: string)
    requires ParseDaily(f).Some?
    ensures IsDateText(ParseDaily(f).value.date)
    ensures DailyFileName(ParseDaily(f).value.date) == f
  {
    var d :| DailyMatch(f, d);
  }

  /** Daily names and note names never collide: neither parser accepts the other's names. */
  lemma DailyAndNoteNamesDisjoint(slug: string, date: string)
    requires IsDateText(date)
    ensures ParseNote(DailyFileName(date)).None?
    ensures ParseDaily(NoteFileName(slug, date)).None?
  {
    assert |DailyFileName(date)| == 13;
    assert NoteFileName(slug, date)[|slug|] == '-';
  }

  /** A date is a valid `.+` group. */
  lemma DateIsDotPlus(d: string)
    requires IsDateText(d)
    ensures IsDotPlus(d)
  {
    forall i | 0 <= i < |d| ensures !IsLineTerminator(d[i]) {
      assert IsDigit(d[i]) || d[i] == '-';
    }
  }

  /**
   A name with a date at both ends is read by its trailing date, the leading
   date becoming the title: `2024-01-01-2024-02-02.md` is a note titled
   "2024 01 01" dated 2024-02-02.
   */
  lemma MeetingSuffixWins(first: string, second: string)
    requires IsDateText(first) && IsDateText(second)
    ensures ParseMeeting(first + "-" + second + ".md") == Some(Parsed(TitleOf(first), second))
  {
    DateIsDotPlus(first);
    assert SuffixMatch(first + "-" + second + ".md", first, second);
  }

  /** The general-note parser rejects a date-prefixed name. */
  lemma PrefixFormNotNote()
    ensures ParseNote("2024-03-05-standup.md").None?
  {
    var f := "2024-03-05-standup.md";
    assert f[12] == 't';
    forall p, d | SuffixMatch(f, p, d) ensures false {
      SuffixMatchAt(f, p, d);
    }
  }

  /** A name the suffix form does not match is read by its leading date. */
  lemma PrefixFormRead(d: string, p: string)
    requires IsDateText(d) && IsDotPlus(p) && ParseNote(d + "-" + p + ".md").None?
    ensures ParseMeeting(d + "-" + p + ".md") == Some(Parsed(TitleOf(p), d))
  {
    assert PrefixMatch(d + "-" + p + ".md", d, p);
  }

  /** A title without dashes is its own slug group. */
  lemma TitleOfNoDash(p: string)
    requires '-' !in p
    ensures TitleOf(p) == p
  {
  }

  /** The meeting parser reads the same name by its leading date. */
  lemma PrefixFormMeeting()
    ensures ParseMeeting("2024-03-05-standup.md") == Some(Parsed("standup", "2024-03-05"))
  {
    var d, p := "2024-03-05", "standup";
    assert "2024-03-05-standup.md" == d + "-" + p + ".md";
    assert IsDotPlus(p) && '-' !in p;
    PrefixFormNotNote();
    PrefixFormRead(d, p);
    TitleOfNoDash(p);
  }

  // ---------------------------------------------------------------- creating notes

  /** A notes directory: file name to content. */
  type Dir = map<string, string>

  datatype DailyOutcome = OpenedExisting | Created

  /**
   `createDailyJournal`: when today's file exists it is only opened; otherwise
   the new journal is written. The journal text is a parameter.
   */
  function CreateDailyJournal(dir: Dir, today: string, content: string): (r: (Dir, DailyOutcome))
    ensures DailyFileName(today) in r.0
    ensures r.0.Keys == dir.Keys + {DailyFileName(today)}
    ensures forall f :: f in dir ==> r.0[f] == dir[f]
    ensures r.1 == OpenedExisting <==> DailyFileName(today) in dir
  {
    var name := DailyFileName(today);
    if name in dir then (dir, OpenedExisting) else (dir[name := content], Created)
  }

  /** A second journal on the same day changes nothing. */
  lemma DailyJournalIdempotent(dir: Dir, today: string, c1: string, c2: string)
    ensures CreateDailyJournal(CreateDailyJournal(dir, today, c1).0, today, c2).0
         == CreateDailyJournal(dir, today, c1).0
  {
  }

  /**
   `createMeetingNote` / `createNewNote`: the file is written whether or not
   it exists; every other file is untouched.
   */
  function CreateNote(dir: Dir, slug: string, date: string, content: string): (r: Dir)
    ensures NoteFileName(slug, date) in r && r[NoteFileName(slug, date)] == content
    ensures r.Keys == dir.Keys + {NoteFileName(slug, date)}
    ensures forall f :: f in dir && f != NoteFileName(slug, date) ==> r[f] == dir[f]
  {
    dir[NoteFileName(slug, date) := content]
  }

  /** Two notes with the same slug on the same day: the second replaces the first. */
  lemma SameDayNoteOverwrites(dir: Dir, slug: string, date: string, c1: string, c2: string)
    ensures CreateNote(CreateNote(dir, slug, date, c1), slug, date, c2)[NoteFileName(slug, date)] == c2
  {
  }

  // ---------------------------------------------------------------- notes index

  /** The files a category lists: `.md` files, and for general notes not `index.md`. */
  predicate Listed(f: string, general: bool) {
    EndsWith(f, ".md") && !(general && f == "index.md")
  }

  function FilterListed(files: seq<string>, general: bool): (r: seq<string>)
    ensures forall i :: 0 <= i < |r| ==> Listed(r[i], general)
    ensures forall f :: f in r <==> f in files && Listed(f, general)
    ensures multiset(r) <= multiset(files)
  {
    if files == [] then []
    else
      var rest := FilterListed(files[1..], general);
      assert files == [files[0]] + files[1..];
      if Listed(files[0], general) then [files[0]] + rest else rest
  }

  function Take<T>(s: seq<T>, n: nat): (r: seq<T>)
    ensures |r| == if |s| < n then |s| else n
    ensures r == s[..|r|]
  {
    if |s| <= n then s else s[..n]
  }

  /**
   `files.filter(...).sort().reverse().slice(0, 10)` for one category: at
   most ten listed files of the directory, greatest first, and every listed
   file left out sorts no later than every file shown.
   */
  function IndexListing(files: seq<string>, general: bool): (r: seq<string>)
    ensures |r| == if |FilterListed(files, general)| < 10 then |FilterListed(files, general)| else 10
    ensures forall f :: f in r ==> f in files && Listed(f, general)
    ensures StrOrder.SortedDescending(r)
    ensures forall f, g ::
              (f in files && Listed(f, general) && f !in r && g in r) ==> StrOrder.LessEq(f, g)
  {
    var all := FilterListed(files, general);
    var sorted := StrOrder.SortDescending(all);
    assert |sorted| == |all| by {
      assert |multiset(sorted)| == |multiset(all)|;
    }
    var r := Take(sorted, 10);
    forall f | f in r ensures f in files && Listed(f, general) {
      assert f in multiset(sorted);
    }
    forall f, g | f in files && Listed(f, general) && f !in r && g in r
      ensures StrOrder.LessEq(f, g)
    {
      assert f in multiset(all);
      PrefixGreatest(sorted, |r|, f, g);
    }
    r
  }

  /** In a descending sequence, whatever lies beyond a prefix sorts no later than the prefix. */
  lemma PrefixGreatest(sorted: seq<string>, n: nat, f: string, g: string)
    requires StrOrder.SortedDescending(sorted) && n <= |sorted|
    requires f in sorted && f !in sorted[..n] && g in sorted[..n]
    ensures StrOrder.LessEq(f, g)
  {
    var k :| 0 <= k < |sorted| && sorted[k] == f;
    var j :| 0 <= j < n && sorted[..n][j] == g;
    assert sorted[j] == g;
  }

  /** `file.replace('.md', '').replace(/-/g, ' ')`: the title of a meeting or general note in the index. */
  function IndexTitle(file: string): string {
    TitleOf(ReplaceFirst(file, ".md", ""))
  }

  /** `file.replace('.md', '')`: the label of a daily journal in the index. */
  function IndexDailyLabel(file: string): string {
    ReplaceFirst(file, ".md", "")
  }

  /** The first `.md` of `p + ".md"` is the suffix when `p` has no dot. */
  lemma StripMdSuffix(p: string)
    requires '.' !in p
    ensures ReplaceFirst(p + ".md", ".md", "") == p
  {
    var s := p + ".md";
    assert OccursAt(s, ".md", |p|);
    forall j | 0 <= j < |p| ensures !OccursAt(s, ".md", j) {
      assert s[j] == p[j];
    }
    assert IndexOf(s, ".md") == Some(|p|);
  }

  /**
   The index titles a written note by its whole name: the slug and the date,
   both with dashes turned into spaces.
   */
  lemma IndexTitleOfNote(slug: string, date: string)
    requires Slug.IsSlug(slug) && IsDateText(date)
    ensures IndexTitle(NoteFileName(slug, date)) == TitleOf(slug) + " " + TitleOf(date)
  {
    var p := slug + "-" + date;
    assert NoteFileName(slug, date) == p + ".md";
    NoDotInStem(slug, date);
    StripMdSuffix(p);
    TitleOfStem(slug, date);
  }

  lemma NoDotInStem(slug: string, date: string)
    requires Slug.IsSlug(slug) && IsDateText(date)
    ensures '.' !in slug + "-" + date
  {
    var p := slug + "-" + date;
    forall i | 0 <= i < |p| ensures p[i] != '.' {
      if i < |slug| {
        assert p[i] == slug[i] && Slug.IsSlugChar(slug[i]);
      } else if i > |slug| {
        assert p[i] == date[i - |slug| - 1];
      }
    }
  }

  lemma TitleOfStem(slug: string, date: string)
    ensures TitleOf(slug + "-" + date) == TitleOf(slug) + " " + TitleOf(date)
  {
    ReplaceAllConcat(slug + "-", date, '-', ' ');
    ReplaceAllConcat(slug, "-", '-', ' ');
  }

  /** A written daily name is labelled by its date. */
  lemma IndexDailyLabelOfDaily(date: string)
    requires IsDateText(date)
    ensures IndexDailyLabel(DailyFileName(date)) == date
  {
    StripMdSuffix(date);
  }
}

=== FILE: order.dfy ===
/**
 The default order of JavaScript's `Array.prototype.sort` on strings:
 lexicographic comparison of UTF-16 code units, and the sort itself.

 A string here is a sequence of code points. Comparing two code points by
 their first UTF-16 code unit puts the supplementary planes (encoded with
 surrogates, 0xD800..0xDBFF) between U+D7FF and U+E000, so `Rank` moves the
 code points U+E000..U+FFFF above all supplementary ones; comparing strings
 code point by code point under `Rank` is then the same as comparing their
 UTF-16 encodings unit by unit.
 */
module StrOrder {

  /** Position of a code point in UTF-16 code-unit order. */
  function Rank(c: char): int {
    if (c as int) < 0xD800 then c as int
    else if (c as int) >= 0x10000 then c as int - 0x10000 + 0xD800
    else c as int + 0x100000
  }

  lemma RankInjective(a: char, b: char)
    requires a != b
    ensures Rank(a) != Rank(b)
  {
  }

  /** `a` sorts strictly before `b`. */
  predicate Less(a: string, b: string)
    decreases |a|
  {
    if a == [] then b != []
    else if b == [] then false
    else if a[0] == b[0] then Less(a[1..], b[1..])
    else Rank(a[0]) < Rank(b[0])
  }

  predicate LessEq(a: string, b: string) {
    a == b || Less(a, b)
  }

  lemma {:induction false} LessIrreflexive(a: string)
    ensures !Less(a, a)
    decreases |a|
  {
    if a != [] {
      LessIrreflexive(a[1..]);
    }
  }

  lemma {:induction false} LessTransitive(a: string, b: string, c: string)
    requires Less(a, b) && Less(b, c)
    ensures Less(a, c)
    decreases |a|
  {
    if a != [] && b != [] && c != [] {
      if a[0] == b[0] && b[0] == c[0] {
        LessTransitive(a[1..], b[1..], c[1..]);
      } else if a[0] != b[0] {
        RankInjective(a[0], b[0]);
        if b[0] != c[0] {
          RankInjective(b[0], c[0]);
        }
        if a[0] != c[0] {
          RankInjective(a[0], c[0]);
        }
      } else {
        RankInjective(b[0], c[0]);
      }
    }
  }

  lemma {:induction false} LessTotal(a: string, b: string)
    requires a != b
    ensures Less(a, b) || Less(b, a)
    decreases |a|
  {
    if a != [] && b != [] {
      if a[0] == b[0] {
        assert a == [a[0]] + a[1..] && b == [b[0]] + b[1..];
        LessTotal(a[1..], b[1..]);
      } else {
        RankInjective(a[0], b[0]);
      }
    }
  }

  lemma LessAsymmetric(a: string, b: string)
    requires Less(a, b)
    ensures !Less(b, a)
  {
    if Less(b, a) {
      LessTransitive(a, b, a);
      LessIrreflexive(a);
    }
  }

  lemma LessEqTransitive(a: string, b: string, c: string)
    requires LessEq(a, b) && LessEq(b, c)
    ensures LessEq(a, c)
  {
    if a != b && b != c {
      LessTransitive(a, b, c);
    }
  }

  predicate SortedAscending(s: seq<string>) {
    forall i, j :: 0 <= i < j < |s| ==> LessEq(s[i], s[j])
  }

  predicate SortedDescending(s: seq<string>) {
    forall i, j :: 0 <= i < j < |s| ==> LessEq(s[j], s[i])
  }

  /** Insert `x` before the first element that does not sort before it. */
  function Insert(x: string, s: seq<string>): (r: seq<string>)
    ensures |r| == |s| + 1
  {
    if s == [] then [x]
    else if !Less(s[0], x) then [x] + s
    else [s[0]] + Insert(x, s[1..])
  }

  lemma {:induction false} InsertElements(x: string, s: seq<string>)
    ensures multiset(Insert(x, s)) == multiset(s) + multiset{x}
  {
    if s != [] && Less(s[0], x) {
      InsertElements(x, s[1..]);
      assert s == [s[0]] + s[1..];
    }
  }

  lemma {:induction false} InsertSorted(x: string, s: seq<string>)
    requires SortedAscending(s)
    ensures SortedAscending(Insert(x, s))
  {
    if s == [] {
    } else if !Less(s[0], x) {
      assert LessEq(x, s[0]) by { if x != s[0] { LessTotal(x, s[0]); } }
      forall j | 0 <= j < |s| ensures LessEq(x, s[j]) {
        LessEqTransitive(x, s[0], s[j]);
      }
      ConsSorted(x, s);
    } else {
      var t := Insert(x, s[1..]);
      InsertSorted(x, s[1..]);
      InsertElements(x, s[1..]);
      HeadBelowAll(s, x, t);
      ConsSorted(s[0], t);
    }
  }

  /** The head of a sorted sequence sorts before every other element and before `x`. */
  lemma HeadBelowAll(s: seq<string>, x: string, t: seq<string>)
    requires SortedAscending(s) && s != [] && Less(s[0], x)
    requires multiset(t) == multiset(s[1..]) + multiset{x}
    ensures forall j :: 0 <= j < |t| ==> LessEq(s[0], t[j])
  {
    forall j | 0 <= j < |t| ensures LessEq(s[0], t[j]) {
      assert t[j] in multiset(t);
      if t[j] != x {
        assert t[j] in multiset(s[1..]);
        var k :| 0 <= k < |s[1..]| && s[1..][k] == t[j];
        assert s[k + 1] == t[j];
      }
    }
  }

  /** An element below every element of a sorted sequence can go in front. */
  lemma ConsSorted(h: string, t: seq<string>)
    requires SortedAscending(t)
    requires forall j :: 0 <= j < |t| ==> LessEq(h, t[j])
    ensures SortedAscending([h] + t)
  {
    var r := [h] + t;
    forall i, j | 0 <= i < j < |r| ensures LessEq(r[i], r[j]) {
      if i > 0 {
        assert r[i] == t[i - 1] && r[j] == t[j - 1];
      } else {
        assert r[j] == t[j - 1];
      }
    }
  }

  predicate Distinct<T(==)>(s: seq<T>) {
    forall i, j :: 0 <= i < j < |s| ==> s[i] != s[j]
  }

  lemma ConsDistinct<T>(h: T, t: seq<T>)
    requires Distinct(t) && h !in t
    ensures Distinct([h] + t)
  {
    var r := [h] + t;
    forall i, j | 0 <= i < j < |r| ensures r[i] != r[j] {
      assert r[j] == t[j - 1];
      if i > 0 {
        assert r[i] == t[i - 1];
      }
    }
  }

  lemma {:induction false} InsertDistinct(x: string, s: seq<string>)
    requires Distinct(s) && x !in s
    ensures Distinct(Insert(x, s))
  {
    if s == [] {
    } else if !Less(s[0], x) {
      ConsDistinct(x, s);
    } else {
      var t := Insert(x, s[1..]);
      assert Distinct(s[1..]) by {
        forall i, j | 0 <= i < j < |s[1..]| ensures s[1..][i] != s[1..][j] {
          assert s[1..][i] == s[i + 1] && s[1..][j] == s[j + 1];
        }
      }
      assert s == [s[0]] + s[1..];
      InsertDistinct(x, s[1..]);
      InsertElements(x, s[1..]);
      assert s[0] !in multiset(t);
      ConsDistinct(s[0], t);
    }
  }

  /** `Array.prototype.sort()` with the default comparator. */
  function SortAscending(s: seq<string>): (r: seq<string>)
    ensures SortedAscending(r)
    ensures multiset(r) == multiset(s)
    ensures Distinct(s) ==> Distinct(r)
  {
    if s == [] then []
    else
      var t := SortAscending(s[1..]);
      InsertHead(s, t);
      Insert(s[0], t)
  }

  /** Inserting the head into the sorted tail sorts the whole sequence. */
  lemma InsertHead(s: seq<string>, t: seq<string>)
    requires s != [] && SortedAscending(t) && multiset(t) == multiset(s[1..])
    requires Distinct(s[1..]) ==> Distinct(t)
    ensures SortedAscending(Insert(s[0], t))
    ensures multiset(Insert(s[0], t)) == multiset(s)
    ensures Distinct(s) ==> Distinct(Insert(s[0], t))
  {
    InsertSorted(s[0], t);
    InsertElements(s[0], t);
    assert s == [s[0]] + s[1..];
    if Distinct(s) {
      assert Distinct(s[1..]) by {
        forall i, j | 0 <= i < j < |s[1..]| ensures s[1..][i] != s[1..][j] {
          assert s[1..][i] == s[i + 1] && s[1..][j] == s[j + 1];
        }
      }
      assert s[0] !in multiset(t);
      InsertDistinct(s[0], t);
    }
  }

  /** `Array.prototype.reverse()` */
  function Reverse<T>(s: seq<T>): (r: seq<T>)
    ensures |r| == |s|
    ensures forall i :: 0 <= i < |s| ==> r[i] == s[|s| - 1 - i]
    ensures multiset(r) == multiset(s)
  {
    if s == [] then []
    else
      assert s == s[..|s| - 1] + [s[|s| - 1]];
      [s[|s| - 1]] + Reverse(s[..|s| - 1])
  }

  /** `xs.sort().reverse()`: greatest first, same elements. */
  function SortDescending(s: seq<string>): (r: seq<string>)
    ensures SortedDescending(r)
    ensures multiset(r) == multiset(s)
    ensures Distinct(s) ==> Distinct(r)
  {
    Reverse(SortAscending(s))
  }

  /** On distinct elements the descending order is strict. */
  lemma DistinctDescendingStrict(s: seq<string>)
    requires SortedDescending(s)
    requires Distinct(s)
    ensures forall i, j :: 0 <= i < j < |s| ==> Less(s[j], s[i])
  {
  }
}

=== FILE: pdflayout.dfy ===
/**
 The vertical cursor of the PDF invoice layout. Every element first asks for
 room (`checkPageBreak`): when the cursor plus the room needed would pass the
 bottom margin, a page is added and the cursor moves back up; then the
 cursor moves down by the element's height. The drawing calls themselves and
 the splitting of long text into lines are not modelled; a wrapped text is
 given by its number of lines.

 In the source the field `margin` is both the left edge of the text and the
 height the cursor returns to after a page break. Only the second role moves
 the cursor, so the model keeps it, as `top`, and leaves the left edge out.
 */
module PdfLayout {

  const Margin: real := 20.0
  const BottomMargin: real := 20.0

  datatype Layout = Layout(y: real, top: real, pageWidth: real, pageHeight: real, pages: nat)

  /** The lowest position the cursor may reach without a page break. */
  function Limit(l: Layout): real {
    l.pageHeight - BottomMargin
  }

  /** The constructor: a first page, the cursor at the margin. */
  function NewLayout(pageWidth: real, pageHeight: real): (l: Layout)
    ensures l.y == Margin && l.top == Margin && l.pages == 1
    ensures Limit(l) == pageHeight - 20.0
  {
    Layout(Margin, Margin, pageWidth, pageHeight, 1)
  }

  /** Same page geometry and top. */
  predicate SameFrame(a: Layout, b: Layout) {
    a.top == b.top && a.pageWidth == b.pageWidth && a.pageHeight == b.pageHeight
  }

  /** `checkPageBreak(needed)` */
  function CheckPageBreak(l: Layout, needed: real): (r: Layout)
    ensures l.y + needed <= Limit(l) ==> r == l
    ensures l.y + needed > Limit(l) ==> r == l.(y := l.top, pages := l.pages + 1)
    ensures 0.0 <= needed <= Limit(l) - l.top ==> r.y + needed <= Limit(l)
  {
    if l.y + needed > Limit(l) then l.(y := l.top, pages := l.pages + 1) else l
  }

  /** Ask for `needed`, then move down by `advance`. */
  function Step(l: Layout, needed: real, advance: real): (r: Layout)
    ensures SameFrame(r, l)
    ensures r.pages == l.pages || r.pages == l.pages + 1
    ensures r.pages == l.pages ==> r.y == l.y + advance
    ensures 0.0 <= advance <= needed <= Limit(l) - l.top ==> r.y <= Limit(l)
  {
    var c := CheckPageBreak(l, needed);
    c.(y := c.y + advance)
  }

  function Sum(hs: seq<real>): real {
    if hs == [] then 0.0 else hs[0] + Sum(hs[1..])
  }

  /** Every height is one that a fresh page can hold. */
  predicate AllFit(l: Layout, hs: seq<real>) {
    forall i :: 0 <= i < |hs| ==> 0.0 <= hs[i] <= Limit(l) - l.top
  }

  /** One step per height, each asking for exactly the room it takes. */
  function Steps(l: Layout, hs: seq<real>): (r: Layout)
    ensures SameFrame(r, l)
    ensures r.pages >= l.pages
    ensures r.pages == l.pages ==> r.y == l.y + Sum(hs)
    ensures AllFit(l, hs) && hs != [] ==> r.y <= Limit(l)
    ensures AllFit(l, hs) && l.y + Sum(hs) <= Limit(l) ==> r == l.(y := l.y + Sum(hs))
    decreases |hs|
  {
    if hs == [] then l
    else
      var s := Step(l, hs[0], hs[0]);
      assert AllFit(l, hs) ==> AllFit(s, hs[1..]) && Sum(hs[1..]) >= 0.0 by {
        if AllFit(l, hs) {
          forall i | 0 <= i < |hs[1..]| ensures 0.0 <= hs[1..][i] <= Limit(s) - s.top {
            assert hs[1..][i] == hs[i + 1];
          }
          SumNonNegative(s, hs[1..]);
        }
      }
      Steps(s, hs[1..])
  }

  lemma {:induction false} SumNonNegative(l: Layout, hs: seq<real>)
    requires AllFit(l, hs)
    ensures Sum(hs) >= 0.0
    decreases |hs|
  {
    if hs != [] {
      assert AllFit(l, hs[1..]) by {
        forall i | 0 <= i < |hs[1..]| ensures 0.0 <= hs[1..][i] <= Limit(l) - l.top {
          assert hs[1..][i] == hs[i + 1];
        }
      }
      SumNonNegative(l, hs[1..]);
    }
  }

  lemma {:induction false} SumConstant(n: nat, h: real)
    ensures Sum(seq(n, _ => h)) == n as real * h
  {
    if n > 0 {
      assert seq(n, _ => h)[1..] == seq(n - 1, _ => h);
      assert Sum(seq(n, _ => h)) == h + Sum(seq(n - 1, _ => h));
      SumConstant(n - 1, h);
      assert n as real * h == (n - 1) as real * h + h;
    }
  }

  /** The layout operations, with the sizes they are called with. */
  datatype Op =
    | Title(fontSize: real)
    | Subheading(fontSize: real)
    | Text(fontSize: real)
    | Space(pixels: real)
    | Rule
    | Table(widths: seq<real>, rows: nat)
    | Summary(isTotal: seq<bool>)
    | Wrapped(lines: nat, fontSize: real)

  function TitleHeight(fontSize: real): real { fontSize * 0.6 + 5.0 }
  function SubheadingHeight(fontSize: real): real { fontSize * 0.6 + 3.0 }
  function TextHeight(fontSize: real): real { fontSize * 0.5 + 2.0 }

  /** A summary item: a total takes a rule, spacing and a larger line. */
  function ItemHeight(isTotal: bool): real {
    if isTotal then 28.0 else 12.0
  }

  function ItemHeights(items: seq<bool>): (r: seq<real>)
    ensures |r| == |items|
    ensures forall i :: 0 <= i < |items| ==> r[i] == ItemHeight(items[i])
  {
    seq(|items|, i requires 0 <= i < |items| => ItemHeight(items[i]))
  }

  /** The room the header and the first two rows of a table need. */
  function TableHead(rows: nat): real {
    12.0 + (if rows < 2 then rows else 2) as real * 8.0
  }

  /** How far the cursor moves for an operation when no page break happens. */
  function Height(op: Op): real {
    match op
    case Title(fs) => TitleHeight(fs)
    case Subheading(fs) => SubheadingHeight(fs)
    case Text(fs) => TextHeight(fs)
    case Space(p) => p
    case Rule => 15.0
    case Table(_, rows) => 12.0 + Sum(seq(rows, _ => 8.0))
    case Summary(items) => Sum(ItemHeights(items))
    case Wrapped(n, fs) => Sum(seq(n, _ => TextHeight(fs)))
  }

  /** Every room an operation asks for is one a fresh page can hold. */
  predicate Fits(l: Layout, op: Op) {
    match op
    case Title(fs) => 0.0 <= TitleHeight(fs) <= Limit(l) - l.top
    case Subheading(fs) => 0.0 <= SubheadingHeight(fs) <= Limit(l) - l.top
    case Text(fs) => 0.0 <= TextHeight(fs) <= Limit(l) - l.top
    case Space(p) => 0.0 <= p <= Limit(l) - l.top
    case Rule => 15.0 <= Limit(l) - l.top
    case Table(_, rows) => TableHead(rows) <= Limit(l) - l.top
    case Summary(items) => AllFit(l, ItemHeights(items)) && Sum(ItemHeights(items)) <= Limit(l) - l.top
    case Wrapped(_, fs) => 0.0 <= TextHeight(fs) <= Limit(l) - l.top
  }

  /** The operation draws at least one thing. */
  predicate Draws(op: Op) {
    match op
    case Summary(items) => items != []
    case Wrapped(n, _) => n > 0
    case _ => true
  }

  lemma AllFitConstant(l: Layout, n: nat, h: real)
    ensures 0.0 <= h <= Limit(l) - l.top ==> AllFit(l, seq(n, _ => h))
  {
  }

  /**
   `addTitle`, `addSubheading`, `addText`, `addSpace`, `addLine`, `addTable`,
   `addRightAlignedSummary` and `addWrappedText`.
   */
  function Place(l: Layout, op: Op): (r: Layout)
    ensures SameFrame(r, l)
    ensures r.pages >= l.pages
    ensures r.pages == l.pages ==> r.y == l.y + Height(op)
    ensures Fits(l, op) && Draws(op) ==> r.y <= Limit(l)
  {
    match op
    case Title(fs) => Step(l, TitleHeight(fs), TitleHeight(fs))
    case Subheading(fs) => Step(l, SubheadingHeight(fs), SubheadingHeight(fs))
    case Text(fs) => Step(l, TextHeight(fs), TextHeight(fs))
    case Space(p) => Step(l, p, p)
    case Rule => Step(l, 15.0, 15.0)
    case Table(_, rows) =>
      var h := Step(l, TableHead(rows), 12.0);
      AllFitConstant(h, rows, 8.0);
      assert Fits(l, op) ==> h.y <= Limit(l);
      Steps(h, seq(rows, _ => 8.0))
    case Summary(items) =>
      Steps(CheckPageBreak(l, Sum(ItemHeights(items))), ItemHeights(items))
    case Wrapped(n, fs) =>
      AllFitConstant(l, n, TextHeight(fs));
      Steps(l, seq(n, _ => TextHeight(fs)))
  }

  /** A table moves the cursor 12 for the header and 8 per row. */
  lemma TableHeight(widths: seq<real>, rows: nat)
    ensures Height(Table(widths, rows)) == 12.0 + 8.0 * rows as real
  {
    SumConstant(rows, 8.0);
  }

  /**
   A summary that a fresh page can hold is never split: it breaks the page at
   most once, before its first item, and exactly when it would not fit below
   the cursor.
   */
  lemma SummaryKeptTogether(l: Layout, items: seq<bool>)
    requires Fits(l, Summary(items))
    ensures var r := Place(l, Summary(items));
      && (l.y + Height(Summary(items)) <= Limit(l) ==> r.pages == l.pages && r.y == l.y + Height(Summary(items)))
      && (l.y + Height(Summary(items)) > Limit(l) ==> r.pages == l.pages + 1 && r.y == l.top + Height(Summary(items)))
  {
  }

  /** Apply operations in order. */
  function Run(l: Layout, ops: seq<Op>): (r: Layout)
    ensures SameFrame(r, l)
    ensures r.pages >= l.pages
    decreases |ops|
  {
    if ops == [] then l else Run(Place(l, ops[0]), ops[1..])
  }

  function Max(a: real, b: real): real {
    if a >= b then a else b
  }

  /** The left edge of the right-hand column. */
  function RightX(l: Layout): real {
    l.pageWidth / 2.0 + 10.0
  }

  /**
   `addTwoColumns` as written: while the right column is laid out, `margin`
   is that column's left edge, so a page break inside it returns the cursor
   to that value rather than to the top margin. Afterwards the cursor is 10
   below the longer column and the margin is restored.
   */
  function TwoColumnsAsWritten(l: Layout, left: seq<Op>, right: seq<Op>): (r: Layout)
    ensures SameFrame(r, l)
  {
    var c := CheckPageBreak(l, 60.0);
    var a := Run(c, left);
    var b := Run(a.(y := c.y, top := RightX(c)), right);
    b.(y := Max(a.y, b.y) + 10.0, top := c.top)
  }

  /**
   `addTwoColumns` with page breaks returning to the top margin in both
   columns: each column starts where the block starts, and the cursor ends
   10 below the longer column.
   */
  function TwoColumns(l: Layout, left: seq<Op>, right: seq<Op>): (r: Layout)
    ensures SameFrame(r, l)
    ensures var c := CheckPageBreak(l, 60.0);
      var a := Run(c, left);
      var b := Run(c.(pages := a.pages), right);
      && r.y >= a.y + 10.0 && r.y >= b.y + 10.0
      && (r.y == a.y + 10.0 || r.y == b.y + 10.0)
      && r.pages == b.pages
  {
    var c := CheckPageBreak(l, 60.0);
    var a := Run(c, left);
    var b := Run(a.(y := c.y), right);
    assert a.(y := c.y) == c.(pages := a.pages);
    b.(y := Max(a.y, b.y) + 10.0)
  }

  /**
   With breaks returning to the top margin, where content ends does not
   depend on the column it is in: swapping the columns leaves the cursor
   where it was.
   */
  lemma ColumnsSymmetric(l: Layout, left: seq<Op>, right: seq<Op>)
    ensures TwoColumns(l, left, right).y == TwoColumns(l, right, left).y
  {
    var c := CheckPageBreak(l, 60.0);
    RunPagesShift(c, left, Run(c, right).pages);
    RunPagesShift(c, right, Run(c, left).pages);
  }

  /** Starting with more pages changes nothing but the page count. */
  lemma {:induction false} RunPagesShift(l: Layout, ops: seq<Op>, p: nat)
    ensures Run(l.(pages := p), ops).y == Run(l, ops).y
    decreases |ops|
  {
    if ops != [] {
      PlacePagesShift(l, ops[0], p);
      RunPagesShift(Place(l, ops[0]), ops[1..], Place(l.(pages := p), ops[0]).pages);
      assert Place(l, ops[0]).(pages := Place(l.(pages := p), ops[0]).pages) == Place(l.(pages := p), ops[0]);
    }
  }

  lemma PlacePagesShift(l: Layout, op: Op, p: nat)
    ensures Place(l.(pages := p), op).(pages := 0) == Place(l, op).(pages := 0)
  {
    match op
    case Table(widths, rows) => TablePagesShift(l, widths, rows, p);
    case Summary(items) => SummaryPagesShift(l, items, p);
    case Wrapped(n, fs) => StepsPagesShift(l, seq(n, _ => TextHeight(fs)), p);
    case _ =>
  }

  lemma TablePagesShift(l: Layout, widths: seq<real>, rows: nat, p: nat)
    ensures Place(l.(pages := p), Table(widths, rows)).(pages := 0) == Place(l, Table(widths, rows)).(pages := 0)
  {
    var h := Step(l, TableHead(rows), 12.0);
    var hp := Step(l.(pages := p), TableHead(rows), 12.0);
    assert hp == h.(pages := hp.pages);
    StepsPagesShift(h, seq(rows, _ => 8.0), hp.pages);
  }

  lemma SummaryPagesShift(l: Layout, items: seq<bool>, p: nat)
    ensures Place(l.(pages := p), Summary(items)).(pages := 0) == Place(l, Summary(items)).(pages := 0)
  {
    var c := CheckPageBreak(l, Sum(ItemHeights(items)));
    var cp := CheckPageBreak(l.(pages := p), Sum(ItemHeights(items)));
    assert cp == c.(pages := cp.pages);
    StepsPagesShift(c, ItemHeights(items), cp.pages);
  }

  lemma {:induction false} StepsPagesShift(l: Layout, hs: seq<real>, p: nat)
    ensures Steps(l.(pages := p), hs).(pages := 0) == Steps(l, hs).(pages := 0)
    decreases |hs|
  {
    if hs != [] {
      StepsPagesShift(Step(l, hs[0], hs[0]), hs[1..], Step(l.(pages := p), hs[0], hs[0]).pages);
      assert Step(l, hs[0], hs[0]).(pages := Step(l.(pages := p), hs[0], hs[0]).pages) == Step(l.(pages := p), hs[0], hs[0]);
    }
  }

  /** An A4 page (210 by 297) with the cursor at 200. */
  function A4At200(): Layout {
    Layout(200.0, Margin, 210.0, 297.0, 1)
  }

  /**
   As written, a page break inside the right column sends the cursor to 115
   (the column's left edge) rather than 20, so the block's end depends on
   which column holds the taller content.
   */
  lemma RightColumnBreakAsWritten()
    ensures TwoColumnsAsWritten(A4At200(), [Space(80.0)], [Space(100.0)]).y == 225.0
    ensures TwoColumnsAsWritten(A4At200(), [Space(100.0)], [Space(80.0)]).y == 205.0
  {
  }

  /** Corrected, both orders end at 130: 100 below the new page's top margin, plus 10. */
  lemma RightColumnBreak()
    ensures TwoColumns(A4At200(), [Space(80.0)], [Space(100.0)]).y == 130.0
    ensures TwoColumns(A4At200(), [Space(100.0)], [Space(80.0)]).y == 130.0
  {
  }

  /**
   `calculateColumnPositions`: the first column at the margin, each next one
   the previous position plus the previous width.
   */
  method ColumnPositions(margin: real, widths: seq<real>) returns (positions: seq<real>)
    ensures |positions| == if |widths| == 0 then 1 else |widths|
    ensures positions[0] == margin
    ensures forall i :: 1 <= i < |positions| ==> positions[i] == positions[i - 1] + widths[i - 1]
    ensures forall i :: 0 <= i < |positions| ==> positions[i] == margin + Sum(widths[..i])
  {
    positions := [margin];
    var i := 1;
    while i < |widths|
      invariant 1 <= i <= if |widths| == 0 then 1 else |widths|
      invariant |positions| == i
      invariant positions[0] == margin
      invariant forall k :: 1 <= k < i ==> positions[k] == positions[k - 1] + widths[k - 1]
      invariant forall k :: 0 <= k < i ==> positions[k] == margin + Sum(widths[..k])
    {
      SumSnoc(widths[..i - 1], widths[i - 1]);
      assert widths[..i] == widths[..i - 1] + [widths[i - 1]];
      positions := positions + [positions[i - 1] + widths[i - 1]];
      i := i + 1;
    }
  }

  lemma {:induction false} SumSnoc(hs: seq<real>, h: real)
    ensures Sum(hs + [h]) == Sum(hs) + h
    decreases |hs|
  {
    if hs == [] {
      assert hs + [h] == [h];
    } else {
      assert (hs + [h])[1..] == hs[1..] + [h];
      SumSnoc(hs[1..], h);
    }
  }
}

=== FILE: quicktodo.dfy ===
/**
 The quick-todo command of the TypeScript extension: the entry line written
 for a todo, the priority sections of a todo file, and where a new entry or
 a new section goes.

 The priority markers are the characters the source file holds: emoji whose
 UTF-8 bytes were decoded as Mac OS Roman, so that each is four unrelated
 characters. The model keeps them as they are.
 */
module QuickTodo {
  import opened Opt
  import opened Text

  datatype Priority = Urgent | High | Normal | Low

  datatype Category = General | Project

  function Label(p: Priority): string {
    match p
    case Urgent => "Urgent"
    case High => "High"
    case Normal => "Normal"
    case Low => "Low"
  }

  function Emoji(p: Priority): string {
    match p
    case Urgent => "\U{F8FF}\U{00FC}\U{00EE}\U{00A5}"
    case High => "\U{F8FF}\U{00FC}\U{00FC}\U{2020}"
    case Normal => "\U{F8FF}\U{00FC}\U{00FC}\U{00B0}"
    case Low => "\U{F8FF}\U{00FC}\U{00FC}\U{00A2}"
  }

  /** The position of a priority in `['Urgent', 'High', 'Normal', 'Low']`. */
  function Rank(p: Priority): nat {
    match p
    case Urgent => 0
    case High => 1
    case Normal => 2
    case Low => 3
  }

  function PriorityAt(n: nat): (p: Priority)
    requires n < 4
    ensures Rank(p) == n
  {
    [Urgent, High, Normal, Low][n]
  }

  function EntryPrefix(p: Priority): string {
    "- [ ] **[" + Label(p) + "]** " + Emoji(p) + " "
  }

  function EntrySuffix(timestamp: string): string {
    " *(Added: " + timestamp + ")*\n"
  }

  /** `- [ ] **[<label>]** <emoji> <text> *(Added: <timestamp>)*` and a line break. */
  function TodoEntry(p: Priority, text: string, timestamp: string): string {
    EntryPrefix(p) + text + EntrySuffix(timestamp)
  }

  /** Reading an entry back: its priority from the label, its text from between prefix and suffix. */
  function ParseEntry(e: string, timestamp: string): (r: Option<(Priority, string)>)
    ensures r.Some? ==> TodoEntry(r.value.0, r.value.1, timestamp) == e
  {
    if |e| <= 9 then None
    else
      var p := if e[9] == 'U' then Urgent else if e[9] == 'H' then High else if e[9] == 'N' then Normal else Low;
      var pre, suf := EntryPrefix(p), EntrySuffix(timestamp);
      if |pre| + |suf| <= |e| && e[..|pre|] == pre && e[|e| - |suf|..] == suf then
        var text := e[|pre|..|e| - |suf|];
        assert e == e[..|pre|] + e[|pre|..|e| - |suf|] + e[|e| - |suf|..];
        assert e == pre + text + suf;
        Some((p, text))
      else None
  }

  /** An entry reads back as the priority and text it was written from. */
  lemma EntryRoundTrip(p: Priority, text: string, timestamp: string)
    ensures ParseEntry(TodoEntry(p, text, timestamp), timestamp) == Some((p, text))
  {
    var e := TodoEntry(p, text, timestamp);
    var pre, suf := EntryPrefix(p), EntrySuffix(timestamp);
    assert e[9] == Label(p)[0] by {
      assert e[..|pre|] == pre;
      assert pre[9] == Label(p)[0];
    }
    assert e[..|pre|] == pre;
    assert e[|e| - |suf|..] == suf;
    assert e[|pre|..|e| - |suf|] == text;
  }

  /** Entries of different todos differ. */
  lemma EntryInjective(p: Priority, q: Priority, a: string, b: string, timestamp: string)
    requires TodoEntry(p, a, timestamp) == TodoEntry(q, b, timestamp)
    ensures p == q && a == b
  {
    EntryRoundTrip(p, a, timestamp);
    EntryRoundTrip(q, b, timestamp);
  }

  /** `### <label> Priority` */
  function SectionName(p: Priority): string {
    "### " + Label(p) + " Priority"
  }

  const ActiveTasks := "## Active Tasks"

  /**
   The replacement-pattern expansion of `String.prototype.replace` for a
   regular expression with one capture group (section 22.1.3.19.1,
   GetSubstitution, of ECMA-262): `$$` is `$`, `$&` the match, `` $` `` the
   text before it, `$'` the text after it, `$1` and `$01` the group (here
   `group`); every other `$` stands for itself.
   */
  function Expand(rep: string, matched: string, before: string, after: string, group: string): string
    decreases |rep|
  {
    if rep == [] then []
    else
      var (piece, used) := Token(rep, matched, before, after, group);
      piece + Expand(rep[used..], matched, before, after, group)
  }

  /** The text one step of the expansion produces, and how many characters of the pattern it reads. */
  function Token(rep: string, matched: string, before: string, after: string, group: string): (r: (string, nat))
    requires rep != []
    ensures 1 <= r.1 <= |rep|
    ensures rep[0] != '$' ==> r == ([rep[0]], 1)
  {
    if rep[0] != '$' || |rep| == 1 then ([rep[0]], 1)
    else if rep[1] == '$' then ("$", 2)
    else if rep[1] == '&' then (matched, 2)
    else if rep[1] == '`' then (before, 2)
    else if rep[1] == '\'' then (after, 2)
    else if |rep| >= 3 && rep[1] == '0' && rep[2] == '1' then (group, 3)
    else if rep[1] == '1' then (group, 2)
    else ("$", 1)
  }

  /** Text without `$` is copied as it is. */
  lemma {:induction false} ExpandPlain(a: string, b: string, matched: string, before: string, after: string, group: string)
    requires '$' !in a
    ensures Expand(a + b, matched, before, after, group) == a + Expand(b, matched, before, after, group)
    decreases |a|
  {
    if a == [] {
      assert a + b == b;
    } else {
      var rep := a + b;
      assert rep[0] == a[0] && rep[1..] == a[1..] + b;
      assert Token(rep, matched, before, after, group) == ([a[0]], 1);
      ExpandPlain(a[1..], b, matched, before, after, group);
      assert [a[0]] + (a[1..] + Expand(b, matched, before, after, group)) == a + Expand(b, matched, before, after, group);
    }
  }

  /** Where the entry goes in a file that has the section: just after its heading line. */
  function HeadingEnd(content: string, p: Priority): Option<nat> {
    match IndexOf(content, Heading(p))
    case None => None
    case Some(i) => Some(i + |Heading(p)|)
  }

  /** The heading line of a section, with its line break. */
  function Heading(p: Priority): string {
    SectionName(p) + "\n"
  }

  /**
   `content.replace(new RegExp('(' + h + ')'), rep)` for a heading `h` with
   no special characters: the first occurrence of `h` is replaced by the
   expansion of `rep`, in which the match is also group 1.
   */
  function RegexReplaceFirst(content: string, h: string, rep: string): (r: string)
    ensures IndexOf(content, h).None? ==> r == content
  {
    match IndexOf(content, h)
    case None => content
    case Some(i) => content[..i] + Expand(rep, h, content[..i], content[i + |h|..], h) + content[i + |h|..]
  }

  /**
   The entry put in as written, `content.replace(new RegExp('(### <label>
   Priority\n)'), '$1' + entry)`: the entry is itself read as a replacement
   pattern, so a `$` in the todo's text can turn into something else.
   */
  function AddToSectionAsWritten(content: string, p: Priority, entry: string): (r: string)
    ensures HeadingEnd(content, p).None? ==> r == content
  {
    RegexReplaceFirst(content, Heading(p), "$1" + entry)
  }

  /** `text` put in just after the first occurrence of `h`. */
  function InsertAfterFirst(content: string, h: string, text: string): (r: string)
    ensures IndexOf(content, h).None? ==> r == content
    ensures IndexOf(content, h).Some? ==>
      var k := IndexOf(content, h).value + |h|;
      && k <= |content| && EndsWith(content[..k], h)
      && |r| == |content| + |text|
      && r[..k] == content[..k] && r[k..k + |text|] == text && r[k + |text|..] == content[k..]
  {
    match IndexOf(content, h)
    case None => content
    case Some(i) =>
      var k := i + |h|;
      SpliceAt(content, k, text);
      PrefixEndsWith(content, h, i);
      content[..k] + text + content[k..]
  }

  /** `text` put in at position `k`: what was before and after is kept. */
  lemma SpliceAt(content: string, k: nat, text: string)
    requires k <= |content|
    ensures var r := content[..k] + text + content[k..];
      && |r| == |content| + |text|
      && r[..k] == content[..k] && r[k..k + |text|] == text && r[k + |text|..] == content[k..]
  {
  }

  /** The text up to the end of an occurrence of `h` ends with `h`. */
  lemma PrefixEndsWith(content: string, h: string, i: nat)
    requires OccursAt(content, h, i)
    ensures EndsWith(content[..i + |h|], h)
  {
    assert content[..i + |h|][i..] == content[i..i + |h|];
  }

  /**
   The entry put in literally just below the first heading line of its
   section. Taking the entry out again gives back the file. A heading that
   is not followed by a line break is not matched, and the file is left as
   it was.
   */
  function AddToSection(content: string, p: Priority, entry: string): (r: string)
    ensures HeadingEnd(content, p).None? ==> r == content
    ensures HeadingEnd(content, p).Some? ==>
      var k := HeadingEnd(content, p).value;
      && k <= |content| && EndsWith(content[..k], Heading(p))
      && |r| == |content| + |entry|
      && r[..k] == content[..k] && r[k..k + |entry|] == entry && r[k + |entry|..] == content[k..]
  {
    InsertAfterFirst(content, Heading(p), entry)
  }

  /** `$1` at the start of a replacement is the group. */
  lemma ExpandGroupFirst(rest: string, matched: string, before: string, after: string, group: string)
    ensures Expand("$1" + rest, matched, before, after, group) == group + Expand(rest, matched, before, after, group)
  {
    var rep := "$1" + rest;
    assert rep[0] == '$' && rep[1] == '1' && rep[2..] == rest;
  }

  /** `$$` is one `$`. */
  lemma ExpandDollarDollar(rest: string, matched: string, before: string, after: string, group: string)
    ensures Expand("$$" + rest, matched, before, after, group) == "$" + Expand(rest, matched, before, after, group)
  {
    var rep := "$$" + rest;
    assert rep[0] == '$' && rep[1] == '$' && rep[2..] == rest;
  }

  /** Text without `$` is copied whole. */
  lemma ExpandNoDollar(a: string, matched: string, before: string, after: string, group: string)
    requires '$' !in a
    ensures Expand(a, matched, before, after, group) == a
  {
    ExpandPlain(a, [], matched, before, after, group);
    assert a + [] == a;
  }

  /** A `$$` between two runs of text without `$` comes out as one `$`. */
  lemma DoubleDollarHalved(a: string, b: string, matched: string, before: string, after: string, group: string)
    requires '$' !in a && '$' !in b
    ensures Expand(a + "$$" + b, matched, before, after, group) == a + "$" + b
  {
    assert a + "$$" + b == a + ("$$" + b);
    ExpandPlain(a, "$$" + b, matched, before, after, group);
    ExpandDollarDollar(b, matched, before, after, group);
    ExpandNoDollar(b, matched, before, after, group);
  }

  /** The as-written insertion keeps the heading and expands only the entry. */
  lemma AsWrittenExpansion(before: string, h: string, entry: string, after: string)
    ensures before + Expand("$1" + entry, h, before, after, h) + after
        == before + h + Expand(entry, h, before, after, h) + after
  {
    ExpandGroupFirst(entry, h, before, after, h);
  }

  /** An entry without `$` is put in the same way by the regular expression and literally. */
  lemma ReplaceAgreesWithoutDollar(content: string, h: string, entry: string)
    requires '$' !in entry
    ensures RegexReplaceFirst(content, h, "$1" + entry) == InsertAfterFirst(content, h, entry)
  {
    match IndexOf(content, h)
    case None =>
    case Some(i) =>
      var before, after := content[..i], content[i + |h|..];
      AsWrittenExpansion(before, h, entry, after);
      ExpandNoDollar(entry, h, before, after, h);
      InsertAfterAt(content, h, entry, i);
  }

  /** The literal insertion, once the heading `h` is found at `i`. */
  lemma InsertAfterAt(content: string, h: string, text: string, i: nat)
    requires IndexOf(content, h) == Some(i)
    ensures InsertAfterFirst(content, h, text) == content[..i] + h + text + content[i + |h|..]
  {
    assert content[i..i + |h|] == h;
    assert content[..i + |h|] == content[..i] + h;
  }

  /** A todo whose text has no `$` is put in the same way by both. */
  lemma AsWrittenAgreesWithoutDollar(content: string, p: Priority, text: string, timestamp: string)
    requires '$' !in text && '$' !in timestamp
    ensures AddToSectionAsWritten(content, p, TodoEntry(p, text, timestamp)) == AddToSection(content, p, TodoEntry(p, text, timestamp))
  {
    NoDollarInEntry(p, text, timestamp);
    ReplaceAgreesWithoutDollar(content, Heading(p), TodoEntry(p, text, timestamp));
  }

  lemma NoDollarInEntry(p: Priority, text: string, timestamp: string)
    requires '$' !in text && '$' !in timestamp
    ensures '$' !in TodoEntry(p, text, timestamp)
  {
    NoDollarInPrefix(p);
    NoDollarInSuffix(timestamp);
  }

  lemma NoDollarInPrefix(p: Priority)
    ensures '$' !in EntryPrefix(p)
  {
    assert '$' !in Label(p) by {
      match p
      case Urgent =>
      case High =>
      case Normal =>
      case Low =>
    }
    assert '$' !in Emoji(p) by {
      match p
      case Urgent =>
      case High =>
      case Normal =>
      case Low =>
    }
    assert '$' !in "- [ ] **[" && '$' !in "]** " && '$' !in " ";
  }

  lemma NoDollarInSuffix(timestamp: string)
    requires '$' !in timestamp
    ensures '$' !in EntrySuffix(timestamp)
  {
    assert '$' !in " *(Added: " && '$' !in ")*\n";
  }

  /** The timestamp used in the examples below. */
  const ExampleStamp := "10/11/2026, 9:00:00 AM"

  /** In a file that is only the heading, the replacement is the whole result. */
  lemma ReplaceInHeadingOnly(h: string, rep: string)
    ensures RegexReplaceFirst(h, h, rep) == Expand(rep, h, [], [], h)
  {
    assert OccursAt(h, h, 0);
    assert h[..0] == [] && h[|h|..] == [];
  }

  /** An entry whose text holds one `$$`, cut around it. */
  lemma EntryAroundDollars(p: Priority, a: string, b: string, timestamp: string)
    requires '$' !in a && '$' !in b && '$' !in timestamp
    ensures var pre, suf := EntryPrefix(p) + a, b + EntrySuffix(timestamp);
      && TodoEntry(p, a + "$$" + b, timestamp) == pre + "$$" + suf
      && TodoEntry(p, a + "$" + b, timestamp) == pre + "$" + suf
      && '$' !in pre && '$' !in suf
  {
    NoDollarInPrefix(p);
    NoDollarInSuffix(timestamp);
    Regroup(EntryPrefix(p), a, "$$", b, EntrySuffix(timestamp));
    Regroup(EntryPrefix(p), a, "$", b, EntrySuffix(timestamp));
  }

  lemma Regroup(x: string, a: string, m: string, b: string, y: string)
    ensures x + (a + m + b) + y == (x + a) + m + (b + y)
  {
  }

  /**
   As written, `$$` in a todo's text comes out as `$`: "Pay $$20" is
   recorded as "Pay $20".
   */
  lemma DollarTextAsWritten()
    ensures AddToSectionAsWritten(Heading(Normal), Normal, TodoEntry(Normal, "Pay $$20", ExampleStamp))
         == Heading(Normal) + TodoEntry(Normal, "Pay $20", ExampleStamp)
  {
    var h := Heading(Normal);
    assert "Pay $$20" == "Pay " + "$$" + "20" && "Pay $20" == "Pay " + "$" + "20";
    EntryAroundDollars(Normal, "Pay ", "20", ExampleStamp);
    var e := TodoEntry(Normal, "Pay $$20", ExampleStamp);
    var pre, suf := EntryPrefix(Normal) + "Pay ", "20" + EntrySuffix(ExampleStamp);
    ReplaceInHeadingOnly(h, "$1" + e);
    ExpandGroupFirst(e, h, [], [], h);
    DoubleDollarHalved(pre, suf, h, [], [], h);
  }

  /** Corrected, the text is recorded as typed. */
  lemma DollarText()
    ensures AddToSection(Heading(Normal), Normal, TodoEntry(Normal, "Pay $$20", ExampleStamp))
         == Heading(Normal) + TodoEntry(Normal, "Pay $$20", ExampleStamp)
  {
    InsertInHeadingOnly(Heading(Normal), TodoEntry(Normal, "Pay $$20", ExampleStamp));
  }

  lemma InsertInHeadingOnly(h: string, text: string)
    ensures InsertAfterFirst(h, h, text) == h + text
  {
    assert OccursAt(h, h, 0);
    assert h[..0 + |h|] == h && h[0 + |h|..] == [];
  }

  /**
   The heading a missing section is put after: the last section of higher
   priority that the file has, or `## Active Tasks` when it has none.
   */
  method InsertAnchor(content: string, p: Priority) returns (anchor: string)
    ensures anchor == ActiveTasks ==> forall q :: Rank(q) < Rank(p) ==> !Contains(content, SectionName(q))
    ensures anchor != ActiveTasks ==>
      exists q :: Rank(q) < Rank(p) && anchor == SectionName(q) && Contains(content, anchor)
        && forall q' :: Rank(q) < Rank(q') < Rank(p) ==> !Contains(content, SectionName(q'))
  {
    anchor := ActiveTasks;
    var i := 0;
    while i < Rank(p)
      invariant 0 <= i <= Rank(p)
      invariant anchor == ActiveTasks ==> forall q :: Rank(q) < i ==> !Contains(content, SectionName(q))
      invariant anchor != ActiveTasks ==>
        exists q :: Rank(q) < i && anchor == SectionName(q) && Contains(content, anchor)
          && forall q' :: Rank(q) < Rank(q') < i ==> !Contains(content, SectionName(q'))
    {
      var check := SectionName(PriorityAt(i));
      if Contains(content, check) {
        anchor := check;
        SectionNotActive(PriorityAt(i));
      }
      i := i + 1;
    }
  }

  lemma SectionNotActive(p: Priority)
    ensures SectionName(p) != ActiveTasks
  {
    assert SectionName(p)[2] == '#' && ActiveTasks[2] == ' ';
  }

  /**
   `anchor` is the last section of higher priority than `p` that `content`
   has, or `## Active Tasks` when it has none.
   */
  predicate LastHigherSection(content: string, p: Priority, anchor: string) {
    && (anchor == ActiveTasks ==> forall q :: Rank(q) < Rank(p) ==> !Contains(content, SectionName(q)))
    && (anchor != ActiveTasks ==>
          exists q :: Rank(q) < Rank(p) && anchor == SectionName(q)
            && forall q' :: Rank(q) < Rank(q') < Rank(p) ==> !Contains(content, SectionName(q')))
  }

  /**
   Where a missing section goes: after a present anchor, which is the last
   higher-priority section; appended at the end only when the file has
   neither a higher-priority section nor `## Active Tasks`.
   */
  predicate PlacesNewSection(content: string, p: Priority, entry: string, u: Update) {
    && (u.NewSectionAfter? ==>
          && Contains(content, u.anchor) && LastHigherSection(content, p, u.anchor)
          && u.section == SectionName(p) && u.entry == entry)
    && (u.Rewritten? ==>
          && u.content == content + "\n" + SectionName(p) + "\n" + entry
          && !Contains(content, ActiveTasks)
          && forall q :: Rank(q) < Rank(p) ==> !Contains(content, SectionName(q)))
  }

  /** What `createQuickTodo` writes into an existing file, or where it would put a new section. */
  datatype Update =
    | Rewritten(content: string)
    | NewSectionAfter(anchor: string, section: string, entry: string)

  /**
   The update of an existing todo file: into the section when it exists,
   through the regular expression replace, so a `$` in the entry is expanded;
   a new section after the anchor when the anchor is there; otherwise the
   section is appended at the end. The anchor is the last section of
   higher priority the file has, or `## Active Tasks` when it has none.
   The insertion after the anchor uses a multi-line regular expression and
   is described, not carried out.
   */
  method UpdateTodoFile(content: string, p: Priority, entry: string) returns (u: Update)
    ensures Contains(content, SectionName(p)) ==> u == Rewritten(AddToSectionAsWritten(content, p, entry))
    ensures Contains(content, SectionName(p)) && '$' !in entry ==> u == Rewritten(AddToSection(content, p, entry))
    ensures u.NewSectionAfter? ==> !Contains(content, SectionName(p))
    ensures !Contains(content, SectionName(p)) ==> PlacesNewSection(content, p, entry, u)
  {
    if Contains(content, SectionName(p)) {
      if '$' !in entry {
        ReplaceAgreesWithoutDollar(content, Heading(p), entry);
      }
      return Rewritten(AddToSectionAsWritten(content, p, entry));
    }
    var anchor := InsertAnchor(content, p);
    if Contains(content, anchor) {
      u := NewSectionAfter(anchor, SectionName(p), entry);
    } else {
      u := Rewritten(content + "\n" + SectionName(p) + "\n" + entry);
    }
  }

  function Title(c: Category): string {
    match c
    case Project => "# Project Todo List"
    case General => "# General Todo List"
  }

  /** `docs/project-planning/<name>` */
  function TodoFileName(c: Category): string {
    match c
    case Project => "project-todos.md"
    case General => "general-todos.md"
  }

  /** The file written when the todo file does not exist yet. */
  function NewTodoFile(c: Category, p: Priority, entry: string): (r: string)
    ensures StartsWith(r, Title(c) + "\n")
    ensures Contains(r, SectionName(p) + "\n" + entry)
  {
    var head := Title(c) + "\n\n" + ActiveTasks + "\n\n";
    var body := SectionName(p) + "\n" + entry;
    var tail := "\n\n## Completed Tasks\n\n\n---\n*Todo list managed by NoteFlo*\n*Priority levels: "
      + Emoji(Urgent) + " Urgent | " + Emoji(High) + " High | " + Emoji(Normal) + " Normal | " + Emoji(Low) + " Low*\n";
    var r := head + body + tail;
    assert r[..|Title(c) + "\n"|] == Title(c) + "\n";
    assert r[|head|..|head| + |body|] == body;
    ContainsAt(r, body, |head|);
    r
  }

  /** The outcome of the command. */
  datatype Outcome =
    | Dismissed
    | Created(file: string, content: string)
    | Updated(file: string, update: Update)

  /**
   `createQuickTodo`: nothing happens when the text is empty or a choice is
   dismissed; a new file is created with the entry in its section; an
   existing file is updated.
   */
  method CreateQuickTodo(text: string, category: Option<Category>, priority: Option<Priority>,
                         existing: Option<string>, timestamp: string)
    returns (o: Outcome)
    ensures o.Dismissed? <==> text == "" || category.None? || priority.None?
    ensures !o.Dismissed? ==> o.file == TodoFileName(category.value)
    ensures o.Created? <==> !o.Dismissed? && existing.None?
    ensures o.Created? ==> Contains(o.content, SectionName(priority.value) + "\n" + TodoEntry(priority.value, text, timestamp))
    ensures o.Updated? && Contains(existing.value, SectionName(priority.value)) ==>
      o.update == Rewritten(AddToSectionAsWritten(existing.value, priority.value, TodoEntry(priority.value, text, timestamp)))
    ensures o.Updated? && Contains(existing.value, SectionName(priority.value)) && '$' !in text && '$' !in timestamp ==>
      o.update == Rewritten(AddToSection(existing.value, priority.value, TodoEntry(priority.value, text, timestamp)))
    ensures o.Updated? && !Contains(existing.value, SectionName(priority.value)) ==>
      PlacesNewSection(existing.value, priority.value, TodoEntry(priority.value, text, timestamp), o.update)
  {
    if text == "" || category.None? || priority.None? {
      return Dismissed;
    }
    if '$' !in text && '$' !in timestamp {
      NoDollarInEntry(priority.value, text, timestamp);
    }
    o := Record(category.value, priority.value, existing, TodoEntry(priority.value, text, timestamp));
  }

  /** The chosen file gets the entry: created around it, or updated. */
  method Record(c: Category, p: Priority, existing: Option<string>, entry: string) returns (o: Outcome)
    ensures !o.Dismissed? && o.file == TodoFileName(c)
    ensures o.Created? <==> existing.None?
    ensures o.Created? ==> Contains(o.content, SectionName(p) + "\n" + entry)
    ensures o.Updated? && Contains(existing.value, SectionName(p)) ==>
      o.update == Rewritten(AddToSectionAsWritten(existing.value, p, entry))
    ensures o.Updated? && Contains(existing.value, SectionName(p)) && '$' !in entry ==>
      o.update == Rewritten(AddToSection(existing.value, p, entry))
    ensures o.Updated? && !Contains(existing.value, SectionName(p)) ==> PlacesNewSection(existing.value, p, entry, o.update)
  {
    if existing.None? {
      o := Created(TodoFileName(c), NewTodoFile(c, p, entry));
    } else {
      var u := UpdateTodoFile(existing.value, p, entry);
      o := Updated(TodoFileName(c), u);
    }
  }
}

=== FILE: slug.dfy ===
/**
 `sanitizeFilename` (src/noteCreator.ts, and the identical copy in the
 older out/noteCreator.js): a free-text title becomes the slug written in
 front of a note's date. The source chains five steps, each modelled by one
 function here:

   text.toLowerCase()              -> Lowered
   .replace(/[^a-z0-9\s-]/g, '')   -> KeepSlugChars
   .replace(/\s+/g, '-')           -> CollapseSpaces
   .replace(/-+/g, '-')            -> CollapseDashes
   .replace(/^-|-$/g, '')          -> StripEdgeDashes
 */
module Slug {
  import opened Text

  predicate IsLowerAlnum(c: char) {
    'a' <= c <= 'z' || '0' <= c <= '9'
  }

  /** The characters a slug is made of. */
  predicate IsSlugChar(c: char) {
    IsLowerAlnum(c) || c == '-'
  }

  predicate NoDoubleDash(s: string) {
    forall i :: 0 <= i < |s| - 1 ==> !(s[i] == '-' && s[i + 1] == '-')
  }

  /** What `sanitizeFilename` produces: `a-z`, `0-9` and single inner dashes. */
  predicate IsSlug(s: string) {
    && (forall i :: 0 <= i < |s| ==> IsSlugChar(s[i]))
    && NoDoubleDash(s)
    && (s != [] ==> s[0] != '-' && s[|s| - 1] != '-')
  }

  /**
   `toLowerCase` of one code point, as far as the following filter can see
   it. Only three groups of code points lower-case to something containing
   a character the filter keeps: `A`..`Z`; U+0130 (capital I with dot),
   whose lower case is `i` followed by U+0307; and U+212A (Kelvin sign),
   whose lower case is `k`. Every other code point either is kept as it is
   (lower-case ASCII, digits, `-`, whitespace) or lower-cases to code points
   the filter removes, exactly as the code point itself is removed.
   */
  function LowerChar(c: char): string {
    if 'A' <= c <= 'Z' then [(c as int + 32) as char]
    else if c == '\U{0130}' then ['i', '\U{0307}']
    else if c == '\U{212A}' then ['k']
    else [c]
  }

  /** Step 1: `text.toLowerCase()`. */
  function Lowered(s: string): string {
    if s == [] then [] else LowerChar(s[0]) + Lowered(s[1..])
  }

  /** What `[a-z0-9\s-]` matches. */
  predicate IsKept(c: char) {
    IsLowerAlnum(c) || IsJsSpace(c) || c == '-'
  }

  /** Step 2: `.replace(/[^a-z0-9\s-]/g, '')`. */
  function KeepSlugChars(s: string): (r: string)
    ensures forall i :: 0 <= i < |r| ==> IsKept(r[i])
  {
    if s == [] then []
    else if IsKept(s[0]) then [s[0]] + KeepSlugChars(s[1..])
    else KeepSlugChars(s[1..])
  }

  /** The run of dashes at the front of `s` removed. */
  function DropDashes(s: string): (r: string)
    ensures |r| <= |s| && r == s[|s| - |r|..]
    ensures r == [] || r[0] != '-'
    ensures forall i :: 0 <= i < |s| - |r| ==> s[i] == '-'
  {
    if s == [] || s[0] != '-' then s else DropDashes(s[1..])
  }

  /** Step 3: `.replace(/\s+/g, '-')`: every maximal run of whitespace becomes one dash. */
  function CollapseSpaces(s: string): (r: string)
    ensures forall i :: 0 <= i < |r| ==> r[i] == '-' || (r[i] in s && !IsJsSpace(r[i]))
    decreases |s|
  {
    if s == [] then []
    else if IsJsSpace(s[0]) then
      var rest := TrimStart(s);
      assert rest != s;
      "-" + CollapseSpaces(rest)
    else [s[0]] + CollapseSpaces(s[1..])
  }

  /** Step 4: `.replace(/-+/g, '-')`: every maximal run of dashes becomes one dash. */
  function CollapseDashes(s: string): (r: string)
    ensures forall i :: 0 <= i < |r| ==> r[i] == '-' || r[i] in s
    ensures NoDoubleDash(r)
    ensures s != [] ==> r != [] && r[0] == s[0]
    decreases |s|
  {
    if s == [] then []
    else if s[0] == '-' then
      var rest := DropDashes(s);
      assert rest != s;
      "-" + CollapseDashes(rest)
    else [s[0]] + CollapseDashes(s[1..])
  }

  /** The `^-` alternative of step 5. */
  function DropLeadingDash(s: string): (r: string)
    requires NoDoubleDash(s)
    ensures NoDoubleDash(r)
    ensures r != [] ==> r[0] != '-'
    ensures r == s || (s != [] && s[0] == '-' && r == s[1..])
  {
    if s != [] && s[0] == '-' then
      s[1..]
    else s
  }

  /** The `-$` alternative of step 5. */
  function DropTrailingDash(s: string): (r: string)
    requires NoDoubleDash(s)
    ensures NoDoubleDash(r)
    ensures r != [] ==> r[|r| - 1] != '-'
    ensures r == s || (s != [] && s[|s| - 1] == '-' && r == s[..|s| - 1])
  {
    if s != [] && s[|s| - 1] == '-' then
      s[..|s| - 1]
    else s
  }

  /** Step 5: `.replace(/^-|-$/g, '')`: one leading and one trailing dash removed. */
  function StripEdgeDashes(s: string): (r: string)
    requires NoDoubleDash(s)
    ensures forall i :: 0 <= i < |r| ==> r[i] in s
    ensures NoDoubleDash(r)
    ensures r != [] ==> r[0] != '-' && r[|r| - 1] != '-'
  {
    var t := DropLeadingDash(s);
    var u := DropTrailingDash(t);
    assert u != [] ==> u[0] != '-' by {
      if u != [] && u != t { assert u[0] == t[0]; }
    }
    assert forall i :: 0 <= i < |u| ==> u[i] in t;
    assert forall i :: 0 <= i < |t| ==> t[i] in s;
    u
  }

  /** `sanitizeFilename(text)` */
  function Sanitize(text: string): (r: string)
    ensures IsSlug(r)
  {
    var kept := KeepSlugChars(Lowered(text));
    var spaced := CollapseSpaces(kept);
    SpacedSlugChars(kept);
    var dashed := CollapseDashes(spaced);
    DashedSlugChars(spaced);
    var r := StripEdgeDashes(dashed);
    StrippedSlugChars(dashed);
    r
  }

  predicate AllSlugChars(s: string) {
    forall i :: 0 <= i < |s| ==> IsSlugChar(s[i])
  }

  lemma SpacedSlugChars(kept: string)
    requires forall i :: 0 <= i < |kept| ==> IsKept(kept[i])
    ensures AllSlugChars(CollapseSpaces(kept))
  {
    var spaced := CollapseSpaces(kept);
    forall i | 0 <= i < |spaced| ensures IsSlugChar(spaced[i]) {
      if spaced[i] != '-' {
        var k :| 0 <= k < |kept| && kept[k] == spaced[i];
      }
    }
  }

  lemma DashedSlugChars(spaced: string)
    requires AllSlugChars(spaced)
    ensures AllSlugChars(CollapseDashes(spaced))
  {
    var dashed := CollapseDashes(spaced);
    forall i | 0 <= i < |dashed| ensures IsSlugChar(dashed[i]) {
      if dashed[i] != '-' {
        var k :| 0 <= k < |spaced| && spaced[k] == dashed[i];
      }
    }
  }

  lemma StrippedSlugChars(dashed: string)
    requires NoDoubleDash(dashed) && AllSlugChars(dashed)
    ensures AllSlugChars(StripEdgeDashes(dashed))
  {
    var r := StripEdgeDashes(dashed);
    forall i | 0 <= i < |r| ensures IsSlugChar(r[i]) {
      var k :| 0 <= k < |dashed| && dashed[k] == r[i];
    }
  }

  // ----- Content: the letters and digits survive, in order -----

  /** The lower-case letters and digits of `s`, in order. */
  function AlnumOf(s: string): string {
    if s == [] then []
    else if IsLowerAlnum(s[0]) then [s[0]] + AlnumOf(s[1..])
    else AlnumOf(s[1..])
  }

  lemma {:induction false} AlnumOfConcat(a: string, b: string)
    ensures AlnumOf(a + b) == AlnumOf(a) + AlnumOf(b)
  {
    if a == [] {
      assert a + b == b;
    } else {
      assert (a + b)[0] == a[0];
      assert (a + b)[1..] == a[1..] + b;
      AlnumOfConcat(a[1..], b);
    }
  }

  /** Dropping a prefix of non-alphanumerics keeps the alphanumerics. */
  lemma {:induction false} AlnumOfDropped(s: string, k: nat)
    requires k <= |s|
    requires forall i :: 0 <= i < k ==> !IsLowerAlnum(s[i])
    ensures AlnumOf(s[k..]) == AlnumOf(s)
  {
    if k > 0 {
      assert s[1..][k - 1..] == s[k..];
      AlnumOfDropped(s[1..], k - 1);
    }
  }

  lemma {:induction false} KeepSlugCharsAlnum(s: string)
    ensures AlnumOf(KeepSlugChars(s)) == AlnumOf(s)
  {
    if s != [] {
      KeepSlugCharsAlnum(s[1..]);
    }
  }

  lemma {:induction false} CollapseSpacesAlnum(s: string)
    ensures AlnumOf(CollapseSpaces(s)) == AlnumOf(s)
    decreases |s|
  {
    if s != [] {
      if IsJsSpace(s[0]) {
        var rest := TrimStart(s);
        assert rest != s;
        assert CollapseSpaces(s) == "-" + CollapseSpaces(rest);
        CollapseSpacesAlnum(rest);
        AlnumOfDropped(s, |s| - |rest|);
      } else {
        CollapseSpacesAlnum(s[1..]);
      }
    }
  }

  lemma {:induction false} CollapseDashesAlnum(s: string)
    ensures AlnumOf(CollapseDashes(s)) == AlnumOf(s)
    decreases |s|
  {
    if s != [] {
      if s[0] == '-' {
        var rest := DropDashes(s);
        assert rest != s;
        var x := CollapseDashes(rest);
        assert CollapseDashes(s) == "-" + x;
        assert ("-" + x)[1..] == x;
        CollapseDashesAlnum(rest);
        AlnumOfDropped(s, |s| - |rest|);
      } else {
        var x := CollapseDashes(s[1..]);
        assert CollapseDashes(s) == [s[0]] + x;
        assert ([s[0]] + x)[1..] == x;
        CollapseDashesAlnum(s[1..]);
      }
    }
  }

  lemma StripEdgeDashesAlnum(s: string)
    requires NoDoubleDash(s)
    ensures AlnumOf(StripEdgeDashes(s)) == AlnumOf(s)
  {
    LeadingDashAlnum(s);
    TrailingDashAlnum(DropLeadingDash(s));
  }

  lemma LeadingDashAlnum(s: string)
    requires NoDoubleDash(s)
    ensures AlnumOf(DropLeadingDash(s)) == AlnumOf(s)
  {
    if DropLeadingDash(s) != s {
      AlnumOfDropped(s, 1);
    }
  }

  lemma TrailingDashAlnum(t: string)
    requires NoDoubleDash(t)
    ensures AlnumOf(DropTrailingDash(t)) == AlnumOf(t)
  {
    var u := DropTrailingDash(t);
    if u != t {
      var last := t[|t| - 1];
      assert t == u + [last];
      AlnumOfConcat(u, [last]);
      assert AlnumOf([last]) == [] by {
        assert [last][1..] == [];
      }
      assert u + [] == u;
    }
  }

  /** The slug keeps exactly the letters and digits of the lower-cased title, in their order. */
  lemma SanitizeKeepsAlnum(text: string)
    ensures AlnumOf(Sanitize(text)) == AlnumOf(Lowered(text))
  {
    var kept := KeepSlugChars(Lowered(text));
    KeepSlugCharsAlnum(Lowered(text));
    CollapseSpacesAlnum(kept);
    CollapseDashesAlnum(CollapseSpaces(kept));
    StripEdgeDashesAlnum(CollapseDashes(CollapseSpaces(kept)));
  }

  // ----- Idempotence: every step leaves a slug unchanged -----

  lemma {:induction false} LoweredSlug(s: string)
    requires forall i :: 0 <= i < |s| ==> IsSlugChar(s[i])
    ensures Lowered(s) == s
  {
    if s != [] {
      LoweredSlug(s[1..]);
      assert [s[0]] + s[1..] == s;
    }
  }

  lemma {:induction false} KeepSlugCharsSlug(s: string)
    requires forall i :: 0 <= i < |s| ==> IsSlugChar(s[i])
    ensures KeepSlugChars(s) == s
  {
    if s != [] {
      KeepSlugCharsSlug(s[1..]);
      assert [s[0]] + s[1..] == s;
    }
  }

  lemma {:induction false} CollapseSpacesSlug(s: string)
    requires forall i :: 0 <= i < |s| ==> IsSlugChar(s[i])
    ensures CollapseSpaces(s) == s
  {
    if s != [] {
      assert !IsJsSpace(s[0]);
      CollapseSpacesSlug(s[1..]);
      assert [s[0]] + s[1..] == s;
    }
  }

  lemma {:induction false} CollapseDashesSlug(s: string)
    requires NoDoubleDash(s)
    ensures CollapseDashes(s) == s
    decreases |s|
  {
    if s != [] {
      var t := s[1..];
      assert NoDoubleDash(t) by {
        forall i | 0 <= i < |t| - 1 ensures !(t[i] == '-' && t[i + 1] == '-') {
          assert t[i] == s[i + 1] && t[i + 1] == s[i + 2];
        }
      }
      CollapseDashesSlug(t);
      if s[0] == '-' {
        assert DropDashes(s) == t by {
          if |s| >= 2 { assert !(s[0] == '-' && s[1] == '-'); }
        }
        assert CollapseDashes(s) == "-" + CollapseDashes(t);
      } else {
        assert CollapseDashes(s) == [s[0]] + CollapseDashes(t);
      }
      assert [s[0]] + t == s;
    }
  }

  /** `sanitizeFilename` leaves a slug unchanged. */
  lemma SanitizeFixesSlugs(s: string)
    requires IsSlug(s)
    ensures Sanitize(s) == s
  {
    LoweredSlug(s);
    KeepSlugCharsSlug(s);
    CollapseSpacesSlug(s);
    CollapseDashesSlug(s);
  }

  /** `sanitizeFilename` is idempotent. */
  lemma SanitizeIdempotent(text: string)
    ensures Sanitize(Sanitize(text)) == Sanitize(text)
  {
    SanitizeFixesSlugs(Sanitize(text));
  }

  /** The slug of a title made only of punctuation is empty (the note is then written as `-<date>.md`). */
  lemma SanitizePunctuationOnly()
    ensures Sanitize("!?!") == ""
  {
    assert Lowered("!?!") == "!?!";
    assert KeepSlugChars("!?!") == "";
  }

}

=== FILE: text.dfy ===
/** The optional value used wherever the source returns `null`, `undefined` or "no match". */
module Opt {
  datatype Option<+T> = None | Some(value: T) {
    function GetOr(default: T): T {
      match this
      case Some(v) => v
      case None => default
    }
  }
}

/**
 The string primitives of JavaScript that the extension relies on, stated over
 `seq<char>`: the `\s` character class and `trim`, `includes`, `startsWith`,
 `endsWith`, `indexOf`, `split('\n')` / `join('\n')`, `replace` of one
 character everywhere, `padStart` and decimal rendering of naturals.
 */
module Text {
  import opened Opt

  /** JavaScript's WhiteSpace and LineTerminator code points: the `\s` class and what `trim` removes. */
  predicate IsJsSpace(c: char) {
    || c == ' ' || c == '\t' || c == '\n' || c == '\r' || c == '\U{000B}' || c == '\U{000C}'
    || c == '\U{00A0}' || c == '\U{1680}' || ('\U{2000}' <= c <= '\U{200A}')
    || c == '\U{2028}' || c == '\U{2029}' || c == '\U{202F}' || c == '\U{205F}'
    || c == '\U{3000}' || c == '\U{FEFF}'
  }

  /** The code points that `.` in a regular expression without the `s` flag does not match. */
  predicate IsLineTerminator(c: char) {
    c == '\n' || c == '\r' || c == '\U{2028}' || c == '\U{2029}'
  }

  /** ASCII decimal digit: what `\d` matches. */
  predicate IsDigit(c: char) {
    '0' <= c <= '9'
  }

  predicate AllDigits(s: string) {
    forall i :: 0 <= i < |s| ==> IsDigit(s[i])
  }

  predicate NoLineTerminator(s: string) {
    forall i :: 0 <= i < |s| ==> !IsLineTerminator(s[i])
  }

  /** `s.startsWith(p)` */
  predicate StartsWith(s: string, p: string) {
    |p| <= |s| && s[..|p|] == p
  }

  /** `s.endsWith(p)` */
  predicate EndsWith(s: string, p: string) {
    |p| <= |s| && s[|s| - |p|..] == p
  }

  /** `pat` occurs in `s` starting at index `i`. */
  predicate OccursAt(s: string, pat: string, i: nat) {
    i + |pat| <= |s| && s[i..i + |pat|] == pat
  }

  /** `s.indexOf(pat, from)`: the leftmost occurrence at or after `from`. */
  function IndexFrom(s: string, pat: string, from: nat): (r: Option<nat>)
    ensures r.Some? ==> from <= r.value && OccursAt(s, pat, r.value)
    ensures r.Some? ==> forall j :: from <= j < r.value ==> !OccursAt(s, pat, j)
    ensures r.None? ==> forall j :: from <= j ==> !OccursAt(s, pat, j)
    decreases |s| - from
  {
    if from + |pat| > |s| then None
    else if s[from..from + |pat|] == pat then Some(from)
    else IndexFrom(s, pat, from + 1)
  }

  /** `s.indexOf(pat)` */
  function IndexOf(s: string, pat: string): (r: Option<nat>)
    ensures r.Some? ==> OccursAt(s, pat, r.value)
    ensures r.Some? ==> forall j :: 0 <= j < r.value ==> !OccursAt(s, pat, j)
    ensures r.None? ==> forall j :: 0 <= j ==> !OccursAt(s, pat, j)
  {
    IndexFrom(s, pat, 0)
  }

  /** `s.includes(pat)` */
  predicate Contains(s: string, pat: string) {
    IndexOf(s, pat).Some?
  }

  lemma ContainsAt(s: string, pat: string, i: nat)
    requires OccursAt(s, pat, i)
    ensures Contains(s, pat)
  {
  }

  /** An occurrence inside the right operand of a concatenation is an occurrence in the whole. */
  lemma OccursInSuffix(a: string, b: string, pat: string, i: nat)
    requires OccursAt(b, pat, i)
    ensures OccursAt(a + b, pat, |a| + i)
  {
    assert (a + b)[|a| + i..|a| + i + |pat|] == b[i..i + |pat|];
  }

  /** An occurrence inside the left operand of a concatenation is an occurrence in the whole. */
  lemma OccursInPrefix(a: string, b: string, pat: string, i: nat)
    requires OccursAt(a, pat, i)
    ensures OccursAt(a + b, pat, i)
  {
    assert (a + b)[i..i + |pat|] == a[i..i + |pat|];
  }

  /** Leading JavaScript whitespace removed. */
  function TrimStart(s: string): (r: string)
    ensures |r| <= |s| && r == s[|s| - |r|..]
    ensures r == [] || !IsJsSpace(r[0])
    ensures forall i :: 0 <= i < |s| - |r| ==> IsJsSpace(s[i])
  {
    if s == [] || !IsJsSpace(s[0]) then s else TrimStart(s[1..])
  }

  /** Trailing JavaScript whitespace removed. */
  function TrimEnd(s: string): (r: string)
    ensures |r| <= |s| && r == s[..|r|]
    ensures r == [] || !IsJsSpace(r[|r| - 1])
    ensures forall i :: |r| <= i < |s| ==> IsJsSpace(s[i])
  {
    if s == [] || !IsJsSpace(s[|s| - 1]) then s else TrimEnd(s[..|s| - 1])
  }

  /** `s.trim()` */
  function Trim(s: string): string {
    TrimEnd(TrimStart(s))
  }

  /** `s.replace(/a/g, b)` for a single character `a`. */
  function ReplaceAll(s: string, a: char, b: char): (r: string)
    ensures |r| == |s|
    ensures forall i :: 0 <= i < |s| ==> r[i] == (if s[i] == a then b else s[i])
  {
    if s == [] then [] else [if s[0] == a then b else s[0]] + ReplaceAll(s[1..], a, b)
  }

  /** Replacing a character in a concatenation replaces it in each part. */
  lemma ReplaceAllConcat(s: string, t: string, a: char, b: char)
    ensures ReplaceAll(s + t, a, b) == ReplaceAll(s, a, b) + ReplaceAll(t, a, b)
  {
    var l, r := ReplaceAll(s + t, a, b), ReplaceAll(s, a, b) + ReplaceAll(t, a, b);
    forall i | 0 <= i < |l| ensures l[i] == r[i] {
      if i < |s| { assert (s + t)[i] == s[i]; } else { assert (s + t)[i] == t[i - |s|]; }
    }
  }

  /**
   `s.replace(pat, rep)` with a string pattern: the leftmost occurrence is
   replaced and everything around it kept; without one, `s` is unchanged.
   */
  function ReplaceFirst(s: string, pat: string, rep: string): (r: string)
    ensures (forall j: nat :: !OccursAt(s, pat, j)) ==> r == s
    ensures forall i: nat :: OccursAt(s, pat, i) && (forall j :: 0 <= j < i ==> !OccursAt(s, pat, j)) ==>
      r == s[..i] + rep + s[i + |pat|..]
  {
    match IndexOf(s, pat)
    case None => s
    case Some(i) => s[..i] + rep + s[i + |pat|..]
  }

  /** `s.split(sep)`: always at least one piece; no piece contains `sep`. */
  function Split(s: string, sep: char): (r: seq<string>)
    ensures |r| >= 1
    ensures forall k :: 0 <= k < |r| ==> sep !in r[k]
    decreases |s|
  {
    if s == [] then [""]
    else
      var rest := Split(s[1..], sep);
      if s[0] == sep then [""] + rest else [[s[0]] + rest[0]] + rest[1..]
  }

  /** `lines.join(sep)` */
  function Join(lines: seq<string>, sep: char): string
  {
    if |lines| == 0 then ""
    else if |lines| == 1 then lines[0]
    else lines[0] + [sep] + Join(lines[1..], sep)
  }

  /** Joining the pieces of a split gives back the original string. */
  lemma {:induction false} JoinSplit(s: string, sep: char)
    ensures Join(Split(s, sep), sep) == s
    decreases |s|
  {
    if s != [] {
      var rest := Split(s[1..], sep);
      JoinSplit(s[1..], sep);
      if s[0] == sep {
        assert Split(s, sep) == [""] + rest;
        assert Join([""] + rest, sep) == "" + [sep] + Join(rest, sep);
        assert [s[0]] + s[1..] == s;
      } else {
        var r := Split(s, sep);
        assert r == [[s[0]] + rest[0]] + rest[1..];
        if |rest| == 1 {
          assert Join(r, sep) == [s[0]] + rest[0];
          assert Join(rest, sep) == rest[0];
        } else {
          assert r[1..] == rest[1..];
          assert Join(r, sep) == [s[0]] + rest[0] + [sep] + Join(rest[1..], sep);
          assert Join(rest, sep) == rest[0] + [sep] + Join(rest[1..], sep);
        }
        assert [s[0]] + s[1..] == s;
      }
    }
  }

  /** Splitting a string that starts with a separator-free `line` followed by the separator. */
  lemma {:induction false} SplitLine(line: string, rest: string, sep: char)
    requires sep !in line
    ensures Split(line + [sep] + rest, sep) == [line] + Split(rest, sep)
    decreases |line|
  {
    if line == [] {
      assert line + [sep] + rest == [sep] + rest;
      assert ([sep] + rest)[1..] == rest;
    } else {
      var s := line + [sep] + rest;
      assert s[0] == line[0];
      assert s[1..] == line[1..] + [sep] + rest;
      SplitLine(line[1..], rest, sep);
      assert [line[0]] + line[1..] == line;
    }
  }

  /** Splitting the last, separator-free line. */
  lemma {:induction false} SplitNoSep(line: string, sep: char)
    requires sep !in line
    ensures Split(line, sep) == [line]
    decreases |line|
  {
    if line != [] {
      assert line[1..] == line[1..];
      SplitNoSep(line[1..], sep);
      assert [line[0]] + line[1..] == line;
    }
  }

  /** Splitting a join of separator-free lines gives back the lines. */
  lemma {:induction false} SplitJoin(lines: seq<string>, sep: char)
    requires |lines| >= 1
    requires forall k :: 0 <= k < |lines| ==> sep !in lines[k]
    ensures Split(Join(lines, sep), sep) == lines
    decreases |lines|
  {
    if |lines| == 1 {
      SplitNoSep(lines[0], sep);
    } else {
      SplitJoin(lines[1..], sep);
      SplitLine(lines[0], Join(lines[1..], sep), sep);
      assert [lines[0]] + lines[1..] == lines;
    }
  }

  /** Decimal digit of a value below ten. */
  function DigitChar(d: nat): (c: char)
    requires d < 10
    ensures IsDigit(c)
  {
    ['0', '1', '2', '3', '4', '5', '6', '7', '8', '9'][d]
  }

  /** Value of an ASCII digit. */
  function DigitValue(c: char): (d: nat)
    requires IsDigit(c)
    ensures d < 10
  {
    (c as int) - ('0' as int)
  }

  /** `String(n)` for a natural number: shortest decimal rendering. */
  function NatToString(n: nat): (r: string)
    ensures |r| >= 1 && AllDigits(r)
    ensures n < 10 ==> |r| == 1
    ensures n >= 10 ==> |r| >= 2
  {
    if n < 10 then [DigitChar(n)] else NatToString(n / 10) + [DigitChar(n % 10)]
  }

  /** `String(i)` for any integer. */
  function IntToString(i: int): string {
    if i < 0 then "-" + NatToString(-i) else NatToString(i)
  }

  /** The value of a string of decimal digits, as `parseInt` reads it. */
  function DigitsValue(s: string): nat
    requires AllDigits(s)
  {
    if s == [] then 0 else DigitsValue(s[..|s| - 1]) * 10 + DigitValue(s[|s| - 1])
  }

  /** Reading back a rendered natural gives the natural. */
  lemma {:induction false} NatToStringValue(n: nat)
    ensures DigitsValue(NatToString(n)) == n
  {
    if n >= 10 {
      var r := NatToString(n);
      NatToStringValue(n / 10);
      assert r[..|r| - 1] == NatToString(n / 10);
    }
  }

  /** `s.padStart(width, c)` */
  function PadStart(s: string, width: nat, c: char): (r: string)
    ensures |r| == if |s| >= width then |s| else width
    ensures EndsWith(r, s)
    ensures forall i :: 0 <= i < |r| - |s| ==> r[i] == c
  {
    if |s| >= width then s else seq(width - |s|, _ => c) + s
  }

  /** Leading zeros do not change the value read by `parseInt`. */
  lemma {:induction false} LeadingZerosValue(z: nat, s: string)
    requires AllDigits(s)
    ensures AllDigits(seq(z, _ => '0') + s)
    ensures DigitsValue(seq(z, _ => '0') + s) == DigitsValue(s)
    decreases |s|
  {
    var t := seq(z, _ => '0') + s;
    if s == [] {
      assert t == seq(z, _ => '0');
      ZerosValue(z);
    } else {
      LeadingZerosValue(z, s[..|s| - 1]);
      assert t[..|t| - 1] == seq(z, _ => '0') + s[..|s| - 1];
    }
  }

  lemma {:induction false} ZerosValue(z: nat)
    ensures AllDigits(seq(z, _ => '0'))
    ensures DigitsValue(seq(z, _ => '0')) == 0
  {
    if z > 0 {
      ZerosValue(z - 1);
      assert seq(z, _ => '0')[..z - 1] == seq(z - 1, _ => '0');
    }
  }

  /** A natural padded to `width` digits with zeros reads back as the natural. */
  lemma PaddedValue(n: nat, width: nat)
    ensures AllDigits(PadStart(NatToString(n), width, '0'))
    ensures DigitsValue(PadStart(NatToString(n), width, '0')) == n
  {
    var s := NatToString(n);
    NatToStringValue(n);
    if |s| < width {
      assert PadStart(s, width, '0') == seq(width - |s|, _ => '0') + s;
      LeadingZerosValue(width - |s|, s);
    } else {
      assert PadStart(s, width, '0') == s;
    }
  }
}

=== FILE: timeledger.dfy ===
/**
 The time ledger: an Idle/Tracking state held in the `active_session.json`
 sentinel file, and one append-only list of entries per month file
 `time_entries_<YYYY>-<MM>.json`.

 The clock, the host's time-zone offset and the rendering of instants as
 text are inputs. A `Clock` carries the instant, the host's offset from UTC
 at that instant, and the instant as the configured time zone renders it.
 */
module TimeLedger {
  import opened Opt
  import opened Text
  import opened Dates

  datatype TimeEntry = TimeEntry(startTime: string, endTime: string, description: string, durationMinutes: int)

  datatype Session = Session(startTime: string, description: string)

  /** Month file name to its entries; a name absent from the map is a file that does not exist. */
  type Ledger = map<string, seq<TimeEntry>>

  /** The sentinel file's content (`None`: no file, so Idle) and the ledger. */
  datatype Tracker = Tracker(session: Option<Session>, ledger: Ledger)

  datatype Clock = Clock(nowMs: int, offsetMs: int, stamp: string)

  /** The answer to "Time tracking is already active"; dismissing the dialog is `Cancel`. */
  datatype Choice = StopAndStartNew | Cancel

  const LedgerPrefix: string := "time_entries_"
  const LedgerSuffix: string := ".json"

  /** The ledger file of a period, as both the tracker and the invoice generator name it. */
  function PeriodFileName(period: string): (r: string)
    ensures StartsWith(r, LedgerPrefix) && EndsWith(r, LedgerSuffix)
    ensures |r| == |LedgerPrefix| + |period| + |LedgerSuffix|
    ensures r[|LedgerPrefix|..|r| - |LedgerSuffix|] == period
  {
    LedgerPrefix + period + LedgerSuffix
  }

  /** `${year}-${String(month).padStart(2, '0')}` */
  function MonthPeriod(year: int, month: int): string
    requires 1 <= month <= 12
  {
    IntToString(year) + "-" + PadStart(NatToString(month), 2, '0')
  }

  /** The month file for a local calendar date (`getFullYear`, `getMonth() + 1`). */
  function MonthlyFileName(c: Civil): string
    requires 1 <= c.month <= 12
  {
    PeriodFileName(MonthPeriod(c.year, c.month))
  }

  lemma FourDigitNumber(n: nat)
    requires 1000 <= n <= 9999
    ensures |NatToString(n)| == 4
  {
    assert |NatToString(n / 1000)| == 1;
    assert NatToString(n / 100) == NatToString(n / 100 / 10) + [DigitChar(n / 100 % 10)];
    assert NatToString(n / 10) == NatToString(n / 10 / 10) + [DigitChar(n / 10 % 10)];
  }

  lemma TwoDigitField(m: nat)
    requires m < 100
    ensures |PadStart(NatToString(m), 2, '0')| == 2
  {
    if m >= 10 {
      assert NatToString(m) == NatToString(m / 10) + [DigitChar(m % 10)];
    }
  }

  /** Four digits, a dash and two digits form a period text, and the fields read back. */
  lemma PeriodOfFields(y: string, m: string)
    requires |y| == 4 && AllDigits(y) && |m| == 2 && AllDigits(m)
    ensures IsPeriodText(y + "-" + m)
    ensures (y + "-" + m)[..4] == y && (y + "-" + m)[5..] == m
  {
    var p := y + "-" + m;
    assert p[0] == y[0] && p[1] == y[1] && p[2] == y[2] && p[3] == y[3] && p[4] == '-';
    assert p[5] == m[0] && p[6] == m[1];
  }

  /** A four-digit year prints as four digits that read back as the year. */
  lemma YearField(year: int)
    requires 1000 <= year <= 9999
    ensures |IntToString(year)| == 4 && AllDigits(IntToString(year))
    ensures DigitsValue(IntToString(year)) == year
  {
    FourDigitNumber(year);
    NatToStringValue(year);
  }

  /** A month prints as two zero-padded digits that read back as the month. */
  lemma MonthField(month: int)
    requires 1 <= month <= 12
    ensures |PadStart(NatToString(month), 2, '0')| == 2 && AllDigits(PadStart(NatToString(month), 2, '0'))
    ensures DigitsValue(PadStart(NatToString(month), 2, '0')) == month
  {
    TwoDigitField(month);
    PaddedValue(month, 2);
  }

  /** For a four-digit year the month period is `YYYY-MM` and reads back as that year and month. */
  lemma MonthPeriodReadsBack(year: int, month: int)
    requires 1000 <= year <= 9999 && 1 <= month <= 12
    ensures |MonthPeriod(year, month)| == 7
    ensures IsPeriodText(MonthPeriod(year, month))
    ensures PeriodYearOf(MonthPeriod(year, month)) == year
    ensures PeriodMonthOf(MonthPeriod(year, month)) == month
  {
    var y := IntToString(year);
    var m := PadStart(NatToString(month), 2, '0');
    YearField(year);
    MonthField(month);
    PeriodOfFields(y, m);
  }

  /** Two local dates (four-digit years) share a month file exactly when they share year and month. */
  lemma MonthlyFileNameInjective(a: Civil, b: Civil)
    requires 1000 <= a.year <= 9999 && 1 <= a.month <= 12
    requires 1000 <= b.year <= 9999 && 1 <= b.month <= 12
    ensures MonthlyFileName(a) == MonthlyFileName(b) <==> a.year == b.year && a.month == b.month
  {
    if MonthlyFileName(a) == MonthlyFileName(b) {
      var pa := MonthPeriod(a.year, a.month);
      var pb := MonthPeriod(b.year, b.month);
      MonthPeriodReadsBack(a.year, a.month);
      MonthPeriodReadsBack(b.year, b.month);
      assert pa == pb by {
        var f := MonthlyFileName(a);
        assert pa == f[|LedgerPrefix|..|f| - |LedgerSuffix|];
        assert |pa| == |pb| == 7;
      }
    }
  }

  /** The entries stored in a file; a missing file reads as no entries. */
  function Entries(ledger: Ledger, file: string): seq<TimeEntry> {
    if file in ledger then ledger[file] else []
  }

  /** `saveTimeEntry`: read the month file (empty when missing), push, write back. */
  function SaveTimeEntry(ledger: Ledger, file: string, entry: TimeEntry): (r: Ledger)
    ensures Entries(r, file) == Entries(ledger, file) + [entry]
    ensures r.Keys == ledger.Keys + {file}
    ensures forall k :: k in ledger && k != file ==> r[k] == ledger[k]
  {
    ledger[file := Entries(ledger, file) + [entry]]
  }

  /** Saving never loses, reorders or alters an entry already on file. */
  lemma SaveKeepsHistory(ledger: Ledger, file: string, entry: TimeEntry, k: string)
    ensures |Entries(SaveTimeEntry(ledger, file, entry), k)| >= |Entries(ledger, k)|
    ensures Entries(SaveTimeEntry(ledger, file, entry), k)[..|Entries(ledger, k)|] == Entries(ledger, k)
  {
  }

  /** `Math.round(ms / 60000)`: the nearest whole minute, halves rounded up. */
  function RoundMinutes(ms: int): (r: int)
    ensures r * MsPerMinute - MsPerMinute / 2 <= ms < r * MsPerMinute + MsPerMinute / 2
  {
    (ms + MsPerMinute / 2) / MsPerMinute
  }

  /** `Math.round(x)` on a real: the nearest integer, halves rounded up. */
  function Round(x: real): (r: int)
    ensures r as real - 0.5 <= x < r as real + 0.5
  {
    (x + 0.5).Floor
  }

  /** JavaScript's `a % b` for `b > 0`: the remainder takes the sign of `a`. */
  function JsRem(a: int, b: int): (r: int)
    requires b > 0
    ensures a >= 0 ==> r == a % b
    ensures a < 0 ==> -b < r <= 0
  {
    if a >= 0 then a % b else -((-a) % b)
  }

  datatype Stopped = Stopped(tracker: Tracker, entry: Option<TimeEntry>)

  /**
   `stopTracking`. `startMs` is the session's stored start text read back as
   an instant. The entry lasts the time from that start to now, rounded to
   the nearest minute, and goes to the month file of the stop instant.
   */
  function Stop(t: Tracker, clock: Clock, startMs: int): (r: Stopped)
    ensures t.session.None? ==> r.entry.None? && r.tracker == t
    ensures t.session.Some? ==> r.entry.Some? && r.tracker.session.None?
    ensures t.session.Some? ==>
      && r.entry.value.startTime == t.session.value.startTime
      && r.entry.value.description == t.session.value.description
      && r.entry.value.endTime == clock.stamp
    ensures t.session.Some? ==>
      var minutes := r.entry.value.durationMinutes;
      && minutes == RoundMinutes(clock.nowMs - startMs)
      && minutes * MsPerMinute - MsPerMinute / 2 <= clock.nowMs - startMs < minutes * MsPerMinute + MsPerMinute / 2
    ensures t.session.Some? ==>
      var file := MonthlyFileName(LocalCivil(clock.nowMs, clock.offsetMs));
      && Entries(r.tracker.ledger, file) == Entries(t.ledger, file) + [r.entry.value]
      && r.tracker.ledger.Keys == t.ledger.Keys + {file}
      && forall k :: k in t.ledger && k != file ==> r.tracker.ledger[k] == t.ledger[k]
  {
    match t.session
    case None => Stopped(t, None)
    case Some(s) =>
      var entry := TimeEntry(s.startTime, clock.stamp, s.description, RoundMinutes(clock.nowMs - startMs));
      var file := MonthlyFileName(LocalCivil(clock.nowMs, clock.offsetMs));
      Stopped(Tracker(None, SaveTimeEntry(t.ledger, file, entry)), Some(entry))
  }

  /**
   `startTracking`. While a session is running, only "Stop & Start New"
   proceeds: it stops the running session first.
   */
  function Start(t: Tracker, description: string, clock: Clock, choice: Choice, startMs: int): (r: Tracker)
    ensures t.session.Some? && choice == Cancel ==> r == t
    ensures t.session.None? ==> r == Tracker(Some(Session(clock.stamp, description)), t.ledger)
    ensures t.session.Some? && choice == StopAndStartNew ==>
      r == Tracker(Some(Session(clock.stamp, description)), Stop(t, clock, startMs).tracker.ledger)
  {
    if t.session.Some? && choice == Cancel then t
    else
      var ledger := if t.session.Some? then Stop(t, clock, startMs).tracker.ledger else t.ledger;
      Tracker(Some(Session(clock.stamp, description)), ledger)
  }

  /**
   The instant `new Date(session.start_time)` gives back. The start text is
   the configured zone's wall-clock time to the second with no offset
   (`sv-SE` formatting), and a text without an offset is parsed in the
   host's zone: the host's wall clock at the result is the configured
   zone's wall clock at the start, cut to the second.
   */
  function ReadBackStart(startMs: int, zoneOffsetMs: int, hostOffsetMs: int): (r: int)
    ensures r + hostOffsetMs <= startMs + zoneOffsetMs < r + hostOffsetMs + MsPerSecond
    ensures (r + hostOffsetMs) % MsPerSecond == 0
    ensures zoneOffsetMs == hostOffsetMs ==> r <= startMs < r + MsPerSecond
  {
    (startMs + zoneOffsetMs) / MsPerSecond * MsPerSecond - hostOffsetMs
  }

  /**
   A start text that keeps the instant (an ISO text with its offset), read
   back to the second whatever the two zones are.
   */
  function ReadBackStartCorrected(startMs: int): (r: int)
    ensures r <= startMs < r + MsPerSecond
    ensures r % MsPerSecond == 0
  {
    startMs / MsPerSecond * MsPerSecond
  }

  /**
   Start from Idle, then stop, with the start read back as the code does:
   back to Idle with exactly one more entry carrying the session's text.
   Its duration is the elapsed time shifted by the host's offset minus the
   configured zone's offset (plus the cut second), so it is the elapsed
   time only when the two zones agree.
   */
  lemma StartThenStop(t: Tracker, description: string, c1: Clock, c2: Clock, choice: Choice, zoneOffsetMs: int)
    requires t.session.None?
    ensures var startMs := ReadBackStart(c1.nowMs, zoneOffsetMs, c1.offsetMs);
      var s := Stop(Start(t, description, c1, choice, startMs), c2, startMs);
      var file := MonthlyFileName(LocalCivil(c2.nowMs, c2.offsetMs));
      && s.tracker.session.None?
      && s.entry.Some? && s.entry.value.startTime == c1.stamp && s.entry.value.endTime == c2.stamp
      && s.entry.value.description == description
      && s.entry.value.durationMinutes
         == RoundMinutes(c2.nowMs - c1.nowMs + (c1.offsetMs - zoneOffsetMs) + (c1.nowMs + zoneOffsetMs) % MsPerSecond)
      && Entries(s.tracker.ledger, file) == Entries(t.ledger, file) + [s.entry.value]
  {
    var startMs := ReadBackStart(c1.nowMs, zoneOffsetMs, c1.offsetMs);
    assert c2.nowMs - startMs
        == c2.nowMs - c1.nowMs + (c1.offsetMs - zoneOffsetMs) + (c1.nowMs + zoneOffsetMs) % MsPerSecond;
  }

  /**
   When the host runs in the configured zone, the duration is the elapsed
   time to the nearest minute, give or take the cut second, and exactly the
   elapsed minutes when a whole number of minutes has passed.
   */
  lemma SameZoneDuration(c1: Clock, c2: Clock, d: int)
    requires d == RoundMinutes(c2.nowMs - ReadBackStart(c1.nowMs, c1.offsetMs, c1.offsetMs))
    ensures d * MsPerMinute - MsPerMinute / 2 - MsPerSecond < c2.nowMs - c1.nowMs < d * MsPerMinute + MsPerMinute / 2
    ensures (c2.nowMs - c1.nowMs) % MsPerMinute == 0 ==> d == (c2.nowMs - c1.nowMs) / MsPerMinute
  {
    var startMs := ReadBackStart(c1.nowMs, c1.offsetMs, c1.offsetMs);
    var e := c2.nowMs - c1.nowMs;
    if e % MsPerMinute == 0 {
      var k := e / MsPerMinute;
      assert k * MsPerMinute <= c2.nowMs - startMs < k * MsPerMinute + MsPerSecond;
      assert d == k by {
        assert d * MsPerMinute - MsPerMinute / 2 < k * MsPerMinute + MsPerMinute / 2;
        assert k * MsPerMinute - MsPerMinute / 2 < d * MsPerMinute + MsPerMinute / 2;
      }
    }
  }

  /**
   The host on UTC, the configured zone six hours west: a session started
   at 15:00 UTC and stopped at 16:35 UTC is filed as 455 minutes, not 95.
   */
  lemma HostZoneSkew(t: Tracker, description: string, c1: Clock, c2: Clock)
    requires t.session.None?
    requires c1.nowMs == 15 * MsPerHour && c1.offsetMs == 0 && c2.nowMs == c1.nowMs + 95 * MsPerMinute
    ensures var startMs := ReadBackStart(c1.nowMs, -6 * MsPerHour, c1.offsetMs);
      Stop(Start(t, description, c1, StopAndStartNew, startMs), c2, startMs).entry.value.durationMinutes == 455
  {
    StartThenStop(t, description, c1, c2, StopAndStartNew, -6 * MsPerHour);
  }

  /**
   With the start kept as an instant, starting then stopping files the
   elapsed time to the nearest minute, give or take the cut second, in
   every pair of zones; a whole number of minutes is filed exactly.
   */
  lemma StartThenStopCorrected(t: Tracker, description: string, c1: Clock, c2: Clock, choice: Choice)
    requires t.session.None?
    ensures var startMs := ReadBackStartCorrected(c1.nowMs);
      var s := Stop(Start(t, description, c1, choice, startMs), c2, startMs);
      var d := s.entry.value.durationMinutes;
      && s.entry.Some? && s.tracker.session.None?
      && d * MsPerMinute - MsPerMinute / 2 - MsPerSecond < c2.nowMs - c1.nowMs < d * MsPerMinute + MsPerMinute / 2
      && ((c2.nowMs - c1.nowMs) % MsPerMinute == 0 ==> d == (c2.nowMs - c1.nowMs) / MsPerMinute)
  {
    var startMs := ReadBackStartCorrected(c1.nowMs);
    assert startMs == ReadBackStart(c1.nowMs, 0, 0);
    SameZoneDuration(Clock(c1.nowMs, 0, c1.stamp), c2, RoundMinutes(c2.nowMs - startMs));
  }

  /** Stopping twice: the second stop finds no session and changes nothing. */
  lemma StopIdempotent(t: Tracker, c1: Clock, c2: Clock, startMs: int)
    ensures var s := Stop(t, c1, startMs).tracker;
      Stop(s, c2, startMs) == Stopped(s, None)
  {
  }

  /** `Math.floor(m / 60)` and `m % 60` for the "Xh Ym" messages. */
  function SplitMinutes(m: int): (r: (int, int))
    ensures m >= 0 ==> r.0 * 60 + r.1 == m && 0 <= r.1 < 60 && r.0 >= 0
  {
    (m / 60, JsRem(m, 60))
  }

  /**
   `getRunningDuration`: `''` without a session, else `H:MM` for `diffMs`,
   the time since the start as `ReadBackStart` gives it back.
   */
  function RunningDuration(session: Option<Session>, diffMs: int): (r: string)
    ensures session.None? <==> r == ""
    ensures session.Some? && diffMs >= 0 ==>
      && |r| >= 4 && r[|r| - 3] == ':'
      && AllDigits(r[..|r| - 3]) && AllDigits(r[|r| - 2..])
      && DigitsValue(r[|r| - 2..]) < 60
      && DigitsValue(r[..|r| - 3]) * 60 + DigitsValue(r[|r| - 2..]) == diffMs / MsPerMinute
  {
    match session
    case None => ""
    case Some(_) =>
      var hours := diffMs / MsPerHour;
      var minutes := JsRem(diffMs, MsPerHour) / MsPerMinute;
      assert diffMs >= 0 ==> minutes < 60 && hours * 60 + minutes == diffMs / MsPerMinute by {
        if diffMs >= 0 {
          HourMinuteSplit(diffMs);
        }
      }
      ClockText(hours, minutes)
  }

  /** `${hours}:${String(minutes).padStart(2, '0')}`, which reads back as the hours and the minutes. */
  function ClockText(hours: int, minutes: int): (r: string)
    ensures r != ""
    ensures hours >= 0 && 0 <= minutes < 60 ==>
      && |r| >= 4 && r[|r| - 3] == ':'
      && AllDigits(r[..|r| - 3]) && AllDigits(r[|r| - 2..])
      && DigitsValue(r[|r| - 2..]) == minutes
      && DigitsValue(r[..|r| - 3]) == hours
  {
    var h := IntToString(hours);
    var m := PadStart(IntToString(minutes), 2, '0');
    ClockFieldsOf(hours, minutes);
    ClockReads(h, m, hours, minutes);
    h + ":" + m
  }

  /** `h` and `m` are digit fields holding `hours` and two-digit `minutes`. */
  predicate ClockFields(h: string, m: string, hours: int, minutes: int) {
    |m| == 2 && h != [] && AllDigits(h) && AllDigits(m) && DigitsValue(h) == hours && DigitsValue(m) == minutes
  }

  lemma ClockFieldsOf(hours: int, minutes: int)
    ensures hours >= 0 && 0 <= minutes < 60 ==>
      ClockFields(IntToString(hours), PadStart(IntToString(minutes), 2, '0'), hours, minutes)
  {
    if hours >= 0 && 0 <= minutes < 60 {
      var h := IntToString(hours);
      var m := PadStart(IntToString(minutes), 2, '0');
      assert h == NatToString(hours);
      assert m == PadStart(NatToString(minutes), 2, '0');
      TwoDigitField(minutes);
      PaddedValue(minutes, 2);
      NatToStringValue(hours);
    }
  }

  /** `h:mm` with digit fields `h` and `m` reads back as their values. */
  lemma ClockReads(h: string, m: string, hours: int, minutes: int)
    ensures ClockFields(h, m, hours, minutes) ==> var r := h + ":" + m;
      && |r| >= 4 && r[|r| - 3] == ':'
      && AllDigits(r[..|r| - 3]) && AllDigits(r[|r| - 2..])
      && DigitsValue(r[|r| - 2..]) == minutes
      && DigitsValue(r[..|r| - 3]) == hours
  {
    if ClockFields(h, m, hours, minutes) {
      ClockShape(h, m);
    }
  }

  /** The two sides of `h:mm` are found again at fixed distances from its end. */
  lemma ClockShape(h: string, m: string)
    requires |m| == 2 && h != []
    ensures var r := h + ":" + m;
      |r| >= 4 && r[|r| - 3] == ':' && r[|r| - 2..] == m && r[..|r| - 3] == h
  {
    var r := h + ":" + m;
    assert r[|r| - 2..] == m;
    assert r[..|r| - 3] == h;
  }

  lemma HourMinuteSplit(d: int)
    requires d >= 0
    ensures (d % MsPerHour) / MsPerMinute < 60
    ensures (d / MsPerHour) * 60 + (d % MsPerHour) / MsPerMinute == d / MsPerMinute
  {
    var h := d / MsPerHour;
    var rest := d % MsPerHour;
    var m := rest / MsPerMinute;
    var s := rest % MsPerMinute;
    assert d == h * 3600000 + m * 60000 + s;
    assert d == (h * 60 + m) * 60000 + s;
  }

  datatype EnterOutcome = Cancelled | BadHours | BadDate | Entered(ledger: Ledger, entry: TimeEntry, file: string)

  predicate ValidHours(hours: Option<real>) {
    hours.Some? && 0.0 < hours.value <= 24.0
  }

  /** The date box accepts `\d{4}-\d{2}-\d{2}` that `new Date` does not reject as Invalid Date. */
  predicate ValidEntryDate(date: Option<string>) {
    date.Some? && ParseDateMs(date.value).Some?
  }

  /**
   The entry `enterTime` synthesises for a date whose UTC-midnight instant is
   `entryMs`: it starts at 09:00 of that instant's local day and lasts
   `minutes`; `format` renders instants in the configured zone.
   */
  function ManualEntry(description: string, minutes: int, entryMs: int, offsetMs: int, format: int -> string): (e: TimeEntry)
    ensures e.description == description && e.durationMinutes == minutes
    ensures exists startMs :: e.startTime == format(startMs) && e.endTime == format(startMs + minutes * MsPerMinute)
                           && (startMs + offsetMs) % MsPerDay == 9 * MsPerHour
                           && (startMs + offsetMs) / MsPerDay == (entryMs + offsetMs) / MsPerDay
  {
    var startMs := ((entryMs + offsetMs) / MsPerDay) * MsPerDay + 9 * MsPerHour - offsetMs;
    assert (startMs + offsetMs) % MsPerDay == 9 * MsPerHour;
    assert (startMs + offsetMs) / MsPerDay == (entryMs + offsetMs) / MsPerDay;
    TimeEntry(format(startMs), format(startMs + minutes * MsPerMinute), description, minutes)
  }

  /**
   `enterTime` as written: the entry is saved under the month of
   `new Date(date)` read in the host's local zone. That instant is UTC
   midnight, so west of UTC it falls on the previous local day.
   */
  function EnterTimeAsWritten(description: Option<string>, hours: Option<real>, date: Option<string>,
                              offsetMs: int, format: int -> string, ledger: Ledger): (r: EnterOutcome)
    ensures r.Entered? <==> description.Some? && description.value != "" && ValidHours(hours) && ValidEntryDate(date)
    ensures r.Entered? ==> r.entry.durationMinutes == Round(hours.value * 60.0) && r.entry.description == description.value
    ensures r.Entered? ==> r.entry.durationMinutes as real - 0.5 <= hours.value * 60.0 < r.entry.durationMinutes as real + 0.5
    ensures r.Entered? ==>
      var ms := ParseDateMs(date.value).value;
      && r.entry == ManualEntry(description.value, Round(hours.value * 60.0), ms, offsetMs, format)
      && r.file == MonthlyFileName(LocalCivil(ms, offsetMs))
      && r.ledger == SaveTimeEntry(ledger, r.file, r.entry)
  {
    if description.None? || description.value == "" then Cancelled
    else if !ValidHours(hours) then BadHours
    else if !ValidEntryDate(date) then BadDate
    else
      var ms := ParseDateMs(date.value).value;
      var entry := ManualEntry(description.value, Round(hours.value * 60.0), ms, offsetMs, format);
      var file := MonthlyFileName(LocalCivil(ms, offsetMs));
      Entered(SaveTimeEntry(ledger, file, entry), entry, file)
  }

  /**
   `enterTime` filing the entry under the month written in the date text, so
   the invoice for that month picks it up in every time zone.
   */
  function EnterTime(description: Option<string>, hours: Option<real>, date: Option<string>,
                     offsetMs: int, format: int -> string, ledger: Ledger): (r: EnterOutcome)
    ensures r.Entered? <==> description.Some? && description.value != "" && ValidHours(hours) && ValidEntryDate(date)
    ensures r.Entered? ==> 0 <= r.entry.durationMinutes <= 24 * 60
    ensures r.Entered? ==> r.entry.durationMinutes == Round(hours.value * 60.0) && r.entry.description == description.value
    ensures r.Entered? ==> r.entry.durationMinutes as real - 0.5 <= hours.value * 60.0 < r.entry.durationMinutes as real + 0.5
    ensures r.Entered? ==> r.entry == ManualEntry(description.value, Round(hours.value * 60.0), ParseDateMs(date.value).value, offsetMs, format)
    ensures r.Entered? ==> IsPeriodText(date.value[..7]) && r.file == PeriodFileName(date.value[..7])
    ensures r.Entered? ==>
      && Entries(r.ledger, r.file) == Entries(ledger, r.file) + [r.entry]
      && r.ledger.Keys == ledger.Keys + {r.file}
      && forall k :: k in ledger && k != r.file ==> r.ledger[k] == ledger[k]
  {
    if description.None? || description.value == "" then Cancelled
    else if !ValidHours(hours) then BadHours
    else if !ValidEntryDate(date) then BadDate
    else
      var ms := ParseDateMs(date.value).value;
      var entry := ManualEntry(description.value, Round(hours.value * 60.0), ms, offsetMs, format);
      var file := PeriodFileName(date.value[..7]);
      Entered(SaveTimeEntry(ledger, file, entry), entry, file)
  }

  /** Both versions accept the same input and build the same entry; they differ only in the month file. */
  lemma EnterTimeVersionsAgree(description: Option<string>, hours: Option<real>, date: Option<string>,
                               offsetMs: int, format: int -> string, ledger: Ledger)
    ensures EnterTimeAsWritten(description, hours, date, offsetMs, format, ledger).Entered?
        <==> EnterTime(description, hours, date, offsetMs, format, ledger).Entered?
    ensures EnterTime(description, hours, date, offsetMs, format, ledger).Entered? ==>
      EnterTimeAsWritten(description, hours, date, offsetMs, format, ledger).entry
        == EnterTime(description, hours, date, offsetMs, format, ledger).entry
  {
  }

  lemma March2024()
    ensures ParseDateMs("2024-03-01") == Some(19783 * MsPerDay)
  {
    DateFields("2024-03-01");
    assert 2024 / 400 == 5 && 24 / 4 == 6 && 24 / 100 == 0 && (153 * 0 + 2) / 5 == 0;
    assert DaysFromCivil(2024, 3, 1) == 19783;
  }

  lemma LeapDay2024()
    ensures CivilFromDays(19782) == Civil(2024, 2, 29)
  {
    assert 739250 / 146097 == 5;
    assert 8765 / 1460 == 6 && 8765 / 36524 == 0 && 8765 / 146096 == 0;
    assert 8759 / 365 == 23 && 23 / 4 == 5 && 23 / 100 == 0;
    assert (5 * 365 + 2) / 153 == 11 && (153 * 11 + 2) / 5 == 337;
  }

  lemma Year2024Text()
    ensures IntToString(2024) == "2024"
  {
    assert NatToString(2) == "2";
    assert NatToString(20) == "20";
    assert NatToString(202) == "202";
  }

  /** The month file of 2024-03-01 UTC midnight on a host five hours west of UTC. */
  lemma WestOfUtcMonthFile()
    ensures MonthlyFileName(LocalCivil(19783 * MsPerDay, -5 * MsPerHour)) == "time_entries_2024-02.json"
  {
    assert (19783 * MsPerDay + -5 * MsPerHour) / MsPerDay == 19782;
    LeapDay2024();
    Year2024Text();
    assert PadStart(NatToString(2), 2, '0') == "02";
  }

  /** Accepted input is filed, as written, under the local month of the date's instant. */
  lemma EnteredAsWritten(description: Option<string>, hours: Option<real>, date: Option<string>,
                         offsetMs: int, format: int -> string, ledger: Ledger)
    requires description.Some? && description.value != "" && ValidHours(hours) && ValidEntryDate(date)
    ensures EnterTimeAsWritten(description, hours, date, offsetMs, format, ledger).Entered?
    ensures EnterTimeAsWritten(description, hours, date, offsetMs, format, ledger).file
         == MonthlyFileName(LocalCivil(ParseDateMs(date.value).value, offsetMs))
  {
  }

  /** Accepted input is filed under the month its date text names. */
  lemma EnteredUnderPeriod(description: Option<string>, hours: Option<real>, date: Option<string>,
                           offsetMs: int, format: int -> string, ledger: Ledger)
    requires description.Some? && description.value != "" && ValidHours(hours) && ValidEntryDate(date)
    ensures EnterTime(description, hours, date, offsetMs, format, ledger).Entered?
    ensures EnterTime(description, hours, date, offsetMs, format, ledger).file == PeriodFileName(date.value[..7])
  {
  }

  /** As written, an entry for 2024-03-01 on a host five hours west of UTC is filed under February. */
  lemma EnterTimeWestOfUtc()
    ensures EnterTimeAsWritten(Some("Review"), Some(1.0), Some("2024-03-01"), -5 * MsPerHour, ms => "", map[]).Entered?
    ensures EnterTimeAsWritten(Some("Review"), Some(1.0), Some("2024-03-01"), -5 * MsPerHour, ms => "", map[]).file
         == "time_entries_2024-02.json"
  {
    March2024();
    EnteredAsWritten(Some("Review"), Some(1.0), Some("2024-03-01"), -5 * MsPerHour, ms => "", map[]);
    WestOfUtcMonthFile();
  }

  /** The corrected version files the same entry under March. */
  lemma EnterTimeMarchEntry()
    ensures EnterTime(Some("Review"), Some(1.0), Some("2024-03-01"), -5 * MsPerHour, ms => "", map[]).Entered?
    ensures EnterTime(Some("Review"), Some(1.0), Some("2024-03-01"), -5 * MsPerHour, ms => "", map[]).file
         == "time_entries_2024-03.json"
  {
    March2024();
    EnteredUnderPeriod(Some("Review"), Some(1.0), Some("2024-03-01"), -5 * MsPerHour, ms => "", map[]);
    MarchFile();
  }

  lemma MarchFile()
    ensures PeriodFileName("2024-03-01"[..7]) == "time_entries_2024-03.json"
  {
    assert "2024-03-01"[..7] == "2024-03";
  }
}
